=== FILE: README.md ===
# SmartTime in Dafny

SmartTime is a study-planning web application for university students. It
has a Django backend and a React client. This project models the logic of
both halves as pure Dafny functions over immutable data, and proves
properties of that logic.

**Backend (`Backend/Apps`)**
- The task state lifecycle: `inicio` → `en_desarrollo` → `finalizado` → `entregado`.
  - The state-change view and its serializer.
  - The hide view and the completed/pending counters.
- Registration and password-reset validation.
- The star score of a date range.
- The weekly status counters.
- The learning-profile questionnaire and the study-method recommendation.
- The overload and ordering suggestions sent after a record is created.
- The calendar viewsets and the "today" list.

**Client (`frontend/src`)**
- The month grid and the drag-and-drop cell of the calendar.
- The task list page, the task row and the task form.
- The Pomodoro timer and the anti-procrastination countdown.
- The status chart, the dashboard, the statistics page and the settings page.
- The planning, course/topic, recommendation and profile-test pages.
- The header notifications and the sidebar.
- The error handling of the HTTP services.
- The two in-memory mock services.

**How values are represented**
- JavaScript values are a datatype `Val` that covers undefined, null, booleans, integers, NaN, strings, arrays and objects.
- An object is a `map<string, Val>`, and an absent key reads as undefined.
- Truthiness, `||`, `??`, spreading and `parseInt` are written out in `JsValue`.
- Dates are day numbers counted from 1970-01-01 (`Dates`).
- JavaScript `Date` values are milliseconds (`JsDate`).
- Every string sort in the source is one stable insertion sort on a string key (`StableSort`).

**What stands in for the outside world**
- Each database query and each HTTP request is an explicit outcome that the caller passes in.
  This covers server answers, rejections with their error body, and the rows the ORM returns.
- The current time, the time zone, `Math.random`, `Date.now()`, `window.confirm` and storage contents are parameters.
- React state updates are functions from the old page state to the new one.
- A timer interval is a step function applied once per second.

## Model

| member | source | states |
|---|---|---|
| BackendModel.Index | Backend/Apps/Tareas/views.py:26-29 | `orden.index(e)`: the position of a state in the fixed lifecycle order, and the first one holding it |
| BackendModel.EstadoOfName | Backend/Apps/Tareas/views.py:19-21 | a name is one of the four choices exactly when it names a state, and then it names that state |
| EstadoSerializer.ValidateEstado | Backend/Apps/Tareas/serializers.py:9-17 | a requested state is accepted, and returned unchanged, iff its index is exactly one past the current state's |
| EstadoSerializer.OnlyTheNextStep | Backend/Apps/Tareas/serializers.py:13-16 | re-submitting the current state, moving back and skipping ahead are all refused |
| EstadoSerializer.SuccessorIsUnique | Backend/Apps/Tareas/serializers.py:11-16 | from every state but 'entregado' exactly one value is accepted; from 'entregado' none is |
| TaskStatus.Patch | Backend/Apps/Tareas/views.py:13-38 | 404 iff the task is missing; 400 for a name outside the four choices, before any row is touched; 200 iff the move is one step forward from the current state (a missing row counts as 'inicio' and is created), and the row then holds the new state with `fecha_estado` restamped to the day of the request (`auto_now`); a refused valid name leaves an existing row as it was, date included, or a row created that day in 'inicio' |
| TaskStatus.GetOrCreate | Backend/Apps/Tareas/views.py:23 | the existing row is returned unchanged; a missing one is created in 'inicio' with `fecha_estado` stamped today (`auto_now`, Tareas/models.py line 15) |
| TaskStatus.InvalidNameTouchesNothing | Backend/Apps/Tareas/views.py:19-21 | an unknown state name is answered 400 and the row is unchanged |
| TaskStatus.NothingAfterEntregado | Backend/Apps/Tareas/views.py:31-38 | from 'entregado' no request is accepted and the stored row, state and date, stays |
| TaskStatus.FirstMoveFromNoRow | Backend/Apps/Tareas/views.py:23-34 | a task without a state row accepts only 'en_desarrollo'; any other valid request leaves a new 'inicio' row dated that day |
| TaskStatus.AgreesWithSerializer | Backend/Apps/Tareas/views.py:26-31 | the view and the serializer accept exactly the same moves of an existing row |
| TaskStatus.StepsCountAccepted | Backend/Apps/Tareas/views.py:31-38 | after any sequence of requests the state's lifecycle position has advanced by exactly the number accepted |
| TaskStatus.LateDeliveryCostsStars | Backend/Apps/Gamificacion/views.py:45-51 | the stars read the date of the last state write: a task finished by its due date scores 3, and once it is marked 'entregado' after the due date the restamped row scores 1 |
| TaskStatus.Hide | Backend/Apps/Tareas/views.py:44-52 | 404 for a missing task; otherwise the task comes back hidden and with nothing else changed |
| TaskStatus.CountCompletedPending | Backend/Apps/Tareas/views.py:58-76 | completadas counts the visible tasks in 'finalizado' or 'entregado'; pendientes counts the visible tasks in 'inicio' or 'en_desarrollo' or without a row |
| TaskStatus.EveryVisibleTaskOnce | Backend/Apps/Tareas/views.py:59-71 | the two counters add up to the number of visible tasks: each is counted once, hidden tasks never |
| Registration.CriteriosPassword | Backend/Apps/Autenticacion/serializers.py:65-77 | accepted iff 8 to 20 characters with an upper-case letter, a lower-case letter, a digit, an ASCII punctuation character and no space; otherwise the error reported is the first rule broken, in the order the checks run |
| Registration.ValidateEmail | Backend/Apps/Autenticacion/serializers.py:23-27 | accepted iff the address ends with '@unmsm.edu.pe' |
| Registration.FirstBlank | Backend/Apps/Autenticacion/serializers.py:30-33 | the first required field, in the listed order, that is missing or empty; None when all are filled |
| Registration.ValidateRegistration | Backend/Apps/Autenticacion/serializers.py:29-37 | passes iff every required field is filled and the two passwords agree; a reported blank field is required and blank; a mismatch is reported only when no field is blank |
| Registration.BlankBeforeMismatch | Backend/Apps/Autenticacion/serializers.py:31-35 | a blank field is reported in preference to a password mismatch |
| Registration.CreateFields | Backend/Apps/Autenticacion/serializers.py:44-47 | the user is built from every validated field except the confirmation, with the same values |
| Registration.Register | Backend/Apps/Autenticacion/serializers.py:23-47 | a registration succeeds iff the e-mail and password validators and the form checks pass; a success has a strong, confirmed password and an institutional address, and yields the fields without the confirmation |
| Registration.SetNewPassword | Backend/Apps/Autenticacion/serializers.py:53-62 | a reset is accepted iff the two passwords agree and meet the criteria; a mismatch is reported as such |
| Registration.ResetNeverAbove20 | Backend/Apps/Autenticacion/serializers.py:54-61 | although the field admits 64 characters, any password longer than 20 is refused by the criteria |
| Scoring.MonthField | Backend/Apps/Gamificacion/views.py:28-29 | the `%m` directive reads a month from 1 to 12 |
| Scoring.DayField | Backend/Apps/Gamificacion/views.py:28-29 | the `%d` directive reads a day from 1 to 31 |
| Scoring.ParseStrptime | Backend/Apps/Gamificacion/views.py:28-29 | `datetime.strptime(s, '%Y-%m-%d')`: four year digits, a dash, a `%m` month, a dash and a `%d` day that exist together from year 1 on; anything else is the ValueError (None). Its agreement with the strict ISO reading is `Scoring.StrptimeAcceptsIso` |
| Scoring.StrptimeAcceptsIso | Backend/Apps/Gamificacion/views.py:27-31 | every strict `YYYY-MM-DD` date from year 1 on is accepted by the `%Y-%m-%d` parse with the same day |
| Scoring.TaskStars | Backend/Apps/Gamificacion/views.py:44-51 | a task earns stars iff it is finished, and 3 iff it was finished on or before its due date (else 1) |
| Scoring.FirstMonday | Backend/Apps/Gamificacion/views.py:54 | the earliest Monday on or after the start, at most six days later |
| Scoring.LastSunday | Backend/Apps/Gamificacion/views.py:55 | the latest Sunday on or before the end, at most six days earlier |
| Scoring.VisitedWeeksInside | Backend/Apps/Gamificacion/views.py:57-85 | every week the loop visits starts on a Monday and lies wholly inside [fecha_inicio, fecha_fin] |
| Scoring.Score | Backend/Apps/Gamificacion/views.py:18-106 | 400 iff a date is missing, empty or not in `%Y-%m-%d` form; otherwise total and completadas count the visible tasks due in the range (and finished), stars are the per-task stars plus 2 per complete week, completadas <= total and stars <= 3·total + 2·weeks |
| Scoring.TaskPass | Backend/Apps/Gamificacion/views.py:39-51 | the per-task loop: the count of due tasks, of finished ones, and their stars, bounded by three per task |
| Scoring.WeekPass | Backend/Apps/Gamificacion/views.py:57-85 | the week loop counts the complete weeks among those visited, never more than were visited |
| Scoring.WeekCheck | Backend/Apps/Gamificacion/views.py:64-83 | a week counts iff it has a visible task due in it and every such task was finished on or before its due date |
| Scoring.CompletedAmongDue | Backend/Apps/Gamificacion/views.py:33-47 | counting finished tasks among the due ones equals counting the tasks that are due and finished |
| WeeklyStatus.WeekStart | Backend/Apps/Estadisticas/views.py:15-17 | the Monday of today's week: a Monday no later than today and less than seven days before it |
| WeeklyStatus.Classify | Backend/Apps/Estadisticas/views.py:44-69 | a task without a state goes to por_hacer when due this week, else to en_proceso_fuera_fecha when overdue, else nowhere; 'inicio'/'en_desarrollo' goes to fuera when overdue, else dentro; a finished task is counted only when due this week or earlier, as dentro iff finished by its due date |
| WeeklyStatus.Tally | Backend/Apps/Estadisticas/views.py:29-69 | each counter holds the number of tasks of its bucket, and their sum is the number of tasks counted, at most the number of tasks |
| WeeklyStatus.TallyCounts | Backend/Apps/Estadisticas/views.py:29-69 | the counters after the loop are the bucket sizes: no task increments more than one counter |
| WeeklyStatus.Divisor | Backend/Apps/Estadisticas/views.py:71 | the divisor is the counters' sum, or 1 when they are all zero: never zero |
| WeeklyStatus.InProgressAlwaysCounted | Backend/Apps/Estadisticas/views.py:52-56 | a task in 'inicio' or 'en_desarrollo' is always counted |
| LearningProfile.Contribution | Backend/Apps/Aprendizaje_adaptativo/views.py:37-42 | with scores doubled: a single-method question adds twice its valor to that method, a mixed one adds valor to Pomodoro and to Feynman, any other tag adds nothing |
| LearningProfile.ScoresShareKnownTotal | Backend/Apps/Aprendizaje_adaptativo/views.py:34-42 | the three scores add up to (twice) the valor of the answers whose question carries one of the five known tags |
| LearningProfile.RankedInOrder | Backend/Apps/Aprendizaje_adaptativo/views.py:45 | the descending sort lists the three methods once each, each with a score at least the next's and ahead of it on ties in key order |
| LearningProfile.RankedUnrolled | Backend/Apps/Aprendizaje_adaptativo/views.py:45 | the stable insertion ranking equals the case-by-case ranking of three methods |
| LearningProfile.ProfileOf | Backend/Apps/Aprendizaje_adaptativo/views.py:45-47 | the profile's secondary method is never its principal one |
| LearningProfile.Post | Backend/Apps/Aprendizaje_adaptativo/views.py:17-58 | 400 iff the answer list is missing or empty; an answer to an unknown question fails; a profile's secondary differs from its principal |
| LearningProfile.PrincipalIsBest | Backend/Apps/Aprendizaje_adaptativo/views.py:45-46 | the principal method has a maximal score, and is the first of Pomodoro, Feynman, Leitner to have it |
| LearningProfile.SecondaryIsRunnerUp | Backend/Apps/Aprendizaje_adaptativo/views.py:45-47 | the secondary method, when present, is the runner-up of the ranking and has a positive score; it is absent iff the runner-up scores 0 or less |
| LearningProfile.SaveAnswers | Backend/Apps/Aprendizaje_adaptativo/views.py:23-31 | after the upserts the stored questions are those stored before plus those answered |
| LearningProfile.LastAnswerWins | Backend/Apps/Aprendizaje_adaptativo/views.py:24-31 | the value stored for a question is that of its last answer in the list |
| LearningProfile.KeptWhenNotAnswered | Backend/Apps/Aprendizaje_adaptativo/views.py:24-31 | a stored question nobody answers keeps its value |
| MethodRecommendation.Elegir | Backend/Apps/Aprendizaje_adaptativo/services.py:14-26 | the chosen method is always one of the topic's three priorities |
| MethodRecommendation.ElegirPrefersProfile | Backend/Apps/Aprendizaje_adaptativo/services.py:21-26 | the principal method when the topic lists it, else the secondary when listed, else prioridad_1 |
| MethodRecommendation.Recomendar | Backend/Apps/Aprendizaje_adaptativo/services.py:4-42 | a missing profile or missing priorities raise; otherwise the method returned is listed by the topic and is the one stored in the new recommendation row |
| Suggestions.Day | Backend/Apps/Notificacion/utils.py:83-88 | the day examined is fechaRealizacion for a task and fecha for any other record |
| Suggestions.LoadAppend | Backend/Apps/Notificacion/utils.py:90-104 | a day's load over two lists of records is the sum of their loads |
| Suggestions.NonAcademicNeverLoads | Backend/Apps/Notificacion/utils.py:92-94 | a non-academic activity never adds to any day's load |
| Suggestions.VerificarSobrecarga | Backend/Apps/Notificacion/utils.py:82-111 | the overload warning is sent iff the tasks, classes and study sessions on that day last more than ten hours in all, and it names that day |
| Suggestions.NoWarningFromLeisure | Backend/Apps/Notificacion/utils.py:92-111 | adding a non-academic activity to a day within ten hours draws no warning |
| Suggestions.ReorderMessage | Backend/Apps/Notificacion/utils.py:123-141 | the message for an inverted pair names first the task due first |
| Suggestions.VerificarOrden | Backend/Apps/Notificacion/utils.py:114-142 | no suggestion iff no other task (by id) is realised in the opposite order to its delivery; otherwise exactly one, for the first such task in list order |
| Suggestions.EqualDatesNeverTrigger | Backend/Apps/Notificacion/utils.py:118-134 | tasks sharing the new task's realization date or delivery date never trigger a suggestion |
| Suggestions.SameIdIsSkipped | Backend/Apps/Notificacion/utils.py:115 | a record with the new task's id is excluded and changes nothing |
| Suggestions.SugerenciaActividad | Backend/Apps/Notificacion/utils.py:75-79 | at most two suggestions; an overload one iff the day is overloaded; the ordering check runs only for a task |
| CalendarApi.RecordKeysDistinct | Backend/Apps/Calendario/views.py:45-54 | the four create responses put the record under four different keys |
| CalendarApi.Update | Backend/Apps/Calendario/views.py:37-43 | a PUT is answered 405 with a detail and nothing is updated; any other method goes on to the update |
| CalendarApi.SameGuardEverywhere | Backend/Apps/Calendario/views.py:85-91 | the four viewsets answer every method alike |
| CalendarApi.Create | Backend/Apps/Calendario/views.py:33-54 | an invalid payload is answered 400 and nothing is saved; a valid one is saved, answered 201 with the record under its kind's key, and runs the suggestions except for a non-academic activity (line 177) |
| CalendarApi.Tag | Backend/Apps/Calendario/views.py:240-248 | every record of a list is tagged with that list's tipo, and nothing else changes |
| CalendarApi.ActividadesDeHoy | Backend/Apps/Calendario/views.py:222-253 | the today list is a permutation of the four tagged lists' concatenation, sorted by horaInicio |
| CalendarApi.TodayTagsTellTheSource | Backend/Apps/Calendario/views.py:240-251 | every listed record carries one of the four tags, and it is a record of the list named by its tag |
| CalendarApi.TagMember | Backend/Apps/Calendario/views.py:241 | a tagged record comes from the list it was tagged with |
| CalendarApi.TodayTiesKeepListOrder | Backend/Apps/Calendario/views.py:240-251 | records starting at the same time keep the concatenation's order: tasks, study sessions, classes, other activities, and each list's own order |
| ServiceErrors.Values | frontend/src/services/authService.js:13 | `Object.values` of an error body: an object's values in its key order, an array's own elements |
| ServiceErrors.Flat | frontend/src/services/authService.js:13 | one level of flattening: every non-array value and every element of an array value survive |
| ServiceErrors.ErrorMessage | frontend/src/services/authService.js:6-18 | a truthy detail wins, then a truthy message, then a non-empty string body, then the joined field errors of an object or array body when non-empty; a falsy body, and a truthy one offering none of these (a number, `true`, `{}`, field errors joining to ''), give the error's own message or the default |
| ServiceErrors.JoinEmpty | frontend/src/services/authService.js:13-14 | joining with a space is empty exactly when there is nothing to join or one empty part, which is when the field-error branch falls through |
| ServiceErrors.MessageNeverEmpty | frontend/src/services/authService.js:6-18 | with a non-empty default the chosen message is always truthy |
| ServiceErrors.ManyFieldErrorsAreShown | frontend/src/services/authService.js:12-14 | a body with two or more field messages is always reported as those messages joined |
| ServiceErrors.EmptyFieldListsFallBack | frontend/src/services/authService.js:12-17 | a body whose fields all hold empty lists falls back to the error's message or the default |
| ServiceErrors.FlatOfEmptyLists | frontend/src/services/authService.js:13 | flattening a list of empty lists leaves nothing |
| ServiceErrors.ErrorText | frontend/src/services/authService.js:29 | `new Error(m).message`: a string is kept, undefined becomes the empty message |
| ServiceErrors.Call | frontend/src/services/userService.js:20-28 | a service call resolves iff the request succeeds, with the response body; a failure is thrown with the message chosen from the error |
| ServiceErrors.ThrownMessageNonEmpty | frontend/src/services/authService.js:20-31 | with a non-empty default, a thrown error never carries an empty message, provided the value picked as the message is not an array: neither the body's `detail` or `message` nor the error's own message is one. An empty array picked as `detail` is truthy yet gives `new Error([]).message == ''` |
| ServiceErrors.NonEmptyString | frontend/src/services/authService.js:29 | the string form of a truthy non-array value is never empty |
| ServiceErrors.Logout | frontend/src/services/authService.js:67-79 | the stored token is removed whatever the server says and nothing else in storage changes; the call resolves to the server's answer, or to null on failure |
| ServiceErrors.LogoutClearsEitherWay | frontend/src/services/authService.js:67-79 | the storage after logging out is the same whether the server accepts or rejects, and logging out again changes nothing |
| MockStore.Update | frontend/src/services/taskService.mock.js:10-13 | records with the id get the patch spread over them, all others are kept, the length is unchanged |
| MockStore.UpdateKeepsIds | frontend/src/services/taskService.mock.js:11 | a patch without an id keeps every record's id |
| MockStore.UpdateResolvesToNothing | frontend/src/services/taskService.mock.js:12 | the update resolves to undefined iff no record has the id |
| MockStore.UpdateResolvesToFirstMatch | frontend/src/services/taskService.mock.js:12 | otherwise it resolves to the first record with the id, patched |
| MockStore.Delete | frontend/src/services/taskService.mock.js:15-18 | exactly the records without the id are kept, in order, and the list shrinks by the number of records that had it |
| MockStore.FilterCountComplement | frontend/src/services/taskService.mock.js:16 | records kept plus records with the id make up the whole list |
| MockStore.DeleteUndoesAppend | frontend/src/services/calendarService.mock.js:10-22 | appending a record with a fresh id and deleting that id gives back the list |
| CalendarMock.ByType | frontend/src/services/calendarService.mock.js:7 | exactly the records tagged with the given tipo, in store order |
| CalendarMock.Create | frontend/src/services/calendarService.mock.js:10-14 | the record is the data with a fresh id and the list's tipo, appended at the end; the other fields are the data's |
| CalendarMock.Activities | frontend/src/services/calendarService.mock.js:70-79 | the records listed are exactly those carrying one of the four lower-case tags |
| CalendarMock.ActivitiesNoLonger | frontend/src/services/calendarService.mock.js:70-79 | no record is listed twice: the list is never longer than the store |
| CalendarMock.CreatedIsListed | frontend/src/services/calendarService.mock.js:10-14 | a record just created through one of the four creators is listed |
| CalendarMock.SeedIsNeverListed | frontend/src/data/calendarData.js:3-48 | the sample records carry capitalised tags ('Tarea', 'Estudio', …), which the lower-case getters never match, so none of them is listed |
| TaskMock.StatusPatch | frontend/src/services/taskService.mock.js:22 | the status change writes the new state and marks the task completed iff that state is 'finalizado' |
| TaskMock.SetStatus | frontend/src/services/taskService.mock.js:20-25 | the tasks with the id get the new state and the matching completed flag; the others are untouched |
| TaskMock.SetStatusResolves | frontend/src/services/taskService.mock.js:24 | the status setter resolves to the first task with the id, changed |
| TaskMock.SetStatusIdempotent | frontend/src/services/taskService.mock.js:20-25 | setting the same state twice equals setting it once |
| TaskMock.Canonical | frontend/src/services/taskService.mock.js:32-37 | each of the six canonical fields takes the short-named value when truthy, else the canonical one |
| TaskMock.NamesApart | frontend/src/services/taskService.mock.js:32-46 | the short names deleted are neither canonical names nor `id` or `completado` |
| TaskMock.Spread | frontend/src/services/taskService.mock.js:27-38 | the new object has the data's keys plus id, completado and the canonical fields; copied keys keep the data's values |
| TaskMock.DropLegacy | frontend/src/services/taskService.mock.js:41-46 | the deletions remove exactly the six short names and nothing else |
| TaskMock.Create | frontend/src/services/taskService.mock.js:26-50 | the new task is appended with a fresh id, not completed, the canonical fields filled from either spelling and no short-named field left |
| TaskMock.CanonicalDataKept | frontend/src/services/taskService.mock.js:32-46 | data that already uses the canonical names keeps its values and gains no short-named field |
| TaskMock.CreateThenDelete | frontend/src/services/taskService.mock.js:15-50 | a new task starts open, and deleting it right away gives back the list |
| PlanModal.Sessions | frontend/src/components/ModalPlanEstudio.jsx:20-24 | the sessions are the first of `sesiones`, `bloques`, `sesiones_generadas` that is an array, else none |
| PlanModal.FormatDateTime | frontend/src/components/ModalPlanEstudio.jsx:26-31 | empty when both are falsy; otherwise it starts with the date (or nothing), and without an hour it is just the date |
| PlanModal.SecondsAreCut | frontend/src/components/ModalPlanEstudio.jsx:28-30 | an hour with seconds is shown as its first five characters after the date |
| PlanModal.HourWithoutDate | frontend/src/components/ModalPlanEstudio.jsx:29-30 | an hour alone is still shown, after an empty date |
| PlanModal.Total | frontend/src/components/ModalPlanEstudio.jsx:56 | the total is `sesiones_generadas` unless nullish, then `total_sesiones` unless nullish, then the number of sessions |
| PlanModal.ZeroTotalIsShown | frontend/src/components/ModalPlanEstudio.jsx:56 | a reported count of zero is shown as zero, not replaced |
| PlanModal.FirstOf | frontend/src/components/ModalPlanEstudio.jsx:69-73 | the first truthy of four fields, else the fallback |
| PlanModal.CardOf | frontend/src/components/ModalPlanEstudio.jsx:67-83 | a card's type, number, date-time and end hour come from the first usable field of each list of names |
| PlanModal.CardFallbacks | frontend/src/components/ModalPlanEstudio.jsx:69-79 | every card has a type to show; a session numbered 0 keeps its number, and one with no number shows none |
| PlanModal.Render | frontend/src/components/ModalPlanEstudio.jsx:16-87 | nothing for a falsy plan; otherwise the message or its default, a summary iff the plan has `planificacion`, one card per session in order, and the empty notice iff there are none |
| PlanModal.SummaryTopicFallback | frontend/src/components/ModalPlanEstudio.jsx:53 | the summary's topic falls back to `tema_id` and then to '-' |
| Sidebar.ActiveRules | frontend/src/components/Sidebar.jsx:56 | the logout entry is never highlighted; an entry is highlighted on its own path and on any path that starts with it |
| Sidebar.RawPrefixHighlights | frontend/src/components/Sidebar.jsx:56 | with no segment boundary in the test, '/tasks-archive' highlights the Tareas entry |
| Sidebar.PrefixesNest | frontend/src/components/Sidebar.jsx:56 | two prefixes of one path nest |
| Sidebar.RoutesApart | frontend/src/components/Sidebar.jsx:17-24 | no route of the sidebar starts with another |
| Sidebar.AtMostOneActive | frontend/src/components/Sidebar.jsx:42-56 | at most one entry is highlighted, whatever the path |
| Sidebar.HandleLogout | frontend/src/components/Sidebar.jsx:30-40 | the user is always sent to the login page; the plain farewell is shown iff the logout call resolved |
| Sidebar.LogoutAlwaysLooksClean | frontend/src/components/Sidebar.jsx:30-40 | because the logout service swallows server failures, the user always gets the plain farewell and the token is always gone |
| TaskItem.EstadoActual | frontend/src/components/TaskItemT.jsx:13 | a falsy state reads as 'inicio'; any other is kept |
| TaskItem.IsEntregado | frontend/src/components/TaskItemT.jsx:7 | a task is delivered when its state is 'entregado' or its `entregado` flag is truthy; `TaskItem.RowOf` and `TaskItem.DeliveredReadsTwoWays` state its use |
| TaskItem.Click | frontend/src/components/TaskItemT.jsx:21-38 | each button asks for the task's id and its own state |
| TaskItem.RowOf | frontend/src/components/TaskItemT.jsx:7-38 | the text cells with their fallbacks, the delivered marking iff the state is 'entregado' or the flag is truthy, and which buttons are lit |
| TaskItem.OneButtonLit | frontend/src/components/TaskItemT.jsx:21-38 | never two buttons lit; one iff the current state is one of the three, and 'inicio' for a task without state |
| TaskItem.ClickLightsThatButton | frontend/src/components/TaskItemT.jsx:21-38 | with the mock list behind the page, clicking a button lights exactly it and marks the task completed iff it is 'finalizado' |
| TaskItem.DeliveredReadsTwoWays | frontend/src/components/TaskItemT.jsx:7-13 | a delivered task is marked delivered with no button lit, while the status chart counts it as still to do |
| TaskPage.Replace | frontend/src/pages/TaskPage.jsx:56-58 | same length; every record with the id becomes the answer, the others are kept |
| TaskPage.Fetched | frontend/src/pages/TaskPage.jsx:23-38 | on success the fetched list (empty for a null answer) and no error; on failure an empty list and the error or its default; loading ends either way |
| TaskPage.Open | frontend/src/pages/TaskPage.jsx:40-48 | the form opens on the given task (none for a new one) and the list is untouched |
| TaskPage.FormSubmit | frontend/src/pages/TaskPage.jsx:50-70 | on success an edit with an id replaces that id's records and anything else appends the answer, and the form closes; on failure the list and form stay and the message names an update iff a task was being edited |
| TaskPage.CreateAppendsOne | frontend/src/pages/TaskPage.jsx:59-61 | creating adds exactly one task, the answer, at the end |
| TaskPage.EditWithoutIdCreates | frontend/src/pages/TaskPage.jsx:54-66 | an edited task without id is created anew, yet its failure speaks of an update |
| TaskPage.DeleteTask | frontend/src/pages/TaskPage.jsx:72-81 | nothing without confirmation; on success the id's records go; on failure the list stays and the error is shown |
| TaskPage.DeleteRemovesId | frontend/src/pages/TaskPage.jsx:76 | after a confirmed delete no record has the id and the rest keep their order |
| TaskPage.ToggleEntregado | frontend/src/pages/TaskPage.jsx:83-92 | the request sends the negated flag; on success the id's records become the answer, on failure the list stays |
| TaskPage.SetStatus | frontend/src/pages/TaskPage.jsx:94-103 | on success the id's records become the answer; on failure the list stays and the error is shown |
| TaskPage.SetStatusStaysInStep | frontend/src/pages/TaskPage.jsx:94-103 | with distinct ids, the page's list after a status change equals the store's list after the same patch |
| StatsPage.Filtered | frontend/src/pages/StatsPage.jsx:57-63 | exactly the entries in the chosen range are kept, in history order |
| StatsPage.NoBoundsKeepAll | frontend/src/pages/StatsPage.jsx:58 | with neither bound the whole history is shown |
| StatsPage.BoundsAreInclusiveDays | frontend/src/pages/StatsPage.jsx:59-62 | for date-shaped weeks and bounds, an entry is kept iff its week lies between the bounds, both included |
| StatsPage.BadBoundHidesAll | frontend/src/pages/StatsPage.jsx:59-62 | a lower bound that is not a date hides every entry |
| StatsPage.Plus | frontend/src/pages/StatsPage.jsx:65 | JavaScript addition: two numbers add, NaN stays NaN against a non-string |
| StatsPage.Total | frontend/src/pages/StatsPage.jsx:65 | the reduce from 0 over the whole history with JavaScript `+`; its value is the star sum (`StatsPage.TotalIsSum`) or NaN (`StatsPage.MissingStarsPoisonTotal`) |
| StatsPage.TotalIsSum | frontend/src/pages/StatsPage.jsx:65 | with numeric stars, the total is their sum over the whole history, whatever the filter shows |
| StatsPage.MissingStarsPoisonTotal | frontend/src/pages/StatsPage.jsx:65 | one entry without stars makes the total NaN |
| StatsPage.TotalNeverText | frontend/src/pages/StatsPage.jsx:65 | without textual stars the total is a number or NaN |
| StatsPage.ShownStarsWithinTotal | frontend/src/pages/StatsPage.jsx:57-65 | with non-negative stars, the stars of the weeks shown never exceed the total |
| SettingsPage.Loaded | frontend/src/pages/SettingsPage.jsx:33-43 | each field comes from the profile, '' when falsy; the password field stays empty |
| SettingsPage.Payload | frontend/src/pages/SettingsPage.jsx:48-55 | the five profile fields always, and the password iff one was typed |
| SettingsPage.LoadedProfileSendsNoPassword | frontend/src/pages/SettingsPage.jsx:33-55 | saving a freshly loaded profile never sends a password |
| SettingsPage.SubmitAlert | frontend/src/pages/SettingsPage.jsx:56-59 | the success alert iff the update succeeded |
| SettingsPage.LoadPrefs | frontend/src/pages/SettingsPage.jsx:113-119 | each switch takes its stored value unless null or undefined, else its default; nothing stored means all defaults |
| SettingsPage.Defaults | frontend/src/pages/SettingsPage.jsx:108-118 | without stored preferences only notifications are on |
| SettingsPage.SavePrefs | frontend/src/pages/SettingsPage.jsx:121-130 | the stored object has exactly the four switches with their values |
| SettingsPage.SaveThenLoad | frontend/src/pages/SettingsPage.jsx:113-130 | reading back what was saved gives the same switches |
| SettingsPage.Toggle | frontend/src/pages/SettingsPage.jsx:135-144 | a switch becomes the negation of its value and the others stay |
| SettingsPage.ToggleTwice | frontend/src/pages/SettingsPage.jsx:135-144 | flipping a switch twice restores it |
| CalendarPage.FirstOfMonth | frontend/src/pages/CalendarPage.jsx:369 | `new Date(year, month, 1)`: a valid first of a month, with years 0 to 99 read as 19xx and an out-of-range month carried into the year |
| CalendarPage.BlankCells | frontend/src/pages/CalendarPage.jsx:374-377 | the number of blank cells is the first day's weekday counted from Monday |
| CalendarPage.JsYear | frontend/src/pages/CalendarPage.jsx:369 | the year rule of the `Date` constructor: years 0 to 99 name 1900 to 1999, others are themselves; `CalendarPage.FirstOfMonth` states its use |
| CalendarPage.GetMonthDays | frontend/src/pages/CalendarPage.jsx:368-392 | the weekday-offset blank cells, then the month's days 1 to its length, in order |
| CalendarPage.GridColumnIsWeekday | frontend/src/pages/CalendarPage.jsx:368-392 | every day sits in the column of its weekday, Monday first |
| CalendarPage.FormatToHHMM | frontend/src/pages/CalendarPage.jsx:45-48 | '' for a falsy time, else its first five characters (all of it when shorter) |
| CalendarPage.FormatToHHMMIdempotent | frontend/src/pages/CalendarPage.jsx:45-48 | cutting an already cut time changes nothing |
| CalendarPage.MapToFrontendTask | frontend/src/pages/CalendarPage.jsx:143-202 | an unknown type maps to an empty record; a known one always carries id, type, start time and a date, which for a task is its realization date and for the rest their `fecha` |
| CalendarPage.Weeks | frontend/src/pages/CalendarPage.jsx:345 | the number of weeks is never 0: NaN and 0 both fall back to one |
| CalendarPage.CopiesOf | frontend/src/pages/CalendarPage.jsx:344-354 | at least one record; exactly one unless a class or non-academic activity is repeated, and then the number of weeks when above one |
| CalendarPage.WeekDates | frontend/src/pages/CalendarPage.jsx:347-352 | the dates of the series, one per week from the first; `CalendarPage.CopiesAreWeekly` states that copy i falls i weeks later on the same weekday |
| CalendarPage.CopyFields | frontend/src/pages/CalendarPage.jsx:349-353 | a copy has the first record's fields with only its id and date replaced |
| CalendarPage.Expand | frontend/src/pages/CalendarPage.jsx:342-355 | one record per week asked for, the record itself first, and only it when it does not repeat; nothing is added exactly when a copy is needed and the date cannot be read |
| CalendarPage.ExpandIsSeries | frontend/src/pages/CalendarPage.jsx:342-357 | a repeated creation with a valid first date adds the weekly series that starts on that date |
| CalendarPage.CopiesAreWeekly | frontend/src/pages/CalendarPage.jsx:346-353 | in that series, record i is dated exactly i weeks after the first, on the same weekday, with the id '_' and its random part, and keeps every other field of the first |
| CalendarPage.AddCreated | frontend/src/pages/CalendarPage.jsx:357 | the new records come after the old ones, which are kept; nothing changes when the expansion failed |
| CalendarPage.SaveEdit | frontend/src/pages/CalendarPage.jsx:260-264 | records with the edited id take the form data over their own fields; the others are kept |
| CalendarPage.SaveEditIdempotent | frontend/src/pages/CalendarPage.jsx:260-264 | saving the same edit twice is saving it once |
| CalendarPage.DeleteActivity | frontend/src/pages/CalendarPage.jsx:49-95 | a record without id stays; a browser-local one is dropped without a request; a server record of a known type sends that type's delete and is dropped only on success; an unknown type sends nothing and stays |
| CalendarPage.DeleteRemovesOnlyThatId | frontend/src/pages/CalendarPage.jsx:87 | after a delete no record has that id, every other record is kept, and the order is unchanged |
| CalendarDay.MidnightInUtc | frontend/src/components/CalendarDay.jsx:13 | local midnight is the same UTC day at or west of UTC and the previous UTC day east of it |
| CalendarDay.DateStrAsWritten | frontend/src/components/CalendarDay.jsx:12-14 | as written: null for a blank cell, else the ISO date of local midnight read in UTC |
| CalendarDay.LocalDay | frontend/src/components/CalendarDay.jsx:13 | `new Date(year, month, dayNumber)`: the day number of the cell's local day, with the constructor's year rule and month carry |
| CalendarDay.UtcDayOfMidnight | frontend/src/components/CalendarDay.jsx:13 | the UTC day of local midnight in a zone so many minutes east of UTC; `CalendarDay.MidnightInUtc` states it by the zone's sign |
| CalendarDay.CellDateShiftsEastOfUtc | frontend/src/components/CalendarDay.jsx:12-14 | east of UTC the written cell date is the day before the cell's day, so it differs from the intended one |
| CalendarDay.DateStr | frontend/src/components/CalendarDay.jsx:12-14 | as intended: null for a blank cell, else an ISO date string |
| CalendarDay.DateStrIsTheCellDay | frontend/src/components/CalendarDay.jsx:12-14 | the intended date parses back to the cell's own day, and agrees with the written one at or west of UTC |
| CalendarDay.CalendarDate | frontend/src/components/CalendarDay.jsx:17-22 | a task's realization date; for other records their `fecha`, else their `date`, else null |
| CalendarDay.MappedRecordDate | frontend/src/pages/CalendarPage.jsx:143-202 | a record built by `mapToFrontendTask` is shown on the date the server gave it: a task on its realization date, another record on its `fecha`, and on no day when that is empty |
| CalendarDay.DayTasks | frontend/src/components/CalendarDay.jsx:24-26 | a permutation of the records dated on the cell, sorted by start time |
| CalendarDay.ShownIffOnDate | frontend/src/components/CalendarDay.jsx:24-26 | a record is shown iff it is dated on the cell, and records with equal start times keep their list order |
| CalendarDay.Move | frontend/src/components/CalendarDay.jsx:39-50 | records with the dropped id get the new date in their type's date field; the others are kept |
| CalendarDay.UpdateCallFor | frontend/src/components/CalendarDay.jsx:53-68 | a request is sent iff the type is one of the four, with the id and the new date, under `fechaRealizacion` exactly for a task |
| CalendarDay.Drop | frontend/src/components/CalendarDay.jsx:29-88 | a blank cell or an item without id changes nothing; a browser-local item moves without a request; a server item moves after its request and stays put when the request fails |
| CalendarDay.DroppedRecordLandsOnTheDay | frontend/src/components/CalendarDay.jsx:29-50 | a record dropped on a cell then carries that cell's date as its calendar date |
| CalendarDay.DayClick | frontend/src/components/CalendarDay.jsx:90-94 | the day's list is handed on iff it is non-empty and a handler exists |
| PomodoroTimer.ConfigFor | frontend/src/components/PomodoroTimer.jsx:12-30 | an unknown method uses the Pomodoro settings 25/5/4; every setting is positive |
| PomodoroTimer.Reset | frontend/src/components/PomodoroTimer.jsx:106-111 | stopped, studying, first cycle, a full study phase left |
| PomodoroTimer.Start | frontend/src/components/PomodoroTimer.jsx:98-100 | the timer runs and nothing else changes |
| PomodoroTimer.Pause | frontend/src/components/PomodoroTimer.jsx:102-104 | the timer stops and nothing else changes |
| PomodoroTimer.PausedTimerStandsStill | frontend/src/components/PomodoroTimer.jsx:37-60 | a paused timer does not move however many seconds pass, and starting then pausing a stopped timer gives it back |
| PomodoroTimer.PhaseComplete | frontend/src/components/PomodoroTimer.jsx:62-86 | the timer stops; study is followed by a full break; a break advances the cycle and ends the session iff the count before it had reached the cycles, else a full study phase follows |
| PomodoroTimer.Tick | frontend/src/components/PomodoroTimer.jsx:37-60 | a stopped or empty timer stands; a running one loses a second, and its last second completes the phase |
| PomodoroTimer.Ticks | frontend/src/components/PomodoroTimer.jsx:39-47 | n interval callbacks in a row; `PomodoroTimer.PhaseLastsItsLength` and `PomodoroTimer.SessionHasCiclosCycles` state what they do |
| PomodoroTimer.PhaseLastsItsLength | frontend/src/components/PomodoroTimer.jsx:37-60 | a running phase with n seconds left counts down for n ticks and completes on the n-th |
| PomodoroTimer.RemainingCycles | frontend/src/components/PomodoroTimer.jsx:62-86 | from the start of cycle j the session ends exactly at the end of the break of the last cycle |
| PomodoroTimer.SessionHasCiclosCycles | frontend/src/components/PomodoroTimer.jsx:62-86 | from a reset, the session ends after exactly `ciclos` study phases and `ciclos` breaks |
| PomodoroTimer.FormatTime | frontend/src/components/PomodoroTimer.jsx:113-117 | below 100 minutes: five characters, two digits, a colon, two digits, reading back as the seconds given |
| AntiPro.TotalSeconds | frontend/src/pages/AntiProPage.jsx:26 | a number iff both fields parse, and then hours times 3600 plus minutes times 60 |
| AntiPro.Toggle | frontend/src/pages/AntiProPage.jsx:25-31 | the switch flips; the countdown is set to the total only when turning on with a positive total |
| AntiPro.Settle | frontend/src/pages/AntiProPage.jsx:19-21 | a countdown at exactly 0 switches the mode off; anything else is left |
| AntiPro.Second | frontend/src/pages/AntiProPage.jsx:13-23 | while on with time left one second goes, and the mode goes off when the time reaches 0 |
| AntiPro.Seconds | frontend/src/pages/AntiProPage.jsx:13-23 | k seconds of the countdown effect; `AntiPro.CountdownSwitchesOff` and `AntiPro.StaysOff` state what they do |
| AntiPro.CountdownSwitchesOff | frontend/src/pages/AntiProPage.jsx:13-23 | a countdown of n seconds keeps the mode on for n−1 seconds and switches it off at the n-th |
| AntiPro.StaysOff | frontend/src/pages/AntiProPage.jsx:13-23 | once switched off at 0 nothing further happens |
| AntiPro.ZeroTotalSwitchesBackOff | frontend/src/pages/AntiProPage.jsx:19-31 | turning on with no positive total after a finished countdown is undone at once |
| AntiPro.AddSite | frontend/src/pages/AntiProPage.jsx:33-38 | a non-empty site not yet listed is appended and the input cleared; otherwise nothing changes |
| AntiPro.AddSiteKeepsListDistinct | frontend/src/pages/AntiProPage.jsx:33-38 | the list never holds a site twice nor the empty string, and a non-empty site is listed afterwards |
| AntiPro.RemoveSite | frontend/src/pages/AntiProPage.jsx:40-42 | the site is gone, every other site stays, in order |
| AntiPro.RemoveUndoesAdd | frontend/src/pages/AntiProPage.jsx:33-42 | removing a site just added gives the list back |
| AntiPro.FormatTime | frontend/src/pages/AntiProPage.jsx:44-49 | the clock reads back as hours, minutes below 60 and seconds below 60 totalling the seconds given; eight characters below 100 hours |
| AntiPro.Clock | frontend/src/pages/AntiProPage.jsx:45-48 | the three padded fields read back from the end; eight characters below 100 hours |
| AntiPro.Fields | frontend/src/pages/AntiProPage.jsx:45-47 | minutes and seconds below 60 that together with the hours make up the seconds |
| TaskForm.Load | frontend/src/components/TaskFormModal.jsx:19-43 | a task fills each of the ten fields from its own value or the default (complexity 1, state 'inicio', '' for the rest); no task gives the blank form |
| TaskForm.LoadedFieldsAreDefaulted | frontend/src/components/TaskFormModal.jsx:19-43 | a loaded title is '' or truthy, and the loaded complexity and state are never falsy |
| TaskForm.Clamp | frontend/src/components/TaskFormModal.jsx:47 | the result lies in 1..5, equals the input inside it and the nearest end outside |
| TaskForm.OnComplejidad | frontend/src/components/TaskFormModal.jsx:108-121 | the field becomes '' iff the input does not parse, otherwise a number from 1 to 5 |
| TaskForm.Normalized | frontend/src/components/TaskFormModal.jsx:47 | the submitted complexity is NaN iff the field does not parse, otherwise a number from 1 to 5 |
| TaskForm.TypedComplexityIsSubmitted | frontend/src/components/TaskFormModal.jsx:47-121 | a typed complexity is submitted unchanged; a cleared field is submitted as NaN |
| TaskForm.Submit | frontend/src/components/TaskFormModal.jsx:45-67 | submitted iff every required field is filled; the payload is exactly the renamed fields, plus the edited task's id iff editing, and has no other key; the description goes under the misspelt key `descripcipon` only |
| TaskForm.Fields | frontend/src/components/TaskFormModal.jsx:49-60 | the payload has exactly the ten keys; each carries its form field (`titulo`, `curso`, `fechaEntrega` from the delivery date, `horaEntrega`, `fechaRealizacion` from the task date, `horaInicio`, `horaFin`, `estado`), the description under `descripcipon`, and the normalised complexity |
| TaskForm.BlankIsRefused | frontend/src/components/TaskFormModal.jsx:62-65 | a blank form is never submitted |
| TaskForm.Complete | frontend/src/components/TaskFormModal.jsx:62 | the submit gate: title, delivery date and hour, task date, start and end hour all truthy; course, description, complexity and state are not required |
| StatusChart.Classify | frontend/src/components/GlobalStatusChart.jsx:53-71 | in progress and finished tasks split by whether the delivery date string is before today; everything else, delivered tasks included, is to do |
| StatusChart.DeliveredCountsAsToDo | frontend/src/components/GlobalStatusChart.jsx:54-69 | a delivered task, or one without a state, is drawn as to do |
| StatusChart.Vencida | frontend/src/components/GlobalStatusChart.jsx:55-56 | `fechaEntrega < today`: a string (or a value turned into one) ordered before today's string by code units; a number, null or undefined compares numerically with the date string and is never before it |
| StatusChart.Counts | frontend/src/components/GlobalStatusChart.jsx:45-73 | the counters add up to the number of tasks |
| StatusChart.CountsPerBucket | frontend/src/components/GlobalStatusChart.jsx:53-71 | each counter is the number of tasks of its bucket |
| StatusChart.Percent | frontend/src/components/GlobalStatusChart.jsx:79 | 0 for a zero total; otherwise the share rounded half up, at most 100 |
| StatusChart.PercentBound | frontend/src/components/GlobalStatusChart.jsx:79 | the rounded share is within half a point of the exact one and at most 100 |
| StatusChart.ChartData | frontend/src/components/GlobalStatusChart.jsx:75-80 | five entries in the counters' order, each with its label, value and percent of the total |
| StatusChart.ChartOfCounters | frontend/src/components/GlobalStatusChart.jsx:73-80 | the entries' values add up to the total, every percent is at most 100, and all are 0 when nothing is counted |
| StatusChart.ChartOfTasks | frontend/src/components/GlobalStatusChart.jsx:43-80 | the chart of a task list: values add up to the number of tasks, all percents 0 for no tasks |
| PlanningPage.ToggleDia | frontend/src/pages/PlanificacionPage.jsx:77-82 | an existing day flips in place, keeping key order and the other days; a new day is appended switched on |
| PlanningPage.ToggleTwice | frontend/src/pages/PlanificacionPage.jsx:77-82 | toggling an existing day twice restores the switches |
| PlanningPage.SelectedDays | frontend/src/pages/PlanificacionPage.jsx:92-94 | exactly the days switched on, in the key order of the switches |
| PlanningPage.DefaultDays | frontend/src/pages/PlanificacionPage.jsx:20-28 | by default the days sent are exactly lunes, martes, miercoles, jueves and viernes, in that order |
| PlanningPage.SelectedInWeekOrder | frontend/src/pages/PlanificacionPage.jsx:77-94 | the initial switches hold the seven days lunes to domingo in order, toggling one of them keeps that, and then the days sent always follow week order |
| PlanningPage.Generate | frontend/src/pages/PlanificacionPage.jsx:84-111 | refused for a missing topic or start date, then for no day selected; otherwise the request carries the topic's id, the start date, the hour and the selected days |
| PlanningPage.NoDayNoRequest | frontend/src/pages/PlanificacionPage.jsx:92-99 | with every day switched off nothing is requested, whatever else is set |
| PlanningPage.PlanSessions | frontend/src/pages/PlanificacionPage.jsx:163-165 | none without a selected plan; otherwise exactly the sessions on the plan's topic-difficulty, in order |
| PlanningPage.PickPlanAsWritten | frontend/src/pages/PlanificacionPage.jsx:326-332 | the card click selects the plan and replaces the session list by exactly the loaded sessions on that plan's topic, in order |
| PlanningPage.SwitchingPlansLosesSessions | frontend/src/pages/PlanificacionPage.jsx:326-332 | after picking one plan and then a plan on another topic, the list and the shown sessions are empty |
| PlanningPage.PickPlan | frontend/src/pages/PlanificacionPage.jsx:326-328 | the corrected card click: the plan is selected and the loaded session list is kept |
| PlanningPage.PickedPlanShowsItsSessions | frontend/src/pages/PlanificacionPage.jsx:163-165 | with the corrected click, after any earlier pick the shown sessions are exactly the loaded ones on the last plan's topic; a first pick shows the same under both handlers |
| PlanningPage.Push | frontend/src/pages/PlanificacionPage.jsx:169-174 | the session joins the end of its date's group, which is created last when new; other groups are untouched and keys stay distinct |
| PlanningPage.GroupByFecha | frontend/src/pages/PlanificacionPage.jsx:168-175 | the grouping never holds a date twice |
| PlanningPage.GroupByFechaPartitions | frontend/src/pages/PlanificacionPage.jsx:168-175 | each group is exactly the sessions of its date in order, is never empty, and every session's date has a group |
| PlanningPage.Shown | frontend/src/pages/PlanificacionPage.jsx:359-373 | the dates in ascending string order, each date's sessions by start time |
| PlanningPage.ShownFromGroups | frontend/src/pages/PlanificacionPage.jsx:359-373 | every date shown is one of the groups, with the same sessions |
| PlanningPage.GroupsAreShown | frontend/src/pages/PlanificacionPage.jsx:359-373 | every group is shown, with the same sessions reordered |
| CourseTopicPage.CoursesShown | frontend/src/pages/CursoTemaPage.jsx:52-54 | exactly the courses whose lower-cased name contains the lower-cased search, in order |
| CourseTopicPage.EmptySearchKeepsAll | frontend/src/pages/CursoTemaPage.jsx:52-64 | an empty search hides nothing |
| CourseTopicPage.CourseTopics | frontend/src/pages/CursoTemaPage.jsx:57-59 | none without a selected course; otherwise exactly the topics of that course, in order |
| CourseTopicPage.TopicsShown | frontend/src/pages/CursoTemaPage.jsx:62-64 | exactly the course's topics whose name matches the search, in order |
| CourseTopicPage.SelectCourse | frontend/src/pages/CursoTemaPage.jsx:66-71 | the course is selected, the topic dropped, the form hidden and the search cleared; the difficulty and method stay |
| CourseTopicPage.SelectedCourseShowsAllTopics | frontend/src/pages/CursoTemaPage.jsx:57-71 | right after a course is selected every one of its topics is listed |
| CourseTopicPage.SelectTopic | frontend/src/pages/CursoTemaPage.jsx:73-86 | the topic is selected and the form shown; difficulty and method come from the topic's first assignment, else 'media' and 'Pomodoro' |
| CourseTopicPage.ChangeTopic | frontend/src/pages/CursoTemaPage.jsx:127-130 | the topic is dropped and the form hidden; course, search, difficulty and method stay |
| CourseTopicPage.ClearCourse | frontend/src/pages/CursoTemaPage.jsx:186-190 | the "Cambiar Curso" button clears the course, the topic and the form, and keeps the search and the chosen difficulty and method |
| CourseTopicPage.ClearedCourseShowsNothing | frontend/src/pages/CursoTemaPage.jsx:57-64 | after the course is cleared no topic is listed, whatever the search, and nothing can be assigned |
| CourseTopicPage.AssignRequest | frontend/src/pages/CursoTemaPage.jsx:88-105 | nothing is sent iff no topic is selected; otherwise the topic's id with the chosen difficulty and method |
| CourseTopicPage.CourseChangeBlocksAssignment | frontend/src/pages/CursoTemaPage.jsx:66-94 | picking a course drops the topic, so nothing can be assigned until a topic is picked |
| CourseTopicPage.ChangeThenPick | frontend/src/pages/CursoTemaPage.jsx:73-130 | after changing topic nothing is assigned; picking a topic again makes the assignment possible, in the same course |
| RecommendationPage.TopicsShown | frontend/src/pages/RecomendacionMetodoPage.jsx:75-78 | exactly the assignments whose topic or course name contains the search, ignoring case, in order |
| RecommendationPage.EmptySearchListsAll | frontend/src/pages/RecomendacionMetodoPage.jsx:75-78 | an empty search lists every topic |
| RecommendationPage.SelectTopic | frontend/src/pages/RecomendacionMetodoPage.jsx:44-48 | the new topic is selected with no stale recommendation or error left |
| RecommendationPage.RequestFor | frontend/src/pages/RecomendacionMetodoPage.jsx:50-60 | refused with the selection message iff no topic is selected; otherwise the request names the assignment's topic id |
| RecommendationPage.Obtain | frontend/src/pages/RecomendacionMetodoPage.jsx:50-72 | the topic stays; without one only the error changes; a reply sets the recommendation and clears the error; a failure keeps the old recommendation and shows the server's error or the default |
| RecommendationPage.RequestFollowsSelection | frontend/src/pages/RecomendacionMetodoPage.jsx:44-68 | the request names the topic picked last, and a failure right after a pick shows no recommendation and a non-empty error |
| ProfileTestPage.Lookup | frontend/src/pages/TestPerfilPage.jsx:41 | the answer stored under an id, or none when absent |
| ProfileTestPage.SetAnswer | frontend/src/pages/TestPerfilPage.jsx:38-43 | the question gets the value and every other answer stays, with keys kept in ascending id order |
| ProfileTestPage.Blank | frontend/src/pages/TestPerfilPage.jsx:24-28 | exactly the loaded question ids, each answered null |
| ProfileTestPage.BlankIsUnanswered | frontend/src/pages/TestPerfilPage.jsx:45-47 | a fresh questionnaire counts as answered only when it has no question |
| ProfileTestPage.AnsweringProgresses | frontend/src/pages/TestPerfilPage.jsx:38-47 | answering never makes the questionnaire incomplete, and answering the last open question completes it |
| ProfileTestPage.Submit | frontend/src/pages/TestPerfilPage.jsx:49-66 | nothing is sent unless every answer is set; then one pair per question, in id order, with the id and the parsed value |
| ProfileTestPage.ClickedAnswersAreSent | frontend/src/pages/TestPerfilPage.jsx:62-65 | answers clicked from 1 to 5 are all sent, each with its own number |
| ProfileTestPage.Load | frontend/src/pages/TestPerfilPage.jsx:18-36 | after loading, every question is unanswered and no profile is shown |
| ProfileTestPage.Retake | frontend/src/pages/TestPerfilPage.jsx:77-85 | the profile is hidden and every question of the test is unanswered again |
| ProfileTestPage.RetakeIsFreshLoad | frontend/src/pages/TestPerfilPage.jsx:18-85 | retaking returns the page to the state right after loading |
| ProfileTestPage.Description | frontend/src/pages/TestPerfilPage.jsx:87-94 | the fixed text for the three known methods, and 'Método ' followed by the value for any other |
| Header.UnreadCount | frontend/src/components/Header.jsx:34 | the number of notifications whose `isRead` is falsy, at most their total |
| Header.MarkRead | frontend/src/components/Header.jsx:43 | the notification becomes read and every other field is kept |
| Header.MarkAsRead | frontend/src/components/Header.jsx:40-46 | the notifications with that id become read, the others are untouched |
| Header.ClearAll | frontend/src/components/Header.jsx:48-52 | every notification becomes read, keeping its other fields |
| Header.ClearAllLeavesNoneUnread | frontend/src/components/Header.jsx:34-52 | after clearing the unread count is 0 |
| Header.MarkAsReadCount | frontend/src/components/Header.jsx:34-46 | marking one read lowers the unread count by exactly the unread notifications with that id |
| Header.Idempotent | frontend/src/components/Header.jsx:40-52 | marking read and clearing are both idempotent |
| DashboardPage.TodayTasks | frontend/src/pages/DashboardPage.jsx:22 | exactly the tasks due on today's UTC date string, in order |
| DashboardPage.TodayStr | frontend/src/pages/DashboardPage.jsx:15 | today's date as the ISO date of the UTC day of now, which `Dates.ParseFormat` reads back as that day for years 0 to 9999 |
| DashboardPage.UpcomingTasks | frontend/src/pages/DashboardPage.jsx:24-29 | exactly the tasks due after now and within seven days, in order |
| DashboardPage.UpcomingIsNextSevenDays | frontend/src/pages/DashboardPage.jsx:24-29 | a task due on a date is upcoming iff that date is one of the seven UTC days after today |
| DashboardPage.TodayIsNotUpcoming | frontend/src/pages/DashboardPage.jsx:22-29 | a task due today is never also upcoming |
| DashboardPage.Title | frontend/src/pages/DashboardPage.jsx:39 | the first truthy of titulo, temas, curso, description, else '' |
| DashboardPage.Normalize | frontend/src/pages/DashboardPage.jsx:36-43 | the six display fields: a start time defaulting to '00:00' and never empty, an end time defaulting to '', and today's date |
| DashboardPage.TodayActivities | frontend/src/pages/DashboardPage.jsx:36-49 | the normalised activities, all of them, sorted by start time |
| DashboardPage.MissingStartIsMidnight | frontend/src/pages/DashboardPage.jsx:40-47 | an activity without a start time sorts as '00:00' |
| DashboardPage.WeeklyIndicators | frontend/src/pages/DashboardPage.jsx:62-72 | seven entries; the i-th has a task or an activity iff one is dated on its day |
| DashboardPage.IndicatorDay | frontend/src/pages/DashboardPage.jsx:63-65 | the UTC day of the i-th indicator: `today` moved by i + 1 − `getDay()` local days; `DashboardPage.IndicatorsAreTheWeek` states which days these are |
| DashboardPage.IndicatorsAreTheWeek | frontend/src/pages/DashboardPage.jsx:62-65 | the seven days run from Monday of the local week, but on a Sunday they start the day after |
| DashboardPage.TypeClass | frontend/src/pages/DashboardPage.jsx:82-90 | the CSS class of each of the four types, and '' exactly for every other value |
| StableSort.SortByKey | Backend/Apps/Calendario/views.py:251 | `sorted(..., key=...)`: a permutation of the input, ordered by the key |
| StableSort.SortStable | Backend/Apps/Calendario/views.py:251 | the sort is stable: records with equal keys keep their input order |
| Dates.PyWeekday | Backend/Apps/Gamificacion/views.py:54-55 | `date.weekday()`: Monday is 0, always within 0..6 |
| Dates.WeekdayStep | Backend/Apps/Gamificacion/views.py:85 | a step of seven days keeps the weekday, a step of one advances it |
| Dates.JsDay | frontend/src/pages/DashboardPage.jsx:64 | `getDay()`: Sunday is 0, one ahead of the Monday-first weekday |
| Dates.ParseFormat | frontend/src/pages/CalendarPage.jsx:347-352 | the ISO date written for a day parses back to that day |
| Dates.FormatParse | frontend/src/pages/CalendarPage.jsx:347-352 | a valid ISO date string is written back unchanged from the day it names |
| Strings.ParseIntOfDecimal | frontend/src/pages/AntiProPage.jsx:26 | `parseInt` reads a decimal numeral back as its number |
| JsValue.Or | frontend/src/components/TaskItemT.jsx:13 | the logical or of JavaScript: a when truthy, else b |
| JsValue.Truthy | frontend/src/components/TaskFormModal.jsx:62 | JavaScript truthiness: false, 0, NaN, '', null and undefined are falsy, everything else truthy |
| JsValue.ToJsString | frontend/src/services/authService.js:13 | `String(v)` for the values modelled: an array joins its elements with commas, null and undefined elements as '', an object is '[object Object]' |
| JsValue.ParseInt | frontend/src/components/TaskFormModal.jsx:47 | `parseInt(String(v), 10)`; `Strings.ParseIntOfDecimal` states that it reads a decimal numeral back |
| JsValue.LowerIncludes | frontend/src/pages/CursoTemaPage.jsx:52 | the search test: the lower-cased text contains the lower-cased query; `CourseTopicPage.EmptySearchKeepsAll` states that an empty query matches everything |
| JsValue.Coalesce | frontend/src/components/ModalPlanEstudio.jsx:70 | `a ?? b`: a unless null or undefined, else b |
| JsValue.Merge | frontend/src/services/taskService.mock.js:11 | `{ ...a, ...b }`: the keys of both, b's values winning |
| JsDate.DateMs | frontend/src/pages/StatsPage.jsx:59-61 | `new Date(v)`: a date string is valid iff it is an ISO date, and then it is UTC midnight of that day; undefined is invalid |
| JsDate.DateMsOrder | frontend/src/pages/StatsPage.jsx:62 | dates built from two date strings compare as the days they name |

## Left out

- Floating point. Percentages are integers rounded half up. The hours of the overload check in `Suggestions` (`Backend/Apps/Notificacion/utils.py`, lines 90-111), which the source sums as floating-point hours, are summed as whole seconds and compared with ten hours exactly. Learning-profile scores are kept doubled, so the 0.5 weights stay whole. The percentage strings of the weekly status view (`Backend/Apps/Estadisticas/views.py`, lines 71-75) are not built; only their never-zero divisor is modelled.
- Request fields that are not strings. `Scoring.Score` and `TaskStatus.Patch` take each request field as a string or absent. A number or list in `fecha_inicio` or `fecha_fin` makes `strptime` raise a TypeError that the `except ValueError` of `Gamificacion/views.py` (lines 28-31) does not catch, and a list or dict in `estado` is unhashable at `Tareas/views.py` line 20; both give a server error (500) in the source and are not modelled.
- LearningProfile.Post: each answer is a pair of integers. The source answers 500 for an entry that is not a dict (`r.get` raises), an entry without `pregunta` (`r['pregunta']` raises a KeyError) and a `valor` that `int()` cannot read (`Aprendizaje_adaptativo/views.py`, lines 24-37). These malformed bodies are not modelled.
- The ORM, HTTP and authentication. Query results and request outcomes are parameters or explicit outcomes. The partial `update_or_create` writes made before an unknown question aborts the learning-profile request are not modelled.
- Mail delivery. `enviar_sugerencia` is modelled by returning the suggestions that would be sent.
- Printing and logging: console output and the debugging print in the statistics view.
- Timers, effects and rendering. Intervals and effects are explicit steps. Alerts, navigation targets and chart colours are values. Markup, styles, sounds and `toLocaleDateString` labels are not modelled.
- PomodoroTimer.Tick: on the last second the updater returns `0` and, inside it, the phase-completion handler sets the next phase's length; the model applies the handler's update after the `0`, as React does for updates issued while a component renders (the case after every earlier tick's render). Where React instead computes the updater eagerly outside rendering, the `0` would win and the stopped timer could not be started again; that ordering is not modelled. Strict-mode double invocation of updaters is not modelled either.
- Time zones and daylight saving. A zone is a fixed offset in minutes. `toISOString` is modelled for years 0 to 9999 only. Only ISO `YYYY-MM-DD` strings parse as dates. Other forms count as invalid dates, where a browser might still accept them.
- Scoring.ParseStrptime: one- and two-digit months and days, and a blank before a one-digit day, are modelled. Not modelled: the non-ASCII decimal digits that `\d` of Python's `re` also matches, and years above 9999, which strptime refuses anyway.
- Registration.CriteriosPassword: only the ASCII digits 0 to 9 count as a digit, while `re.search(r'\d', ...)` in `Autenticacion/serializers.py` also accepts any other Unicode decimal digit, so a password whose only digit is, say, an Arabic-Indic three is refused by the model and accepted by the source.
- Registration.FirstBlank: the form holds the values after field conversion. Django REST framework's `CharField` trims leading and trailing white space first, so a field of blanks arrives as '' and a password is checked without its outer blanks; that trimming is taken as already done and is not modelled.
- The e-mail format check of Django's `EmailField` and the uniqueness validators are not modelled; only the domain check is.
- Unicode. Lower-casing is ASCII only, and `localeCompare` is code-unit order.
- JsValue.ParseInt: a leading `+` or `-` and the white space of ECMAScript are modelled. A `parseInt` called without a radix, as in `AntiProPage.jsx`, `CalendarPage.jsx` and `TestPerfilPage.jsx`, reads `0x` or `0X` text as hexadecimal; the model always reads decimal digits, so such text gives 0 instead.
- JavaScript objects. Prototype keys are not modelled. `===` on objects compares by value. `Object.values` key order is a parameter (`ServiceErrors.KeyOrder`). Storage holds parsed values, not JSON text.
- CalendarPage.MapToFrontendTask and CalendarPage.FormatToHHMM require the start time to be a string or falsy. For a number, a boolean or a plain object the source throws, as `slice` is missing. An array has `slice` too and would give an array of its first five elements; that case is excluded as well and not modelled.
- CourseTopicPage.CoursesShown and CourseTopicPage.TopicsShown read `nombre` through `String(...)`; the source calls `toLowerCase` on it directly (`CursoTemaPage.jsx`, lines 52 and 62), which throws for a non-string name. That throw is not modelled.
- RecommendationPage.TopicsShown: likewise for `tema_nombre` and `curso_nombre` (`RecomendacionMetodoPage.jsx`, lines 76-77); a non-string name throws in the source and is stringified in the model.
- PlanningPage.Shown: sessions are ordered by `hora_inicio` read as a string; the source's `localeCompare` (`PlanificacionPage.jsx`, line 373) can throw for a session whose start is not a string. That throw is not modelled.
- DashboardPage.TodayActivities: the sort key is the start time read as a string; in the source a truthy non-string `horaInicio` can make `localeCompare` throw inside the `try` (`DashboardPage.jsx`, lines 45-47), and the page then shows an empty list. That path is not modelled.
- PlanModal.CardOf: the end hour is cut to five characters through `String(...)`; the source's `horaFin.slice(0,5)` (`ModalPlanEstudio.jsx`, line 83) throws for a truthy number, boolean or plain object and cuts an array to its first five elements. Neither is modelled.
- CalendarDay.Drop: an exception thrown before the request, other than a missing id, is not modelled.
- TaskPage.ToggleEntregado: the page defines it, but no control of the task row calls it. It is modelled on its own.
- Header.UnreadCount, Header.MarkAsRead and Header.ClearAll: the header's render (`Header.jsx`, lines 93-96) shows neither the notification panel nor the unread dot, so none of them is reachable from the page. They are modelled on their own.
- RecommendationPage.Obtain: a failure of the history reload after a recommendation has arrived is not modelled.
- StatsPage: the chart of weekly states and its colours are not modelled; only the star filter and total are.
- The authentication and profile screens beyond their services (login form layout, routing) are not modelled.

## Findings

| source | as written | input that shows it | evidently intended | confidence | as-written member | corrected member |
|---|---|---|---|---|---|---|
| frontend/src/components/CalendarDay.jsx:12-14 | the cell date is `toISOString()` of the cell's local midnight, which is the UTC date of that instant | a browser at UTC+1 (zone 60), cell for the 5th: local midnight is 23:00 UTC of the 4th, so the cell reads the 4th and shows and receives the previous day's records | the ISO date of the local day the cell shows | not executed | CalendarDay.CellDateShiftsEastOfUtc | CalendarDay.DateStrIsTheCellDay |
| frontend/src/pages/PlanificacionPage.jsx:326-332 | the plan card's click overwrites the session list with that plan's sessions | pick a plan on topic-difficulty 1, then a plan on 2, with sessions of both loaded: the second plan shows no session until the page reloads its data | select the plan and keep the list; `sesionesDePlanificacion` (lines 163-165) already filters it | not executed | PlanningPage.SwitchingPlansLosesSessions | PlanningPage.PickedPlanShowsItsSessions |

=== FILE: antipro.dfy ===
/** The anti-procrastination page (`pages/AntiProPage.jsx`): a list of
    blocked sites, an on/off switch with a countdown set from hours and
    minutes, and the `hh:mm:ss` display. The one-second interval and the
    effect that reacts to the countdown are modelled as a `Second` step. */
module AntiPro {
  import opened Base
  import opened Strings

  /** The page state. `remaining` is null (None) until a countdown is set. */
  datatype Mode = Mode(active: bool, remaining: Option<int>)

  /** `parseInt(hours) * 3600 + parseInt(minutes) * 60`; None is NaN. */
  function TotalSeconds(hours: string, minutes: string): (r: Option<int>)
    ensures r.Some? <==> ParseIntPrefix(hours).Some? && ParseIntPrefix(minutes).Some?
    ensures r.Some? ==> r.value == ParseIntPrefix(hours).value * 3600 + ParseIntPrefix(minutes).value * 60
  {
    match (ParseIntPrefix(hours), ParseIntPrefix(minutes))
    case (Some(h), Some(m)) => Some(h * 3600 + m * 60)
    case _ => None
  }

  /** `remainingTime > 0`, where null and NaN compare false. */
  predicate Positive(r: Option<int>)
  {
    r.Some? && r.value > 0
  }

  /** `handleToggle`: the switch flips; only when it is turned on with a
      positive total does the countdown restart from that total. */
  function Toggle(m: Mode, hours: string, minutes: string): (r: Mode)
    ensures r.active == !m.active
    ensures !m.active && Positive(TotalSeconds(hours, minutes)) ==> r.remaining == TotalSeconds(hours, minutes)
    ensures m.active || !Positive(TotalSeconds(hours, minutes)) ==> r.remaining == m.remaining
  {
    var total := TotalSeconds(hours, minutes);
    Mode(!m.active, if !m.active && Positive(total) then total else m.remaining)
  }

  /** The effect on `[isActive, remainingTime]`: a countdown at exactly 0
      switches the mode off. */
  function Settle(m: Mode): (r: Mode)
    ensures m.remaining == Some(0) ==> r == m.(active := false)
    ensures m.remaining != Some(0) ==> r == m
  {
    if !(m.active && Positive(m.remaining)) && m.remaining == Some(0) then m.(active := false) else m
  }

  /** One second: while active with time left the interval takes one second
      off, and the effect then runs on the new state. */
  function Second(m: Mode): (r: Mode)
    ensures !(m.active && Positive(m.remaining)) ==> r == m
    ensures m.active && Positive(m.remaining) ==> r.remaining == Some(m.remaining.value - 1)
    ensures m.active && Positive(m.remaining) ==> (r.active <==> m.remaining.value > 1)
  {
    if m.active && Positive(m.remaining) then Settle(Mode(m.active, Some(m.remaining.value - 1))) else m
  }

  function Seconds(m: Mode, k: nat): Mode
    decreases k
  {
    if k == 0 then m else Seconds(Second(m), k - 1)
  }

  /** A countdown of n seconds keeps the mode on for n − 1 seconds and
      switches it off, at 0, on the n-th; nothing changes afterwards. */
  lemma {:induction false} CountdownSwitchesOff(n: int, k: nat)
    requires n > 0
    ensures k < n ==> Seconds(Mode(true, Some(n)), k) == Mode(true, Some(n - k))
    ensures k >= n ==> Seconds(Mode(true, Some(n)), k) == Mode(false, Some(0))
    decreases k
  {
    if k > 0 {
      if n == 1 {
        StaysOff(k - 1);
      } else {
        CountdownSwitchesOff(n - 1, k - 1);
      }
    }
  }

  lemma {:induction false} StaysOff(k: nat)
    ensures Seconds(Mode(false, Some(0)), k) == Mode(false, Some(0))
    decreases k
  {
    if k > 0 {
      StaysOff(k - 1);
    }
  }

  /** Turning the switch on when the last countdown has reached 0 and the new
      total is not positive leaves the countdown at 0, so the effect turns
      the mode off again at once. */
  lemma ZeroTotalSwitchesBackOff(hours: string, minutes: string)
    requires !Positive(TotalSeconds(hours, minutes))
    ensures Toggle(Mode(false, Some(0)), hours, minutes).active
    ensures Settle(Toggle(Mode(false, Some(0)), hours, minutes)) == Mode(false, Some(0))
  {
  }

  /** `handleAddSite`: a non-empty site not yet listed is appended and the input
      cleared; otherwise nothing changes. */
  function AddSite(sites: seq<string>, newSite: string): (r: (seq<string>, string))
    ensures newSite != "" && newSite !in sites ==> r == (sites + [newSite], "")
    ensures newSite == "" || newSite in sites ==> r == (sites, newSite)
  {
    if newSite != "" && newSite !in sites then (sites + [newSite], "") else (sites, newSite)
  }

  /** The list never holds a site twice, nor the empty string. */
  lemma AddSiteKeepsListDistinct(sites: seq<string>, newSite: string)
    requires Distinct(sites) && "" !in sites
    ensures Distinct(AddSite(sites, newSite).0) && "" !in AddSite(sites, newSite).0
    ensures newSite != "" ==> newSite in AddSite(sites, newSite).0
  {
  }

  function IsNot(site: string): string -> bool
  {
    (s: string) => s != site
  }

  /** `handleRemoveSite`: every entry equal to the site goes, the others keep
      their order. */
  function RemoveSite(sites: seq<string>, site: string): (r: seq<string>)
    ensures site !in r
    ensures IsSubseq(r, sites)
    ensures forall s :: s in sites && s != site ==> s in r
  {
    var r := Filter(sites, IsNot(site));
    FilterIsSubseq(sites, IsNot(site));
    forall s | s in sites && s != site
      ensures s in r
    {
      FilterMembers(sites, IsNot(site), s);
    }
    r
  }

  /** Removing a site just added gives the list back. */
  lemma RemoveUndoesAdd(sites: seq<string>, site: string)
    requires site != "" && site !in sites
    ensures RemoveSite(AddSite(sites, site).0, site) == sites
  {
    FilterAppend(sites, [site], IsNot(site));
    FilterKeepsAll(sites, IsNot(site));
    assert Filter([site], IsNot(site)) == [] by {
      FilterCons(site, [], IsNot(site));
    }
  }

  /** `hh:mm:ss` read from the end: the hours are every digit before the
      last six characters; minutes and seconds are two digits each. */
  predicate ClockReads(r: string, h: nat, m: nat, s: nat)
  {
    |r| >= 8 &&
    var k := |r| - 6;
    && r[k] == ':' && r[k + 3] == ':'
    && AllDigits(r[..k]) && AllDigits(r[k + 1..k + 3]) && AllDigits(r[k + 4..])
    && DigitsValue(r[..k]) == h && DigitsValue(r[k + 1..k + 3]) == m && DigitsValue(r[k + 4..]) == s
  }

  /** `formatTime`: hours, minutes and seconds, each zero-padded to two
      digits; the hours may take more. The string reads back as fields that
      give the seconds again, with minutes and seconds below 60. */
  function FormatTime(seconds: nat): (r: string)
    ensures exists h: nat, m: nat, s: nat :: ClockReads(r, h, m, s) && m < 60 && s < 60 && h * 3600 + m * 60 + s == seconds
    ensures seconds < 360000 ==> |r| == 8
  {
    var (h, m, s) := Fields(seconds);
    var r := Clock(h, m, s);
    assert ClockReads(r, h, m, s);
    r
  }

  /** `${h}:${m}:${s}` with each part padded to two digits. */
  function Clock(h: nat, m: nat, s: nat): (r: string)
    requires m < 60 && s < 60
    ensures ClockReads(r, h, m, s)
    ensures h < 100 ==> |r| == 8
  {
    Pad2RoundTrip(h);
    Pad2RoundTrip(m);
    Pad2RoundTrip(s);
    ClockFields(Pad2(h), Pad2(m), Pad2(s));
    Pad2(h) + ":" + Pad2(m) + ":" + Pad2(s)
  }

  /** The three fields of `hs:ms:ss` are read back from the end. */
  lemma ClockFields(hs: string, ms: string, ss: string)
    requires |hs| >= 2 && |ms| == 2 && |ss| == 2 && AllDigits(hs) && AllDigits(ms) && AllDigits(ss)
    ensures ClockReads(hs + ":" + ms + ":" + ss, DigitsValue(hs), DigitsValue(ms), DigitsValue(ss))
  {
    var r := hs + ":" + ms + ":" + ss;
    ClockSlices(hs, ms, ss);
    var k := |r| - 6;
    assert k == |hs|;
    assert DigitsValue(r[..k]) == DigitsValue(hs);
    assert DigitsValue(r[k + 1..k + 3]) == DigitsValue(ms);
    assert DigitsValue(r[k + 4..]) == DigitsValue(ss);
  }

  lemma ClockSlices(hs: string, ms: string, ss: string)
    requires |ms| == 2 && |ss| == 2
    ensures var r := hs + ":" + ms + ":" + ss;
      |r| == |hs| + 6 && r[|hs|] == ':' && r[|hs| + 3] == ':'
      && r[..|hs|] == hs && r[|hs| + 1..|hs| + 3] == ms && r[|hs| + 4..] == ss
  {
    var r := hs + ":" + ms + ":" + ss;
    assert r[..|hs|] == hs;
    assert r[|hs| + 1..|hs| + 3] == ms;
    assert r[|hs| + 4..] == ss;
  }

  /** `Math.floor(seconds / 3600)`, `Math.floor((seconds % 3600) / 60)` and
      `seconds % 60`. */
  function Fields(seconds: nat): (r: (nat, nat, nat))
    ensures r.1 < 60 && r.2 < 60
    ensures r.0 * 3600 + r.1 * 60 + r.2 == seconds
    ensures seconds < 360000 ==> r.0 < 100
  {
    SplitSeconds(seconds);
    (seconds / 3600, seconds % 3600 / 60, seconds % 60)
  }

  lemma SplitSeconds(seconds: nat)
    ensures seconds % 3600 / 60 < 60
    ensures seconds < 360000 ==> seconds / 3600 < 100
    ensures (seconds / 3600) * 3600 + (seconds % 3600 / 60) * 60 + seconds % 60 == seconds
  {
    var q, rest := seconds / 3600, seconds % 3600;
    DivUnique(seconds, 3600, q, rest);
    var m, s := rest / 60, rest % 60;
    DivUnique(rest, 60, m, s);
    DivUnique(seconds, 60, 60 * q + m, s);
  }
}

=== FILE: backend_model.dfy ===
/** The record shapes of the Django models the backend views read: a task
    (`Calendario.Tarea`), its lifecycle row (`Tareas.EstadoTarea`) and the other
    calendar activities. Dates are day numbers (see Dates), times of day are
    seconds after midnight. */
module BackendModel {
  import opened Base

  /** The four lifecycle states, in their fixed order. */
  datatype Estado = Inicio | EnDesarrollo | Finalizado | Entregado

  /** `orden = ['inicio', 'en_desarrollo', 'finalizado', 'entregado']`. */
  const Orden: seq<Estado> := [Inicio, EnDesarrollo, Finalizado, Entregado]

  /** `orden.index(e)`. */
  function Index(e: Estado): (i: nat)
    ensures i < |Orden| && Orden[i] == e
    ensures forall j :: 0 <= j < i ==> Orden[j] != e
  {
    match e
    case Inicio => 0
    case EnDesarrollo => 1
    case Finalizado => 2
    case Entregado => 3
  }

  /** The stored name of a state. */
  function Name(e: Estado): string
  {
    match e
    case Inicio => "inicio"
    case EnDesarrollo => "en_desarrollo"
    case Finalizado => "finalizado"
    case Entregado => "entregado"
  }

  /** `s in dict(EstadoTarea.ESTADOS)`, answering which state s names. */
  function EstadoOfName(s: string): (r: Option<Estado>)
    ensures r.Some? ==> Name(r.value) == s
    ensures r.None? ==> forall e: Estado :: Name(e) != s
  {
    if s == "inicio" then Some(Inicio)
    else if s == "en_desarrollo" then Some(EnDesarrollo)
    else if s == "finalizado" then Some(Finalizado)
    else if s == "entregado" then Some(Entregado)
    else None
  }

  /** `estado in ['finalizado', 'entregado']`. */
  predicate Done(e: Estado)
  {
    e == Finalizado || e == Entregado
  }

  /** A task's `EstadoTarea` row: its state and `fecha_estado.date()`. */
  datatype EstadoRow = EstadoRow(estado: Estado, fechaEstado: int)

  /** A `Tarea` joined with its `EstadoTarea` row (None when it has none). */
  datatype Tarea = Tarea(
    id: int,
    usuario: int,
    titulo: string,
    curso: string,
    descripcion: string,
    fechaEntrega: int,
    horaEntrega: int,
    fechaRealizacion: int,
    horaInicio: int,
    horaFin: int,
    complejidad: int,
    visible: bool,
    estado: Option<EstadoRow>)

  /** The four calendar models. */
  datatype Kind = KTarea | KClase | KEstudio | KActividad

  /** The fields of any calendar record that the notification rules read. Only a
      Tarea has `fechaRealizacion` and `fechaEntrega`; the other three have
      `fecha`. The fields a kind lacks are carried but never read. */
  datatype Activity = Activity(
    kind: Kind,
    id: int,
    titulo: string,
    fecha: int,
    fechaRealizacion: int,
    fechaEntrega: int,
    horaInicio: int,
    horaFin: int)
}

=== FILE: base.dfy ===
/** Small collection vocabulary shared by every model: an optional value and the
    order-preserving list operations (filter, map-where, count) that the views,
    pages and mock stores are built from. */
module Base {

  /** A value that may be absent: Python's None, JavaScript's null/undefined. */
  datatype Option<T> = None | Some(value: T)

  /** The outcome of an operation that can be refused with a reason. */
  datatype Result<T, E> = Ok(value: T) | Err(error: E)

  /** `s.filter(p)` / `[x for x in s if p(x)]`: keeps the elements satisfying p, in order. */
  function Filter<T>(s: seq<T>, p: T -> bool): (r: seq<T>)
    ensures |r| <= |s|
    ensures forall i :: 0 <= i < |r| ==> p(r[i])
    decreases |s|
  {
    if |s| == 0 then [] else (if p(s[0]) then [s[0]] else []) + Filter(s[1..], p)
  }

  /** Number of elements satisfying p. */
  function Count<T>(s: seq<T>, p: T -> bool): nat
    decreases |s|
  {
    if |s| == 0 then 0 else (if p(s[0]) then 1 else 0) + Count(s[1..], p)
  }

  /** `s.map(x => p(x) ? f(x) : x)`: rewrites exactly the elements satisfying p. */
  function MapWhere<T>(s: seq<T>, p: T -> bool, f: T -> T): (r: seq<T>)
    ensures |r| == |s|
  {
    seq(|s|, i requires 0 <= i < |s| => if p(s[i]) then f(s[i]) else s[i])
  }

  /** `s.map(f)`. */
  function Map<T, U>(s: seq<T>, f: T -> U): (r: seq<U>)
    ensures |r| == |s|
    ensures forall i :: 0 <= i < |s| ==> r[i] == f(s[i])
  {
    seq(|s|, i requires 0 <= i < |s| => f(s[i]))
  }

  /** a is an order-preserving subsequence of b. */
  predicate IsSubseq<T(==)>(a: seq<T>, b: seq<T>)
    decreases |b|
  {
    if |a| == 0 then true
    else if |b| == 0 then false
    else (a[0] == b[0] && IsSubseq(a[1..], b[1..])) || IsSubseq(a, b[1..])
  }

  /** Mapping keeps a subsequence a subsequence. */
  lemma {:induction false} MapSubseq<T, U>(a: seq<T>, b: seq<T>, f: T -> U)
    requires IsSubseq(a, b)
    ensures IsSubseq(Map(a, f), Map(b, f))
    decreases |b|
  {
    if |a| > 0 {
      assert Map(b, f)[1..] == Map(b[1..], f);
      if a[0] == b[0] && IsSubseq(a[1..], b[1..]) {
        MapSubseq(a[1..], b[1..], f);
        assert Map(a, f)[1..] == Map(a[1..], f);
      } else {
        MapSubseq(a, b[1..], f);
      }
    }
  }

  /** Membership in a filtered list is membership in the list plus the predicate. */
  lemma {:induction false} FilterMembers<T>(s: seq<T>, p: T -> bool, x: T)
    ensures x in Filter(s, p) <==> x in s && p(x)
    decreases |s|
  {
    if |s| > 0 {
      FilterMembers(s[1..], p, x);
      assert s == [s[0]] + s[1..];
    }
  }

  /** A filtered list is an order-preserving subsequence of its source. */
  lemma {:induction false} FilterIsSubseq<T>(s: seq<T>, p: T -> bool)
    ensures IsSubseq(Filter(s, p), s)
    decreases |s|
  {
    if |s| > 0 {
      var rest := Filter(s[1..], p);
      FilterIsSubseq(s[1..], p);
      if p(s[0]) {
        assert Filter(s, p) == [s[0]] + rest;
        assert Filter(s, p)[1..] == rest;
      } else {
        assert Filter(s, p) == rest;
        SubseqDropHead(rest, s);
      }
    }
  }

  /** A subsequence of the tail is a subsequence of the whole list. */
  lemma SubseqDropHead<T>(a: seq<T>, b: seq<T>)
    requires |b| > 0
    requires IsSubseq(a, b[1..])
    ensures IsSubseq(a, b)
  {
  }

  /** The filter length is the count. */
  lemma {:induction false} FilterCount<T>(s: seq<T>, p: T -> bool)
    ensures |Filter(s, p)| == Count(s, p)
    decreases |s|
  {
    if |s| > 0 {
      FilterCount(s[1..], p);
    }
  }

  /** A predicate and its negation split a list: the two counts add up to its length. */
  lemma {:induction false} CountSplit<T>(s: seq<T>, p: T -> bool, q: T -> bool)
    requires forall x :: q(x) == !p(x)
    ensures Count(s, p) + Count(s, q) == |s|
    decreases |s|
  {
    if |s| > 0 {
      CountSplit(s[1..], p, q);
    }
  }

  /** Counting over a list extended by one element, the step of a counting loop. */
  lemma {:induction false} CountSnoc<T>(s: seq<T>, x: T, p: T -> bool)
    ensures Count(s + [x], p) == Count(s, p) + (if p(x) then 1 else 0)
    decreases |s|
  {
    if |s| == 0 {
      assert s + [x] == [x];
    } else {
      assert (s + [x])[1..] == s[1..] + [x];
      CountSnoc(s[1..], x, p);
    }
  }

  /** Two disjoint predicates whose union is a third split its count. */
  lemma {:induction false} CountPartition<T>(s: seq<T>, p: T -> bool, q: T -> bool, r: T -> bool)
    requires forall x :: p(x) == (q(x) || r(x))
    requires forall x :: !(q(x) && r(x))
    ensures Count(s, p) == Count(s, q) + Count(s, r)
    decreases |s|
  {
    if |s| > 0 {
      CountPartition(s[1..], p, q, r);
    }
  }

  /** Filtering a list with a known head. */
  lemma FilterCons<T>(a: T, s: seq<T>, p: T -> bool)
    ensures Filter([a] + s, p) == (if p(a) then [a] else []) + Filter(s, p)
  {
    assert ([a] + s)[1..] == s;
  }

  /** Nothing is kept when no element satisfies the predicate. */
  lemma {:induction false} FilterNone<T>(s: seq<T>, p: T -> bool)
    requires forall x :: x in s ==> !p(x)
    ensures Filter(s, p) == []
    decreases |s|
  {
    if |s| > 0 {
      assert s[0] in s;
      FilterNone(s[1..], p);
    }
  }

  /** Everything is kept when every element satisfies the predicate. */
  lemma {:induction false} FilterKeepsAll<T>(s: seq<T>, p: T -> bool)
    requires forall x :: x in s ==> p(x)
    ensures Filter(s, p) == s
    decreases |s|
  {
    if |s| > 0 {
      assert s[0] in s;
      FilterKeepsAll(s[1..], p);
      assert s == [s[0]] + s[1..];
    }
  }

  /** `s.find(p)`: the first element satisfying p, None when there is none. */
  function Find<T(==)>(s: seq<T>, p: T -> bool): (r: Option<T>)
    ensures r.None? <==> forall x :: x in s ==> !p(x)
    ensures r.Some? ==> exists i :: 0 <= i < |s| && s[i] == r.value && p(s[i]) && forall j :: 0 <= j < i ==> !p(s[j])
    decreases |s|
  {
    if |s| == 0 then None
    else if p(s[0]) then Some(s[0])
    else
      var r := Find(s[1..], p);
      assert forall x :: x in s ==> x == s[0] || x in s[1..];
      if r.Some? then
        var i :| 0 <= i < |s[1..]| && s[1..][i] == r.value && p(s[1..][i]) && forall j :: 0 <= j < i ==> !p(s[1..][j]);
        assert s[i + 1] == r.value && forall j :: 0 <= j < i + 1 ==> !p(s[j]);
        r
      else r
  }

  /** Filter distributes over concatenation. */
  lemma {:induction false} FilterAppend<T>(a: seq<T>, b: seq<T>, p: T -> bool)
    ensures Filter(a + b, p) == Filter(a, p) + Filter(b, p)
    decreases |a|
  {
    if |a| == 0 {
      assert a + b == b;
    } else {
      assert (a + b)[1..] == a[1..] + b;
      FilterAppend(a[1..], b, p);
    }
  }

  /** No element occurs twice. */
  predicate Distinct<T(==)>(s: seq<T>)
  {
    forall i, j :: 0 <= i < j < |s| ==> s[i] != s[j]
  }

  /** Filtering a list without repeats gives a list without repeats. */
  lemma {:induction false} FilterDistinct<T>(s: seq<T>, p: T -> bool)
    requires Distinct(s)
    ensures Distinct(Filter(s, p))
    decreases |s|
  {
    if |s| > 0 {
      var rest := Filter(s[1..], p);
      assert Distinct(s[1..]) by {
        forall i, j | 0 <= i < j < |s[1..]|
          ensures s[1..][i] != s[1..][j]
        {
          assert s[1..][i] == s[i + 1] && s[1..][j] == s[j + 1];
        }
      }
      FilterDistinct(s[1..], p);
      FilterMembers(s[1..], p, s[0]);
      assert s[0] !in s[1..];
      FilterCons(s[0], s[1..], p);
      assert s == [s[0]] + s[1..];
    }
  }

  /** Euclidean division: the quotient and remainder are determined by the
      division identity. */
  lemma DivUnique(n: int, d: int, q: int, r: int)
    requires d > 0
    requires (n == d * q + r && 0 <= r < d) || (q == n / d && r == n % d)
    ensures q == n / d && r == n % d && n == d * q + r && 0 <= r < d
  {
    var q', r' := n / d, n % d;
    assert n == d * q' + r';
    if q < q' {
      MulMonotone(d, q' - q);
    } else if q > q' {
      MulMonotone(d, q - q');
    }
  }

  lemma MulMonotone(d: int, k: int)
    requires d > 0 && k >= 1
    ensures d * k >= d
  {
  }

  lemma MulLe(d: int, a: int, b: int)
    requires d >= 0 && a <= b
    ensures d * a <= d * b
  {
    assert d * b == d * a + d * (b - a);
  }
}

=== FILE: calendar_api.dfy ===
/** The calendar endpoints of `Calendario/views.py`: the four model viewsets
    (tasks, classes, study sessions and non-academic activities) share a PUT
    guard and a create response that wraps the record under the model's own
    key; `ActividadesDeHoyAPIView` merges today's four lists into one list
    sorted by start time. */
module CalendarApi {
  import opened Base
  import opened JsValue
  import opened StableSort
  import opened BackendModel
  import Suggestions

  datatype Response = Response(status: int, body: Obj)

  /** The key the create response puts the record under. */
  function RecordKey(k: Kind): string
  {
    match k
    case KTarea => "tarea"
    case KClase => "clase"
    case KEstudio => "estudio"
    case KActividad => "actividad"
  }

  function CreatedMessage(k: Kind): string
  {
    match k
    case KTarea => "Tarea creada con éxito"
    case KClase => "Clase creada con éxito"
    case KEstudio => "Estudio creado con éxito"
    case KActividad => "Actividad no académica creada con éxito"
  }

  /** Each kind has its own key. */
  lemma RecordKeysDistinct(a: Kind, b: Kind)
    requires a != b
    ensures RecordKey(a) != RecordKey(b)
  {
  }

  /** `update`: a PUT is answered 405 and nothing is updated; any other method
      goes on to the partial update, which is not part of this model (None). */
  function Update(k: Kind, httpMethod: string): (r: Option<Response>)
    ensures r.Some? <==> httpMethod == "PUT"
    ensures r.Some? ==> r.value.status == 405 && "detail" in r.value.body
  {
    if httpMethod == "PUT" then
      Some(Response(405, map["detail" := Str("Método PUT no permitido, usa PATCH para actualizaciones")]))
    else None
  }

  /** The guard does not depend on the kind: the four viewsets repeat it. */
  lemma SameGuardEverywhere(a: Kind, b: Kind, httpMethod: string)
    ensures Update(a, httpMethod) == Update(b, httpMethod)
  {
  }

  /** The outcome of `create`: the response, the store after saving, and
      the suggestions raised. */
  datatype Created = Created(response: Response, store: seq<Activity>, sugerencias: seq<Suggestions.Suggestion>)

  /** `create`: an invalid payload is answered 400 and nothing is saved;
      otherwise the record is saved, `perform_create` runs the suggestion
      rules (except for non-academic activities, whose `perform_create` only
      saves), and the answer is 201 with the serialized record under the
      kind's key. `data` is the serialized record, `saved` the row. */
  function Create(store: seq<Activity>, saved: Activity, data: Obj, valid: bool): (r: Created)
    ensures !valid ==> r.response.status == 400 && r.store == store && r.sugerencias == []
    ensures valid ==> r.response.status == 201 && r.store == store + [saved]
    ensures valid ==>
      r.response.body.Keys == {"mensaje", RecordKey(saved.kind)}
      && r.response.body[RecordKey(saved.kind)] == Rec(data)
    ensures saved.kind == KActividad ==> r.sugerencias == []
    ensures valid && saved.kind != KActividad ==> r.sugerencias == Suggestions.SugerenciaActividad(store + [saved], saved)
  {
    if !valid then Created(Response(400, map[]), store, [])
    else
      var store' := store + [saved];
      var sugerencias := if saved.kind == KActividad then [] else Suggestions.SugerenciaActividad(store', saved);
      var body := map["mensaje" := Str(CreatedMessage(saved.kind)), RecordKey(saved.kind) := Rec(data)];
      Created(Response(201, body), store', sugerencias)
  }

  /** One entry of the summary serializers, with the `tipo` tag the view puts
      in front of it. The third field is `titulo`, or `curso` for a class. */
  datatype Resumen = Resumen(tipo: string, horaInicio: string, horaFin: string, nombre: string, usuario: int)

  /** `[{"tipo": t, **item} for item in items]`; the summary fields never hold
      a `tipo`, so the tag stays. */
  function Tag(items: seq<Resumen>, tipo: string): (r: seq<Resumen>)
    ensures |r| == |items|
    ensures forall i :: 0 <= i < |r| ==> r[i] == items[i].(tipo := tipo)
  {
    if |items| == 0 then [] else [items[0].(tipo := tipo)] + Tag(items[1..], tipo)
  }

  function HoraInicio(r: Resumen): string
  {
    r.horaInicio
  }

  /** The concatenation, before sorting: tasks, study sessions, classes, then
      the other activities. */
  function Todas(tareas: seq<Resumen>, estudios: seq<Resumen>, clases: seq<Resumen>, otras: seq<Resumen>): seq<Resumen>
  {
    Tag(tareas, "Tarea") + Tag(estudios, "Estudio") + Tag(clases, "Clase") + Tag(otras, "ActividadNoAcademica")
  }

  /** `ActividadesDeHoyAPIView.get`: today's records of the four kinds, tagged,
      concatenated and sorted by horaInicio. The result holds exactly the tagged
      records and its start times never decrease. */
  function ActividadesDeHoy(tareas: seq<Resumen>, estudios: seq<Resumen>, clases: seq<Resumen>, otras: seq<Resumen>): (r: seq<Resumen>)
    ensures multiset(r) == multiset(Todas(tareas, estudios, clases, otras))
    ensures |r| == |tareas| + |estudios| + |clases| + |otras|
    ensures forall i, j :: 0 <= i < j < |r| ==> StrLeq(r[i].horaInicio, r[j].horaInicio)
  {
    SortByKey(Todas(tareas, estudios, clases, otras), HoraInicio)
  }

  /** Every listed record carries the tag of the list it came from. */
  lemma TodayTagsTellTheSource(tareas: seq<Resumen>, estudios: seq<Resumen>, clases: seq<Resumen>, otras: seq<Resumen>, x: Resumen)
    requires x in ActividadesDeHoy(tareas, estudios, clases, otras)
    ensures x.tipo == "Tarea" ==> exists t :: t in tareas && x == t.(tipo := "Tarea")
    ensures x.tipo == "Estudio" ==> exists t :: t in estudios && x == t.(tipo := "Estudio")
    ensures x.tipo == "Clase" ==> exists t :: t in clases && x == t.(tipo := "Clase")
    ensures x.tipo in {"Tarea", "Estudio", "Clase", "ActividadNoAcademica"}
    ensures x.tipo == "ActividadNoAcademica" ==> exists t :: t in otras && x == t.(tipo := "ActividadNoAcademica")
  {
    var all := Todas(tareas, estudios, clases, otras);
    assert x in multiset(all);
    var t, e, c, o := Tag(tareas, "Tarea"), Tag(estudios, "Estudio"), Tag(clases, "Clase"), Tag(otras, "ActividadNoAcademica");
    assert all == t + e + c + o;
    SourceTagsDistinct();
    if x in t {
      TagMember(tareas, "Tarea", x);
    } else if x in e {
      TagMember(estudios, "Estudio", x);
    } else if x in c {
      TagMember(clases, "Clase", x);
    } else {
      TagMember(otras, "ActividadNoAcademica", x);
    }
  }

  /** The four tags differ in their first letter. */
  lemma SourceTagsDistinct()
    ensures "Tarea" != "Estudio" && "Tarea" != "Clase" && "Tarea" != "ActividadNoAcademica"
    ensures "Estudio" != "Clase" && "Estudio" != "ActividadNoAcademica" && "Clase" != "ActividadNoAcademica"
  {
    assert "Tarea"[0] == 'T' && "Estudio"[0] == 'E' && "Clase"[0] == 'C' && "ActividadNoAcademica"[0] == 'A';
  }

  lemma TagMember(items: seq<Resumen>, tipo: string, x: Resumen)
    requires x in Tag(items, tipo)
    ensures x.tipo == tipo
    ensures exists t :: t in items && x == t.(tipo := tipo)
  {
    var r := Tag(items, tipo);
    var i :| 0 <= i < |r| && r[i] == x;
    assert items[i] in items;
  }

  /** Records starting at the same time keep the concatenation's order: tasks,
      then study sessions, then classes, then the rest, each list in its own
      order. */
  lemma TodayTiesKeepListOrder(tareas: seq<Resumen>, estudios: seq<Resumen>, clases: seq<Resumen>, otras: seq<Resumen>, hora: string)
    ensures WithKey(ActividadesDeHoy(tareas, estudios, clases, otras), HoraInicio, hora)
         == WithKey(Todas(tareas, estudios, clases, otras), HoraInicio, hora)
  {
    SortStable(Todas(tareas, estudios, clases, otras), HoraInicio, hora);
  }
}

=== FILE: calendar_day.dfy ===
/** One cell of the month grid (`components/CalendarDay.jsx`): the date the
    cell stands for, the records shown in it (in start-time order), the
    drag-and-drop that moves a record onto the cell, and the click that
    opens the day's list. */
module CalendarDay {
  import opened Base
  import opened JsValue
  import opened StableSort
  import opened Dates
  import CalendarPage

  /** `dayNumber ? ... : null`: a blank cell has no day number (None), and a
      day number 0 is falsy as well. */
  predicate HasDay(dayNumber: Option<int>)
  {
    dayNumber.Some? && dayNumber.value != 0
  }

  /** The day number of local `new Date(year, month, dayNumber)`; the month and
      the day overflow into the next ones as `Date` does. */
  function LocalDay(year: int, month: int, dayNumber: int): int
  {
    DayNumber(CalendarPage.FirstOfMonth(year, month)) + dayNumber - 1
  }

  /** The UTC day of local midnight of day `d` in a zone `zone` minutes east
      of UTC: what `toISOString().split('T')[0]` reads. */
  function UtcDayOfMidnight(d: int, zone: int): int
  {
    (d * 1440 - zone) / 1440
  }

  /** West of UTC and at UTC, local midnight is still the same UTC day; east
      of UTC (less than a day ahead) it is the previous UTC day. */
  lemma MidnightInUtc(d: int, zone: int)
    ensures -1440 < zone <= 0 ==> UtcDayOfMidnight(d, zone) == d
    ensures 0 < zone <= 1440 ==> UtcDayOfMidnight(d, zone) == d - 1
  {
    var m := d * 1440 - zone;
    if -1440 < zone <= 0 {
      assert d * 1440 <= m < d * 1440 + 1440;
    } else if 0 < zone <= 1440 {
      assert (d - 1) * 1440 <= m < d * 1440;
    }
  }

  /** `dateStr` as written: the ISO date of the cell's local midnight read in
      UTC, or null for a blank cell. */
  function DateStrAsWritten(year: int, month: int, dayNumber: Option<int>, zone: int): (r: Val)
    ensures !HasDay(dayNumber) ==> r == Null
    ensures HasDay(dayNumber) ==> r == Str(FormatDay(UtcDayOfMidnight(LocalDay(year, month, dayNumber.value), zone)))
  {
    if HasDay(dayNumber) then Str(FormatDay(UtcDayOfMidnight(LocalDay(year, month, dayNumber.value), zone))) else Null
  }

  /** East of UTC (up to a day ahead) the written cell date is the day
      before the cell's own day: the records of the cell's day are shown one
      cell later. */
  lemma CellDateShiftsEastOfUtc(year: int, month: int, dayNumber: int, zone: int)
    requires dayNumber != 0 && 0 < zone <= 1440
    requires 0 <= CivilOfDay(LocalDay(year, month, dayNumber) - 1).year
    requires CivilOfDay(LocalDay(year, month, dayNumber)).year <= 9999
    ensures DateStrAsWritten(year, month, Some(dayNumber), zone) == Str(FormatDay(LocalDay(year, month, dayNumber) - 1))
    ensures DateStrAsWritten(year, month, Some(dayNumber), zone) != DateStr(year, month, Some(dayNumber))
  {
    ShiftedDate(LocalDay(year, month, dayNumber), zone);
  }

  /** Day d's local midnight, east of UTC, is written as the day before,
      which has a different ISO date. */
  lemma ShiftedDate(d: int, zone: int)
    requires 0 < zone <= 1440
    requires 0 <= CivilOfDay(d - 1).year && CivilOfDay(d).year <= 9999
    ensures FormatDay(UtcDayOfMidnight(d, zone)) == FormatDay(d - 1)
    ensures FormatDay(d - 1) != FormatDay(d)
  {
    MidnightInUtc(d, zone);
    AdjacentDaysDiffer(d);
  }

  /** The cell's date as intended: the ISO date of the local day itself. */
  function DateStr(year: int, month: int, dayNumber: Option<int>): (r: Val)
    ensures !HasDay(dayNumber) ==> r == Null
    ensures HasDay(dayNumber) ==> r.Str? && |r.s| >= 10
  {
    if HasDay(dayNumber) then Str(FormatDay(LocalDay(year, month, dayNumber.value))) else Null
  }

  /** The intended cell date reads back as the cell's own day, and agrees with
      the written one in every zone at or west of UTC. */
  lemma DateStrIsTheCellDay(year: int, month: int, dayNumber: int, zone: int)
    requires dayNumber != 0
    requires 0 <= CivilOfDay(LocalDay(year, month, dayNumber)).year <= 9999
    ensures ParseIso(DateStr(year, month, Some(dayNumber)).s) == Some(LocalDay(year, month, dayNumber))
    ensures -1440 < zone <= 0 ==> DateStrAsWritten(year, month, Some(dayNumber), zone) == DateStr(year, month, Some(dayNumber))
  {
    ParseFormat(LocalDay(year, month, dayNumber));
    MidnightInUtc(LocalDay(year, month, dayNumber), zone);
  }

  /** `getTaskCalendarDate`: a task's realization date; for the rest their
      `fecha`, else their `date`, else null. */
  function CalendarDate(t: Obj): (r: Val)
    ensures Get(t, "type") == Str(CalendarPage.Tarea) ==> r == Get(t, "realizationDate")
    ensures Get(t, "type") != Str(CalendarPage.Tarea) ==> r == Null || Truthy(r)
    ensures Get(t, "type") != Str(CalendarPage.Tarea) && Truthy(Get(t, "fecha")) ==> r == Get(t, "fecha")
    ensures Get(t, "type") != Str(CalendarPage.Tarea) && !Truthy(Get(t, "fecha")) ==>
      r == (if Truthy(Get(t, "date")) then Get(t, "date") else Null)
  {
    if Get(t, "type") == Str(CalendarPage.Tarea) then Get(t, "realizationDate")
    else if Truthy(Get(t, "fecha")) then Get(t, "fecha")
    else if Truthy(Get(t, "date")) then Get(t, "date")
    else Null
  }

  /** A record the calendar page built from the server sits on the date the
      server gave it: a task on its realization date, any other record on
      its `fecha`, and nowhere (null) when that is empty. */
  lemma MappedRecordDate(t: string, task: Obj)
    requires CalendarPage.TimeLike(CalendarPage.StartOf(task)) && CalendarPage.KnownType(t)
    ensures CalendarDate(CalendarPage.MapToFrontendTask(t, task)) ==
      if t == CalendarPage.Tarea then Get(task, "fechaRealizacion")
      else if Truthy(Get(task, "fecha")) then Get(task, "fecha")
      else Null
  {
    CalendarPage.MappedDateKeys(t, task);
  }

  function OnDate(dateStr: Val): Obj -> bool
  {
    (t: Obj) => CalendarDate(t) == dateStr
  }

  /** The sort key `a.startTime || ''`. Start times are strings or absent. */
  function StartKey(t: Obj): string
  {
    var v := Get(t, "startTime");
    if v.Str? then v.s else ""
  }

  /** `dayTasks`: the records whose calendar date is the cell's date, sorted by
      start time, records with the same start time in list order. */
  function DayTasks(tasks: seq<Obj>, dateStr: Val): (r: seq<Obj>)
    ensures multiset(r) == multiset(Filter(tasks, OnDate(dateStr)))
    ensures forall t :: t in r ==> CalendarDate(t) == dateStr
    ensures SortedBy(r, StartKey)
  {
    var r := SortByKey(Filter(tasks, OnDate(dateStr)), StartKey);
    assert forall t :: t in r ==> t in multiset(Filter(tasks, OnDate(dateStr)));
    r
  }

  /** A record is shown in the cell exactly when it is in the list with the
      cell's date; same-time records keep their list order. */
  lemma ShownIffOnDate(tasks: seq<Obj>, dateStr: Val, t: Obj, time: string)
    ensures t in DayTasks(tasks, dateStr) <==> t in tasks && CalendarDate(t) == dateStr
    ensures WithKey(DayTasks(tasks, dateStr), StartKey, time) == WithKey(Filter(tasks, OnDate(dateStr)), StartKey, time)
  {
    var f := Filter(tasks, OnDate(dateStr));
    assert t in DayTasks(tasks, dateStr) <==> t in multiset(f);
    if t in tasks && CalendarDate(t) == dateStr {
      FilterMembers(tasks, OnDate(dateStr), t);
    }
    if t in f {
      FilterMembers(tasks, OnDate(dateStr), t);
    }
    SortStable(f, StartKey, time);
  }

  /** An update request sent to the server: the kind, the id and the field. */
  datatype Call = UpdateCall(kind: string, id: Val, field: string, date: string)

  datatype Dropped = Dropped(tasks: seq<Obj>, call: Option<Call>)

  /** The field the local list rewrites: a task moves its realization date. */
  function MovedField(itemType: Val): string
  {
    if itemType == Str(CalendarPage.Tarea) then "realizationDate" else "fecha"
  }

  function HasId(id: Val): Obj -> bool
  {
    (t: Obj) => Get(t, "id") == id
  }

  /** `prev.map(t => t.id === item.id ? {...t, [field]: newDate} : t)`. */
  function Move(tasks: seq<Obj>, item: Obj, newDate: string): (r: seq<Obj>)
    ensures |r| == |tasks|
    ensures forall i :: 0 <= i < |r| && Get(tasks[i], "id") != Get(item, "id") ==> r[i] == tasks[i]
    ensures forall i :: 0 <= i < |r| && Get(tasks[i], "id") == Get(item, "id") ==>
      r[i].Keys == tasks[i].Keys + {MovedField(Get(item, "type"))}
      && r[i][MovedField(Get(item, "type"))] == Str(newDate)
      && forall k :: k in tasks[i] && k != MovedField(Get(item, "type")) ==> r[i][k] == tasks[i][k]
  {
    MapWhere(tasks, HasId(Get(item, "id")), (t: Obj) => Merge(t, map[MovedField(Get(item, "type")) := Str(newDate)]))
  }

  /** The backend call for a dragged record of a known type. */
  function UpdateCallFor(item: Obj, newDate: string): (r: Option<Call>)
    ensures r.Some? <==> CalendarPage.KnownTypeVal(Get(item, "type"))
    ensures r.Some? ==> r.value.id == Get(item, "id") && r.value.date == newDate
    ensures r.Some? ==> (r.value.field == "fechaRealizacion" <==> Get(item, "type") == Str(CalendarPage.Tarea))
  {
    var t := Get(item, "type");
    if !CalendarPage.KnownTypeVal(t) then None
    else if t.s == CalendarPage.Tarea then Some(UpdateCall(t.s, Get(item, "id"), "fechaRealizacion", newDate))
    else Some(UpdateCall(t.s, Get(item, "id"), "fecha", newDate))
  }

  /** The `drop` handler. A blank cell ignores the drop; an item without an id
      fails on `toString` and changes nothing; a browser-local id moves the
      record locally only; otherwise the server is told first (an unknown type
      is only warned about) and the record is moved when that succeeds
      (`serverOk`). `cellDate` is the date string of the cell. */
  function Drop(tasks: seq<Obj>, item: Obj, dayNumber: Option<int>, cellDate: string, serverOk: bool): (r: Dropped)
    ensures !HasDay(dayNumber) || Nullish(Get(item, "id")) ==> r == Dropped(tasks, None)
    ensures HasDay(dayNumber) && !Nullish(Get(item, "id")) && IsLocalId(Get(item, "id")) ==>
      r == Dropped(Move(tasks, item, cellDate), None)
    ensures r.call.Some? ==> !IsLocalId(Get(item, "id")) && r.call == UpdateCallFor(item, cellDate)
    ensures r.tasks == tasks || r.tasks == Move(tasks, item, cellDate)
    ensures r.call.Some? ==> (r.tasks == Move(tasks, item, cellDate) <== serverOk)
    ensures r.call.Some? && !serverOk ==> r.tasks == tasks
    ensures r.call.None? && HasDay(dayNumber) && !Nullish(Get(item, "id")) ==> r.tasks == Move(tasks, item, cellDate)
  {
    var id := Get(item, "id");
    if !HasDay(dayNumber) || Nullish(id) then Dropped(tasks, None)
    else if IsLocalId(id) then Dropped(Move(tasks, item, cellDate), None)
    else
      var call := UpdateCallFor(item, cellDate);
      if call.Some? && !serverOk then Dropped(tasks, call)
      else Dropped(Move(tasks, item, cellDate), call)
  }

  /** A record dropped on a cell is then shown in that cell: its calendar date
      becomes the cell's date. */
  lemma DroppedRecordLandsOnTheDay(tasks: seq<Obj>, item: Obj, newDate: string, i: int)
    requires 0 <= i < |tasks|
    requires Get(tasks[i], "id") == Get(item, "id")
    requires Get(tasks[i], "type") == Get(item, "type")
    requires newDate != ""
    ensures var moved := Move(tasks, item, newDate);
      moved[i] in DayTasks(moved, Str(newDate))
  {
    var moved := Move(tasks, item, newDate);
    var f := MovedField(Get(item, "type"));
    assert Get(moved[i], "type") == Get(tasks[i], "type") by {
      if f == "type" {
        assert false;
      }
    }
    assert CalendarDate(moved[i]) == Str(newDate);
    ShownIffOnDate(moved, Str(newDate), moved[i], "");
  }

  /** `handleDayClick`: the day's list is handed on only when it is not empty
      and there is a handler. */
  function DayClick(dayTasks: seq<Obj>, hasHandler: bool): (r: Option<seq<Obj>>)
    ensures r.Some? <==> |dayTasks| > 0 && hasHandler
    ensures r.Some? ==> r.value == dayTasks
  {
    if |dayTasks| > 0 && hasHandler then Some(dayTasks) else None
  }
}

=== FILE: calendar_mock.dfy ===
/** `services/calendarService.mock.js`: one list of activities, seeded
    with the sample calendar, read and written per type tag. `Date.now()`
    is the parameter `now`. */
module CalendarMock {
  import opened Base
  import opened JsValue
  import opened MockStore

  const Tarea := "tarea"
  const Clase := "clase"
  const Estudio := "estudio"
  const NoAcademica := "actividadNoAcademica"

  predicate IsTag(tag: string)
  {
    tag == Tarea || tag == Clase || tag == Estudio || tag == NoAcademica
  }

  function TipoIs(tag: string): Obj -> bool
  {
    (a: Obj) => Get(a, "tipo") == Str(tag)
  }

  /** `getByType(tag)`: the records tagged exactly so, in store order. */
  function ByType(s: Store, tag: string): (r: Store)
    ensures forall a :: a in r <==> a in s && Get(a, "tipo") == Str(tag)
    ensures IsSubseq(r, s)
  {
    var r := Filter(s, TipoIs(tag));
    FilterIsSubseq(s, TipoIs(tag));
    forall a
      ensures a in r <==> a in s && TipoIs(tag)(a)
    {
      FilterMembers(s, TipoIs(tag), a);
    }
    r
  }

  /** `createTarea(data)` and its three siblings: a record with the given
      fields, the new id and the type's tag (both winning over the data's
      own), appended to the store and handed back. */
  function Create(s: Store, data: Obj, now: int, tag: string): (r: (Store, Obj))
    ensures |r.0| == |s| + 1 && r.0[..|s|] == s && r.0[|s|] == r.1
    ensures r.1.Keys == data.Keys + {"id", "tipo"}
    ensures r.1["id"] == Num(now) && r.1["tipo"] == Str(tag)
    ensures forall k :: k in data && k != "id" && k != "tipo" ==> r.1[k] == data[k]
  {
    var item := Merge(data, map["id" := Num(now), "tipo" := Str(tag)]);
    (s + [item], item)
  }

  /** `getActivities`: the tasks, then the study sessions, the classes and
      the other activities. */
  function Activities(s: Store): (r: Store)
    ensures forall a :: a in r <==> a in s && exists tag :: IsTag(tag) && Get(a, "tipo") == Str(tag)
  {
    ByType(s, Tarea) + ByType(s, Estudio) + ByType(s, Clase) + ByType(s, NoAcademica)
  }

  /** Each record is listed at most once: a record carries one tag, so the
      four lists together are no longer than the store. */
  lemma ActivitiesNoLonger(s: Store)
    ensures |Activities(s)| <= |s|
  {
    TagsDistinct();
    FourTagsNoLonger(s, Tarea, Estudio, Clase, NoAcademica);
  }

  /** Four different tags pick disjoint parts of the store. */
  lemma {:induction false} FourTagsNoLonger(s: Store, t1: string, t2: string, t3: string, t4: string)
    requires t1 != t2 && t1 != t3 && t1 != t4 && t2 != t3 && t2 != t4 && t3 != t4
    ensures |Filter(s, TipoIs(t1))| + |Filter(s, TipoIs(t2))| + |Filter(s, TipoIs(t3))| + |Filter(s, TipoIs(t4))| <= |s|
    decreases |s|
  {
    if |s| > 0 {
      FourTagsNoLonger(s[1..], t1, t2, t3, t4);
    }
  }

  /** The four tags are different strings. */
  lemma TagsDistinct()
    ensures Tarea != Estudio && Tarea != Clase && Tarea != NoAcademica
    ensures Estudio != Clase && Estudio != NoAcademica && Clase != NoAcademica
  {
    assert Tarea[0] != Estudio[0] && Tarea[0] != Clase[0] && Tarea[0] != NoAcademica[0];
    assert Estudio[0] != Clase[0] && Estudio[0] != NoAcademica[0] && Clase[0] != NoAcademica[0];
  }

  /** A record just created through one of the four creators is listed by
      `getActivities`. */
  lemma CreatedIsListed(s: Store, data: Obj, now: int, tag: string)
    requires IsTag(tag)
    ensures Create(s, data, now, tag).1 in Activities(Create(s, data, now, tag).0)
  {
    var r := Create(s, data, now, tag);
    assert r.0[|s|] in r.0;
  }

  /** The sample records are tagged 'Tarea', 'Estudio', 'Clase' and
      'Act. no académica'; the comparison is exact, so a store holding only
      such records lists nothing. */
  lemma SeedIsNeverListed(s: Store)
    requires forall a :: a in s ==> Get(a, "tipo") in SeedTags
    ensures Activities(s) == []
  {
    SeedTagMissed(s, Tarea);
    SeedTagMissed(s, Estudio);
    SeedTagMissed(s, Clase);
    SeedTagMissed(s, NoAcademica);
  }

  const SeedTags: seq<Val> := [Str("Tarea"), Str("Estudio"), Str("Clase"), Str("Act. no académica")]

  /** No sample record carries a getter's tag. */
  lemma SeedTagMissed(s: Store, tag: string)
    requires IsTag(tag)
    requires forall a :: a in s ==> Get(a, "tipo") in SeedTags
    ensures ByType(s, tag) == []
  {
    assert Str(tag) !in SeedTags;
    FilterNone(s, TipoIs(tag));
  }
}

=== FILE: calendar_page.dfy ===
/** The calendar page of the client (`pages/CalendarPage.jsx`): the month
    grid, the mapping of server records to calendar records, the weekly
    repetition of new classes and activities, and the local list updates
    after an edit or a delete. Calendar records are plain objects; the four
    record types are named by the strings the page uses. */
module CalendarPage {
  import opened Base
  import opened Strings
  import opened JsValue
  import opened Dates

  const Tarea := "Tarea"
  const Estudio := "Estudio"
  const Clase := "Clase"
  const Actividad := "Act. no académica"

  predicate KnownType(t: string)
  {
    t == Tarea || t == Estudio || t == Clase || t == Actividad
  }

  /** The year `new Date(year, ...)` means: 0 to 99 stand for 1900 to 1999. */
  function JsYear(year: int): int
  {
    if 0 <= year <= 99 then 1900 + year else year
  }

  /** The first day of month `month` (0-based, overflowing into other years
      as `new Date(year, month, 1)` does). */
  function FirstOfMonth(year: int, month: int): (c: Civil)
    ensures ValidCivil(c) && c.day == 1
  {
    Civil(JsYear(year) + month / 12, month % 12 + 1, 1)
  }

  /** The blank cells before the first: `(getDay() + 6) % 7`, which turns the
      Sunday-first day of the week into a Monday-first one. */
  function BlankCells(first: Civil): (o: int)
    requires ValidCivil(first)
    ensures o == PyWeekday(DayNumber(first))
  {
    var d := DayNumber(first);
    MondayFirst(d);
    (JsDay(d) + 6) % 7
  }

  lemma MondayFirst(d: int)
    ensures (JsDay(d) + 6) % 7 == PyWeekday(d)
  {
    if PyWeekday(d) == 6 {
      assert JsDay(d) == 0;
    } else {
      assert JsDay(d) == PyWeekday(d) + 1;
    }
  }

  /** `getMonthDays(year, month)`: one blank cell (None) per weekday before the
      first, counting from Monday, then the days 1..n of the month. */
  function GetMonthDays(year: int, month: int): (days: seq<Option<int>>)
    ensures var first := FirstOfMonth(year, month);
      var offset := PyWeekday(DayNumber(first));
      |days| == offset + DaysInMonth(first.year, first.month)
      && forall i :: 0 <= i < |days| ==> days[i] == if i < offset then None else Some(i - offset + 1)
  {
    var first := FirstOfMonth(year, month);
    var offset := BlankCells(first);
    var n := DaysInMonth(first.year, first.month);
    seq(offset, i => None) + seq(n, k => Some(k + 1))
  }

  /** Every day sits in the column of its weekday, Monday first, and the
      grid never starts with a full blank week. */
  lemma GridColumnIsWeekday(year: int, month: int, i: int)
    requires 0 <= i < |GetMonthDays(year, month)|
    requires GetMonthDays(year, month)[i].Some?
    ensures var first := FirstOfMonth(year, month);
      i % 7 == PyWeekday(DayNumber(first) + GetMonthDays(year, month)[i].value - 1)
    ensures var first := FirstOfMonth(year, month);
      |GetMonthDays(year, month)| - DaysInMonth(first.year, first.month) < 7
  {
    var first := FirstOfMonth(year, month);
    var days := GetMonthDays(year, month);
    var offset := PyWeekday(DayNumber(first));
    assert days[i] == if i < offset then None else Some(i - offset + 1);
    var k := i - offset;
    ShiftWeekday(DayNumber(first), k);
  }

  lemma ShiftWeekday(d: int, k: int)
    ensures (PyWeekday(d) + k) % 7 == PyWeekday(d + k)
  {
    var q := (d + 3) / 7;
    assert d + 3 + k == 7 * q + (PyWeekday(d) + k);
  }

  /** A time value is a string or falsy. `formatToHHMM` calls `slice` on any
      truthy value: a number, a boolean or a plain object has none and
      throws, and an array, whose `slice` gives an array, is not modelled. */
  predicate TimeLike(v: Val)
  {
    v.Str? || !Truthy(v)
  }

  /** `formatToHHMM`: '' for a falsy value, else the first five characters. */
  function FormatToHHMM(v: Val): (r: string)
    requires TimeLike(v)
    ensures |r| <= 5
    ensures !Truthy(v) ==> r == ""
    ensures v.Str? ==> StartsWith(v.s, r) && (|v.s| >= 5 ==> |r| == 5) && (|v.s| < 5 ==> r == v.s)
  {
    if !Truthy(v) then "" else Take(v.s, 5)
  }

  /** Cutting an already cut time changes nothing. */
  lemma FormatToHHMMIdempotent(v: Val)
    requires TimeLike(v)
    ensures FormatToHHMM(Str(FormatToHHMM(v))) == FormatToHHMM(v)
  {
  }

  /** The server record's start time, falling back to its delivery time. */
  function StartOf(task: Obj): Val
  {
    Or(Get(task, "horaInicio"), Get(task, "horaEntrega"))
  }

  /** The fields `mapToFrontendTask` adds for each type after the common ones. */
  function TypeFields(t: string, task: Obj): Obj
  {
    if t == Tarea then
      map[
        "title" := Get(task, "titulo"),
        "course" := Get(task, "curso"),
        "description" := Get(task, "descripcion"),
        "fecha" := Get(task, "fechaRealizacion"),
        "realizationDate" := Get(task, "fechaRealizacion"),
        "deliveryDate" := Get(task, "fechaEntrega"),
        "deliveryTime" := Get(task, "horaEntrega"),
        "endTime" := Get(task, "horaFin"),
        "complexity" := Get(task, "complejidad")]
    else if t == Estudio then
      map[
        "title" := Get(task, "titulo"),
        "course" := Get(task, "curso"),
        "temas" := Get(task, "temas"),
        "fecha" := Get(task, "fecha"),
        "endTime" := Get(task, "horaFin"),
        "hInicio" := Get(task, "horaInicio"),
        "hFin" := Get(task, "horaFin")]
    else if t == Clase then
      map[
        "title" := Get(task, "curso"),
        "description" := Get(task, "descripcion"),
        "fecha" := Get(task, "fecha"),
        "endTime" := Get(task, "horaFin"),
        "hInicio" := Get(task, "horaInicio"),
        "hFin" := Get(task, "horaFin"),
        "repetir" := Get(task, "repetir"),
        "semanas" := Get(task, "semanas")]
    else
      map[
        "title" := Get(task, "titulo"),
        "description" := Get(task, "descripcion"),
        "fecha" := Get(task, "fecha"),
        "endTime" := Get(task, "horaFin"),
        "hInicio" := Get(task, "horaInicio"),
        "hFin" := Get(task, "horaFin"),
        "repetir" := Get(task, "repetir"),
        "semanas" := Get(task, "semanas")]
  }

  /** `mapToFrontendTask(type, task)`: the common id, type and start time, then
      the fields of that type; `{}` for any other type. The calendar date
      (`fecha`) of a task is its realization date, not its delivery date. */
  function MapToFrontendTask(t: string, task: Obj): (r: Obj)
    requires TimeLike(StartOf(task))
    ensures !KnownType(t) ==> r == map[]
    ensures KnownType(t) ==> {"id", "type", "startTime", "fecha"} <= r.Keys
    ensures KnownType(t) ==>
      && r["id"] == Get(task, "id")
      && r["type"] == Str(t)
      && r["startTime"] == Str(FormatToHHMM(StartOf(task)))
      && "fecha" in r
    ensures t == Tarea ==> r["fecha"] == Get(task, "fechaRealizacion")
    ensures KnownType(t) && t != Tarea ==> r["fecha"] == Get(task, "fecha")
  {
    if KnownType(t) then
      var common := map["id" := Get(task, "id"), "type" := Str(t), "startTime" := Str(FormatToHHMM(StartOf(task)))];
      assert "id" in common && "type" in common && "startTime" in common;
      TypeFields(t, task) + common
    else map[]
  }

  /** The date keys of a mapped record: a task carries its realization
      date, and no record carries a `date` key. */
  lemma MappedDateKeys(t: string, task: Obj)
    requires TimeLike(StartOf(task)) && KnownType(t)
    ensures var m := MapToFrontendTask(t, task);
      && "date" !in m
      && Get(m, "type") == Str(t)
      && (t == Tarea ==> Get(m, "realizationDate") == Get(task, "fechaRealizacion"))
  {
    TypeFieldsDates(t, task);
  }

  lemma TypeFieldsDates(t: string, task: Obj)
    ensures "date" !in TypeFields(t, task)
    ensures t == Tarea ==> Get(TypeFields(t, task), "realizationDate") == Get(task, "fechaRealizacion")
  {
    if t == Tarea {
    } else if t == Estudio {
    } else if t == Clase {
    } else {
    }
  }

  /** `parseInt(taskData.semanas) || 1`: NaN and 0 both fall back to one week. */
  function Weeks(semanas: Val): (w: int)
    ensures w != 0
  {
    match ParseInt(semanas)
    case None => 1
    case Some(n) => if n == 0 then 1 else n
  }

  /** The class and activity forms are the ones that repeat. */
  predicate Repeats(t: string, repetir: Val)
  {
    (t == Clase || t == Actividad) && Truthy(repetir)
  }

  /** How many records a creation adds locally: max(1, weeks) for a repeating
      class or activity, one otherwise. */
  function CopiesOf(t: string, taskData: Obj): (n: nat)
    ensures n >= 1
    ensures !Repeats(t, Get(taskData, "repetir")) ==> n == 1
    ensures Repeats(t, Get(taskData, "repetir")) ==>
      n == if Weeks(Get(taskData, "semanas")) < 1 then 1 else Weeks(Get(taskData, "semanas"))
  {
    if Repeats(t, Get(taskData, "repetir")) then
      var w := Weeks(Get(taskData, "semanas"));
      if w < 1 then 1 else w
    else 1
  }

  /** Copy i of a repeated record: a browser-local id ('_' and the random part)
      and the given date; every other field is the first record's. */
  function Copy(first: Obj, i: nat, fecha: string, random: nat -> string): Obj
  {
    Restamp(first, "_" + random(i), fecha)
  }

  /** A record with its id and date replaced. */
  function Restamp(first: Obj, id: string, fecha: string): (c: Obj)
    ensures c.Keys == first.Keys + {"id", "fecha"}
    ensures forall k :: k in first && k != "id" && k != "fecha" ==> c[k] == first[k]
    ensures c["id"] == Str(id) && c["fecha"] == Str(fecha)
  {
    first["id" := Str(id)]["fecha" := Str(fecha)]
  }

  /** A copy has the first record's fields plus an id and a date; only those
      two differ, and the id is browser-local. */
  lemma CopyFields(first: Obj, i: nat, fecha: string, random: nat -> string)
    ensures var c := Copy(first, i, fecha, random);
      c.Keys == first.Keys + {"id", "fecha"}
      && (forall k :: k in first && k != "id" && k != "fecha" ==> c[k] == first[k])
      && IsLocalId(c["id"])
      && c["fecha"] == Str(fecha)
  {
    var id := "_" + random(i);
    assert ToJsString(Str(id)) == id;
  }

  /** Lines 342-357 of `handleSaveTask`: the records added for a new record.
      The copies need the first record's fecha as a date; when it is not one,
      `toISOString` throws and nothing is added (None). `random` stands for
      the random part of each generated id. */
  function Expand(t: string, taskData: Obj, first: Obj, random: nat -> string): (r: Option<seq<Obj>>)
    ensures CopiesOf(t, taskData) == 1 ==> r == Some([first])
    ensures r.None? <==>
      CopiesOf(t, taskData) > 1 && (!Get(first, "fecha").Str? || ParseIso(Get(first, "fecha").s).None?)
    ensures r.Some? ==> |r.value| == CopiesOf(t, taskData) && r.value[0] == first
  {
    var n := CopiesOf(t, taskData);
    if n == 1 then Some([first])
    else
      var f := Get(first, "fecha");
      if !f.Str? || ParseIso(f.s).None? then None
      else
        Some(Series(first, WeekDates(ParseIso(f.s).value, n), random))
  }

  /** The dates of the n weeks starting with day d, that day included. */
  function WeekDates(d: int, n: nat): (r: seq<string>)
    ensures |r| == n
  {
    seq(n, (k: int) requires 0 <= k < n => FormatDay(d + 7 * k))
  }

  /** The first record followed by one copy per further date. */
  function Series(first: Obj, dates: seq<string>, random: nat -> string): (r: seq<Obj>)
    requires |dates| >= 1
    ensures |r| == |dates| && r[0] == first
  {
    seq(|dates|, (k: int) requires 0 <= k < |dates| => if k == 0 then first else Copy(first, k, dates[k], random))
  }

  /** A repeated creation with a valid first date adds the series of weekly
      copies starting from that date. */
  lemma ExpandIsSeries(t: string, taskData: Obj, first: Obj, random: nat -> string)
    requires Expand(t, taskData, first, random).Some? && CopiesOf(t, taskData) > 1
    ensures Get(first, "fecha").Str? && ParseIso(Get(first, "fecha").s).Some?
    ensures Expand(t, taskData, first, random).value
         == Series(first, WeekDates(ParseIso(Get(first, "fecha").s).value, CopiesOf(t, taskData)), random)
  {
  }

  /** A record that is copy i stamped with date `fecha` carries that date. */
  lemma DatedCopy(c: Obj, first: Obj, i: nat, dates: seq<string>, fecha: string, random: nat -> string)
    requires i < |dates| && dates[i] == fecha && c == Copy(first, i, dates[i], random)
    ensures c.Keys == first.Keys + {"id", "fecha"}
    ensures forall k :: k in first && k != "id" && k != "fecha" ==> c[k] == first[k]
    ensures c["fecha"] == Str(fecha) && c["id"] == Str("_" + random(i))
  {
  }

  /** In the series of n weekly records from day d, record i (from 1) is
      dated exactly i weeks after the first, on the same weekday, has the id
      '_' and its random part (a browser-local id, by `CopyFields`), and
      keeps the first record's other fields. */
  lemma CopiesAreWeekly(first: Obj, d: int, n: nat, random: nat -> string, i: nat)
    requires 1 <= i < n
    ensures var c := Series(first, WeekDates(d, n), random)[i];
      c.Keys == first.Keys + {"id", "fecha"}
      && (forall k :: k in first && k != "id" && k != "fecha" ==> c[k] == first[k])
      && c["fecha"] == Str(FormatDay(d + 7 * i))
      && c["id"] == Str("_" + random(i))
    ensures PyWeekday(d + 7 * i) == PyWeekday(d)
  {
    var dates := WeekDates(d, n);
    assert dates[i] == FormatDay(d + 7 * i);
    DatedCopy(Series(first, dates, random)[i], first, i, dates, FormatDay(d + 7 * i), random);
    WeekdayStep(d, i);
  }

  /** `setTasks(prev => [...prev, ...allTasks])`. */
  function AddCreated(tasks: seq<Obj>, added: Option<seq<Obj>>): (r: seq<Obj>)
    ensures added.None? ==> r == tasks
    ensures added.Some? ==> |r| == |tasks| + |added.value|
    ensures added.Some? ==> r[..|tasks|] == tasks && r[|tasks|..] == added.value
  {
    if added.Some? then tasks + added.value else tasks
  }

  /** Lines 260-264: the edited record takes the form data over its own fields;
      every other record is left as it was. */
  function SaveEdit(tasks: seq<Obj>, id: Val, taskData: Obj): (r: seq<Obj>)
    ensures |r| == |tasks|
    ensures forall i :: 0 <= i < |r| ==>
      r[i] == if Get(tasks[i], "id") == id then Merge(tasks[i], taskData) else tasks[i]
  {
    MapWhere(tasks, (t: Obj) => Get(t, "id") == id, (t: Obj) => Merge(t, taskData))
  }

  /** Saving the same edit twice is saving it once. */
  lemma SaveEditIdempotent(tasks: seq<Obj>, id: Val, taskData: Obj)
    requires "id" !in taskData
    ensures SaveEdit(SaveEdit(tasks, id, taskData), id, taskData) == SaveEdit(tasks, id, taskData)
  {
    var once := SaveEdit(tasks, id, taskData);
    var twice := SaveEdit(once, id, taskData);
    forall i | 0 <= i < |tasks|
      ensures twice[i] == once[i]
    {
      if Get(tasks[i], "id") == id {
        assert Get(once[i], "id") == id;
        assert Merge(Merge(tasks[i], taskData), taskData) == Merge(tasks[i], taskData);
      }
    }
  }

  /** `switch (activity.type)` compares with `===`: only the four strings match. */
  predicate KnownTypeVal(v: Val)
  {
    v.Str? && KnownType(v.s)
  }

  /** A delete request sent to the server. */
  datatype Call = DeleteCall(kind: string, id: Val)

  datatype Deleted = Deleted(tasks: seq<Obj>, call: Option<Call>)

  /** The records without the given id, in order. */
  function WithoutId(tasks: seq<Obj>, id: Val): seq<Obj>
  {
    Filter(tasks, (t: Obj) => Get(t, "id") != id)
  }

  /** `handleDeleteActivity`: a record without an id stays; a browser-local id is
      removed from the list only; a server record of a known type is deleted
      on the server and then from the list; an unknown type changes nothing.
      `serverOk` is whether the server call succeeds: a failure leaves the list. */
  function DeleteActivity(tasks: seq<Obj>, activity: Obj, serverOk: bool): (r: Deleted)
    ensures !Truthy(Get(activity, "id")) ==> r == Deleted(tasks, None)
    ensures Truthy(Get(activity, "id")) && IsLocalId(Get(activity, "id")) ==>
      r == Deleted(WithoutId(tasks, Get(activity, "id")), None)
    ensures r.call.Some? <==> Truthy(Get(activity, "id")) && !IsLocalId(Get(activity, "id")) && KnownTypeVal(Get(activity, "type"))
    ensures r.call.Some? ==> r.call.value == DeleteCall(Get(activity, "type").s, Get(activity, "id"))
    ensures r.call.Some? && serverOk ==> r.tasks == WithoutId(tasks, Get(activity, "id"))
    ensures r.call.Some? && !serverOk ==> r.tasks == tasks
    ensures !KnownTypeVal(Get(activity, "type")) && !IsLocalId(Get(activity, "id")) ==> r.tasks == tasks
    ensures r.tasks == tasks || r.tasks == WithoutId(tasks, Get(activity, "id"))
  {
    var id := Get(activity, "id");
    var t := Get(activity, "type");
    if !Truthy(id) then Deleted(tasks, None)
    else if IsLocalId(id) then Deleted(WithoutId(tasks, id), None)
    else if !t.Str? || !KnownType(t.s) then Deleted(tasks, None)
    else if !serverOk then Deleted(tasks, Some(DeleteCall(t.s, id)))
    else Deleted(WithoutId(tasks, id), Some(DeleteCall(t.s, id)))
  }

  /** After a delete no record with that id is left, and every other record is
      kept in its order. */
  lemma DeleteRemovesOnlyThatId(tasks: seq<Obj>, id: Val)
    ensures forall t :: t in WithoutId(tasks, id) ==> Get(t, "id") != id
    ensures forall t :: t in tasks && Get(t, "id") != id ==> t in WithoutId(tasks, id)
    ensures IsSubseq(WithoutId(tasks, id), tasks)
  {
    var p := (t: Obj) => Get(t, "id") != id;
    forall t | t in tasks && Get(t, "id") != id
      ensures t in WithoutId(tasks, id)
    {
      FilterMembers(tasks, p, t);
    }
    FilterIsSubseq(tasks, p);
  }
}

=== FILE: course_topic_page.dfy ===
/** The course and topic page (`pages/CursoTemaPage.jsx`): the search over
    courses and topics, the topics of the selected course, the selection
    handlers and the gate in front of the difficulty assignment. */
module CourseTopicPage {
  import opened Base
  import opened JsValue

  /** `x.nombre.toLowerCase().includes(busqueda.toLowerCase())`. */
  predicate NameMatches(x: Obj, busqueda: string)
  {
    LowerIncludes(Get(x, "nombre"), busqueda)
  }

  function Matching(busqueda: string): Obj -> bool
  {
    (x: Obj) => NameMatches(x, busqueda)
  }

  /** `cursosFiltrados`: the courses whose name contains the search, in order. */
  function CoursesShown(cursos: seq<Obj>, busqueda: string): (r: seq<Obj>)
    ensures forall c :: c in r <==> c in cursos && NameMatches(c, busqueda)
    ensures IsSubseq(r, cursos)
  {
    var r := Filter(cursos, Matching(busqueda));
    FilterIsSubseq(cursos, Matching(busqueda));
    forall c
      ensures c in r <==> c in cursos && NameMatches(c, busqueda)
    {
      FilterMembers(cursos, Matching(busqueda), c);
    }
    r
  }

  /** An empty search hides nothing. */
  lemma EmptySearchKeepsAll(xs: seq<Obj>)
    ensures Filter(xs, Matching("")) == xs
  {
    forall x | x in xs
      ensures Matching("")(x)
    {
      EmptySearchMatches(Get(x, "nombre"));
    }
    FilterKeepsAll(xs, Matching(""));
  }

  function OfCourse(curso: Obj): Obj -> bool
  {
    (t: Obj) => Get(t, "curso") == Get(curso, "id")
  }

  /** `temasDelCurso`: none without a selected course, otherwise exactly the
      topics whose `curso` is the course's id, in order. */
  function CourseTopics(temas: seq<Obj>, curso: Option<Obj>): (r: seq<Obj>)
    ensures curso.None? ==> r == []
    ensures curso.Some? ==> forall t :: t in r <==> t in temas && Get(t, "curso") == Get(curso.value, "id")
    ensures IsSubseq(r, temas)
  {
    if curso.None? then []
    else
      var r := Filter(temas, OfCourse(curso.value));
      FilterIsSubseq(temas, OfCourse(curso.value));
      forall t
        ensures t in r <==> t in temas && OfCourse(curso.value)(t)
      {
        FilterMembers(temas, OfCourse(curso.value), t);
      }
      r
  }

  /** `temasFiltrados`: the course's topics whose name contains the search,
      an order-preserving part of the course's topics. */
  function TopicsShown(temas: seq<Obj>, curso: Option<Obj>, busqueda: string): (r: seq<Obj>)
    ensures IsSubseq(r, CourseTopics(temas, curso))
    ensures forall t :: t in r <==> t in CourseTopics(temas, curso) && NameMatches(t, busqueda)
  {
    var own := CourseTopics(temas, curso);
    var r := Filter(own, Matching(busqueda));
    FilterIsSubseq(own, Matching(busqueda));
    forall t
      ensures t in r <==> t in own && NameMatches(t, busqueda)
    {
      FilterMembers(own, Matching(busqueda), t);
    }
    r
  }

  /** The page's selection state. */
  datatype Page = Page(
    curso: Option<Obj>, tema: Option<Obj>, busqueda: string,
    dificultad: Val, metodo: Val, mostrarFormulario: bool)

  const Initial := Page(None, None, "", Str("media"), Str("Pomodoro"), false)

  /** `handleSeleccionarCurso`: the course is selected and the topic, the
      form and the search are cleared. */
  function SelectCourse(p: Page, curso: Obj): (r: Page)
    ensures r.curso == Some(curso) && r.tema.None? && !r.mostrarFormulario && r.busqueda == ""
    ensures r.dificultad == p.dificultad && r.metodo == p.metodo
  {
    p.(curso := Some(curso), tema := None, mostrarFormulario := false, busqueda := "")
  }

  /** Once a course is selected every one of its topics is listed. */
  lemma SelectedCourseShowsAllTopics(p: Page, curso: Obj, temas: seq<Obj>)
    ensures var r := SelectCourse(p, curso);
      TopicsShown(temas, r.curso, r.busqueda) == CourseTopics(temas, r.curso)
  {
    EmptySearchKeepsAll(CourseTopics(temas, Some(curso)));
  }

  function ForTopic(tema: Obj): Obj -> bool
  {
    (td: Obj) => Get(td, "tema") == Get(tema, "id")
  }

  /** Entry i is the first assignment of the topic. */
  predicate FirstFor(temasDificultad: seq<Obj>, tema: Obj, i: int)
  {
    0 <= i < |temasDificultad| && ForTopic(tema)(temasDificultad[i])
    && forall j :: 0 <= j < i ==> !ForTopic(tema)(temasDificultad[j])
  }

  /** `handleSeleccionarTema`: the topic is selected and the form shown; the
      difficulty and method are those of the topic's first existing
      assignment, or 'media' and 'Pomodoro' when it has none. */
  function SelectTopic(p: Page, tema: Obj, temasDificultad: seq<Obj>): (r: Page)
    ensures r.tema == Some(tema) && r.mostrarFormulario
    ensures r.curso == p.curso && r.busqueda == p.busqueda
    ensures (forall td :: td in temasDificultad ==> Get(td, "tema") != Get(tema, "id")) ==>
      r.dificultad == Str("media") && r.metodo == Str("Pomodoro")
    ensures forall i :: FirstFor(temasDificultad, tema, i) ==>
      r.dificultad == Get(temasDificultad[i], "dificultad") && r.metodo == Get(temasDificultad[i], "metodo_estudio")
  {
    var found := Find(temasDificultad, ForTopic(tema));
    match found
    case Some(td) => p.(tema := Some(tema), mostrarFormulario := true,
      dificultad := Get(td, "dificultad"), metodo := Get(td, "metodo_estudio"))
    case None => p.(tema := Some(tema), mostrarFormulario := true,
      dificultad := Str("media"), metodo := Str("Pomodoro"))
  }

  /** `handleCambiarTema`: the topic is dropped and the form hidden; the
      course, the search and the chosen difficulty and method stay. */
  function ChangeTopic(p: Page): (r: Page)
    ensures r.tema.None? && !r.mostrarFormulario
    ensures r.curso == p.curso && r.busqueda == p.busqueda && r.dificultad == p.dificultad && r.metodo == p.metodo
  {
    p.(tema := None, mostrarFormulario := false)
  }

  /** The "Cambiar Curso" button: the course, the topic and the form are
      cleared; the search and the chosen difficulty and method stay. */
  function ClearCourse(p: Page): (r: Page)
    ensures r.curso.None? && r.tema.None? && !r.mostrarFormulario
    ensures r.busqueda == p.busqueda && r.dificultad == p.dificultad && r.metodo == p.metodo
  {
    p.(curso := None, tema := None, mostrarFormulario := false)
  }

  /** What `handleAsignarDificultad` sends: the topic's id, the difficulty
      and the method; nothing (only an alert) without a selected topic. */
  function AssignRequest(p: Page): (r: Option<(Val, Val, Val)>)
    ensures r.None? <==> p.tema.None?
    ensures r.Some? ==> r.value == (Get(p.tema.value, "id"), p.dificultad, p.metodo)
  {
    match p.tema
    case None => None
    case Some(t) => Some((Get(t, "id"), p.dificultad, p.metodo))
  }

  /** Picking a course after a topic drops the topic, so nothing is assigned
      until a topic of the new course is picked. */
  lemma CourseChangeBlocksAssignment(p: Page, curso: Obj)
    ensures AssignRequest(SelectCourse(p, curso)).None?
  {
  }

  /** Without a course no topic is listed, whatever the search, and nothing
      can be assigned. */
  lemma ClearedCourseShowsNothing(p: Page, temas: seq<Obj>)
    ensures var r := ClearCourse(p);
      && CourseTopics(temas, r.curso) == []
      && TopicsShown(temas, r.curso, r.busqueda) == []
      && AssignRequest(r).None?
  {
    var r := ClearCourse(p);
    assert IsSubseq(TopicsShown(temas, r.curso, r.busqueda), []);
  }

  /** After changing topic nothing can be assigned until a topic is picked
      again, and picking one shows the form once more. */
  lemma ChangeThenPick(p: Page, tema: Obj, temasDificultad: seq<Obj>)
    ensures AssignRequest(ChangeTopic(p)).None?
    ensures AssignRequest(SelectTopic(ChangeTopic(p), tema, temasDificultad)).Some?
    ensures SelectTopic(ChangeTopic(p), tema, temasDificultad).curso == p.curso
  {
  }
}

=== FILE: dashboard_page.dfy ===
/** The dashboard (`pages/DashboardPage.jsx`): tasks due today and in the
    coming week, today's activities in start order, the seven weekly
    indicators, and the CSS class per activity type. The clock is a
    parameter: `now` in milliseconds since 1970-01-01 UTC, and the local zone
    `zone` in minutes east of UTC (daylight saving is not modelled). */
module DashboardPage {
  import opened Base
  import opened JsValue
  import opened StableSort
  import opened Dates
  import opened JsDate

  /** `today.toISOString().split('T')[0]`. */
  function TodayStr(now: int): string
  {
    FormatDay(UtcDay(now))
  }

  function DueOn(day: string): Obj -> bool
  {
    (t: Obj) => Get(t, "fechaEntrega") == Str(day)
  }

  /** The tasks due on the given day string, in order. */
  function DueOnDay(tasks: seq<Obj>, day: string): (r: seq<Obj>)
    ensures forall t :: t in r <==> t in tasks && Get(t, "fechaEntrega") == Str(day)
    ensures IsSubseq(r, tasks)
  {
    var r := Filter(tasks, DueOn(day));
    FilterIsSubseq(tasks, DueOn(day));
    forall t
      ensures t in r <==> t in tasks && DueOn(day)(t)
    {
      FilterMembers(tasks, DueOn(day), t);
    }
    r
  }

  /** `todayTasks`: the tasks whose due date is today's string, in order. */
  function TodayTasks(tasks: seq<Obj>, now: int): (r: seq<Obj>)
    ensures forall t :: t in r <==> t in tasks && Get(t, "fechaEntrega") == Str(TodayStr(now))
    ensures IsSubseq(r, tasks)
  {
    DueOnDay(tasks, TodayStr(now))
  }

  /** `entrega > today && entrega <= next7Days`: an invalid date compares false. */
  predicate Upcoming(t: Obj, now: int)
  {
    var e := DateMs(Get(t, "fechaEntrega"));
    e.Some? && now < e.value <= now + 7 * DayMs
  }

  function IsUpcoming(now: int): Obj -> bool
  {
    (t: Obj) => Upcoming(t, now)
  }

  /** `upcomingTasks`, in order. */
  function UpcomingTasks(tasks: seq<Obj>, now: int): (r: seq<Obj>)
    ensures forall t :: t in r <==> t in tasks && Upcoming(t, now)
    ensures IsSubseq(r, tasks)
  {
    var r := Filter(tasks, IsUpcoming(now));
    FilterIsSubseq(tasks, IsUpcoming(now));
    forall t
      ensures t in r <==> t in tasks && IsUpcoming(now)(t)
    {
      FilterMembers(tasks, IsUpcoming(now), t);
    }
    r
  }

  /** A task due on a calendar date is upcoming exactly when that date is one
      of the seven UTC days after today: never today itself, whose midnight
      has passed. */
  lemma UpcomingIsNextSevenDays(t: Obj, now: int, d: int)
    requires Get(t, "fechaEntrega").Str? && ParseIso(Get(t, "fechaEntrega").s) == Some(d)
    ensures Upcoming(t, now) <==> UtcDay(now) < d <= UtcDay(now) + 7
  {
    var u := UtcDay(now);
    DivUnique(now, DayMs, u, now % DayMs);
    if u < d {
      MulLe(DayMs, u + 1, d);
    } else {
      MulLe(DayMs, d, u);
    }
    if d <= u + 7 {
      MulLe(DayMs, d, u + 7);
    } else {
      MulLe(DayMs, u + 8, d);
    }
  }

  /** A task due today is never also listed as upcoming. */
  lemma TodayIsNotUpcoming(t: Obj, now: int)
    requires Get(t, "fechaEntrega") == Str(TodayStr(now))
    requires 0 <= CivilOfDay(UtcDay(now)).year <= 9999
    ensures !Upcoming(t, now)
  {
    ParseFormat(UtcDay(now));
    UpcomingIsNextSevenDays(t, now, UtcDay(now));
  }

  /** The title of a today-activity: the first truthy of titulo, temas,
      curso and description, else ''. */
  function Title(act: Obj): (r: Val)
    ensures Truthy(Get(act, "titulo")) ==> r == Get(act, "titulo")
    ensures !Truthy(Get(act, "titulo")) && Truthy(Get(act, "temas")) ==> r == Get(act, "temas")
    ensures !Truthy(Get(act, "titulo")) && !Truthy(Get(act, "temas")) && Truthy(Get(act, "curso")) ==> r == Get(act, "curso")
    ensures !Truthy(Get(act, "titulo")) && !Truthy(Get(act, "temas")) && !Truthy(Get(act, "curso"))
      ==> r == Or(Get(act, "description"), Str(""))
  {
    Or(Or(Or(Or(Get(act, "titulo"), Get(act, "temas")), Get(act, "curso")), Get(act, "description")), Str(""))
  }

  /** One entry of `allToday`. */
  function Normalize(act: Obj, todayStr: string): (r: Obj)
    ensures r.Keys == {"id", "tipo", "title", "startTime", "endTime", "fecha"}
    ensures r["id"] == Get(act, "id") && r["tipo"] == Get(act, "tipo") && r["title"] == Title(act)
    ensures r["startTime"] == Or(Get(act, "horaInicio"), Str("00:00")) && Truthy(r["startTime"])
    ensures r["endTime"] == Or(Get(act, "horaFin"), Str("")) && r["fecha"] == Str(todayStr)
  {
    map["id" := Get(act, "id"), "tipo" := Get(act, "tipo"), "title" := Title(act),
      "startTime" := Or(Get(act, "horaInicio"), Str("00:00")),
      "endTime" := Or(Get(act, "horaFin"), Str("")), "fecha" := Str(todayStr)]
  }

  /** `(a.startTime || '')`, compared as a string. */
  function StartKey(a: Obj): string
  {
    ToJsString(Or(Get(a, "startTime"), Str("")))
  }

  function NormalizeFor(todayStr: string): Obj -> Obj
  {
    (act: Obj) => Normalize(act, todayStr)
  }

  /** `todayActivities`: the normalised activities sorted by start time (a
      stable sort; the activities are otherwise the same). */
  function TodayActivities(acts: seq<Obj>, now: int): (r: seq<Obj>)
    ensures |r| == |acts|
    ensures SortedBy(r, StartKey)
    ensures multiset(r) == multiset(Map(acts, NormalizeFor(TodayStr(now))))
  {
    SortByKey(Map(acts, NormalizeFor(TodayStr(now))), StartKey)
  }

  /** An activity without a start time is shown at '00:00', so it sorts
      among the earliest. */
  lemma MissingStartIsMidnight(act: Obj, todayStr: string)
    requires !Truthy(Get(act, "horaInicio"))
    ensures StartKey(Normalize(act, todayStr)) == "00:00"
  {
  }

  /** One weekly indicator (the localised day label is not modelled). */
  datatype Indicator = Indicator(date: string, hasTask: bool, hasActivity: bool)

  /** The local day number of an instant. */
  function LocalDay(now: int, zone: int): int
  {
    (now + zone * 60000) / DayMs
  }

  /** `d.setDate(today.getDate() - today.getDay() + i + 1)`: the same time of
      day, moved to the i-th day after the last local Sunday, written as
      its UTC date. */
  function IndicatorDay(now: int, zone: int, i: int): int
  {
    UtcDay(now + (i + 1 - JsDay(LocalDay(now, zone))) * DayMs)
  }

  /** `tasks.some(...)` / `actividades.some(...)`. */
  predicate AnyOn(xs: seq<Obj>, field: string, day: string)
  {
    exists x :: x in xs && Get(x, field) == Str(day)
  }

  function IndicatorAt(tasks: seq<Obj>, acts: seq<Obj>, now: int, zone: int, i: int): Indicator
  {
    var day := FormatDay(IndicatorDay(now, zone, i));
    Indicator(day, AnyOn(tasks, "fechaEntrega", day), AnyOn(acts, "fecha", day))
  }

  /** `weeklyIndicators`: seven entries, the i-th on the i-th day of the
      local week (Monday first) that follows the last Sunday, flagged when a
      task is due or an activity falls on its date string. */
  function WeeklyIndicators(tasks: seq<Obj>, acts: seq<Obj>, now: int, zone: int): (r: seq<Indicator>)
    ensures |r| == 7
    ensures forall i :: 0 <= i < 7 ==> r[i].date == FormatDay(IndicatorDay(now, zone, i))
    ensures forall i :: 0 <= i < 7 ==> r[i].hasTask == AnyOn(tasks, "fechaEntrega", r[i].date)
    ensures forall i :: 0 <= i < 7 ==> r[i].hasActivity == AnyOn(acts, "fecha", r[i].date)
  {
    var r := seq(7, i requires 0 <= i < 7 => IndicatorAt(tasks, acts, now, zone, i));
    forall i | 0 <= i < 7
      ensures r[i].date == FormatDay(IndicatorDay(now, zone, i))
      ensures r[i].hasTask == AnyOn(tasks, "fechaEntrega", r[i].date)
      ensures r[i].hasActivity == AnyOn(acts, "fecha", r[i].date)
    {
      assert r[i] == IndicatorAt(tasks, acts, now, zone, i);
    }
    r
  }

  /** The indicators cover seven consecutive UTC days; the local day behind
      entry i has weekday i counted from Monday, so on a Sunday they show the
      coming Monday to Sunday rather than the week ending today. */
  lemma IndicatorsAreTheWeek(now: int, zone: int, i: int)
    requires 0 <= i < 7
    ensures IndicatorDay(now, zone, i) == UtcDay(now) + i + 1 - JsDay(LocalDay(now, zone))
    ensures PyWeekday(LocalDay(now, zone) + i + 1 - JsDay(LocalDay(now, zone))) == i
    ensures JsDay(LocalDay(now, zone)) == 0 ==> IndicatorDay(now, zone, 0) == UtcDay(now) + 1
  {
    var k := i + 1 - JsDay(LocalDay(now, zone));
    var u := UtcDay(now);
    DivUnique(now, DayMs, u, now % DayMs);
    DivUnique(now + k * DayMs, DayMs, u + k, now % DayMs);
  }

  /** `normalizeTypeClass`. */
  function TypeClass(tipo: Val): (r: string)
    ensures tipo == Str("Tarea") ==> r == "tarea"
    ensures tipo == Str("Estudio") ==> r == "estudio"
    ensures tipo == Str("Clase") ==> r == "clase"
    ensures tipo == Str("ActividadNoAcademica") ==> r == "act_no_academica"
    ensures r == "" <==> tipo !in {Str("Tarea"), Str("Estudio"), Str("Clase"), Str("ActividadNoAcademica")}
  {
    if tipo == Str("Tarea") then "tarea"
    else if tipo == Str("Estudio") then "estudio"
    else if tipo == Str("Clase") then "clase"
    else if tipo == Str("ActividadNoAcademica") then "act_no_academica"
    else ""
  }
}

=== FILE: dates.dfy ===
/** Calendar dates of the proleptic Gregorian calendar as day numbers counted
    from 1970-01-01, the way both Python's `date` and JavaScript's `Date` place
    them; weekdays in each language's numbering; and the `YYYY-MM-DD` strings
    the two sides exchange. */
module Dates {
  import opened Base
  import opened Strings

  datatype Civil = Civil(year: int, month: int, day: int)

  predicate IsLeap(y: int)
  {
    y % 4 == 0 && (y % 100 != 0 || y % 400 == 0)
  }

  function DaysInMonth(y: int, m: int): (n: int)
    requires 1 <= m <= 12
    ensures 28 <= n <= 31
    ensures m == 2 ==> (n == 29 <==> IsLeap(y))
  {
    if m == 2 then (if IsLeap(y) then 29 else 28)
    else if m == 4 || m == 6 || m == 9 || m == 11 then 30
    else 31
  }

  predicate ValidCivil(c: Civil)
  {
    1 <= c.month <= 12 && 1 <= c.day <= DaysInMonth(c.year, c.month)
  }

  /** Days of the year before the first of month m (m == 13 gives the year's length). */
  function DaysBeforeMonth(y: int, m: int): int
    requires 1 <= m <= 13
    decreases m
  {
    if m == 1 then 0 else DaysBeforeMonth(y, m - 1) + DaysInMonth(y, m - 1)
  }

  /** Leap years in every year before y, up to a constant. */
  function Leaps(y: int): int
  {
    (y - 1) / 4 - (y - 1) / 100 + (y - 1) / 400
  }

  /** Day number of January 1st of year y. */
  function DaysBeforeYear(y: int): int
  {
    365 * (y - 1970) + Leaps(y) - Leaps(1970)
  }

  /** Day number of a date: 0 is 1970-01-01. */
  function DayNumber(c: Civil): int
    requires 1 <= c.month <= 12
  {
    DaysBeforeYear(c.year) + DaysBeforeMonth(c.year, c.month) + c.day - 1
  }

  lemma YearLength(y: int)
    ensures DaysBeforeYear(y + 1) == DaysBeforeYear(y) + (if IsLeap(y) then 366 else 365)
  {
    DivStep(y, 4);
    DivStep(y, 100);
    DivStep(y, 400);
    MultipleOfMultiple(y, 100, 25);
    MultipleOfMultiple(y, 400, 4);
  }

  /** Going from y - 1 to y, the quotient by k grows exactly when k divides y. */
  lemma DivStep(y: int, k: int)
    requires k > 0
    ensures y / k - (y - 1) / k == if y % k == 0 then 1 else 0
  {
    var q, r := (y - 1) / k, (y - 1) % k;
    DivUnique(y - 1, k, q, r);
    if r == k - 1 {
      DivUnique(y, k, q + 1, 0);
    } else {
      DivUnique(y, k, q, r + 1);
    }
  }

  /** A multiple of a * b is a multiple of b. */
  lemma MultipleOfMultiple(y: int, m: int, a: int)
    requires a > 0 && m % a == 0 && m > 0
    ensures y % m == 0 ==> y % (m / a) == 0
  {
    if y % m == 0 {
      var b := m / a;
      DivUnique(m, a, b, 0);
      DivUnique(y, m, y / m, 0);
      assert y == b * (a * (y / m));
      DivUnique(y, b, a * (y / m), 0);
    }
  }

  lemma MonthsCoverYear(y: int)
    ensures DaysBeforeMonth(y, 13) == if IsLeap(y) then 366 else 365
  {
  }

  /** The following day. */
  function NextDay(c: Civil): (r: Civil)
    requires ValidCivil(c)
    ensures ValidCivil(r)
    ensures DayNumber(r) == DayNumber(c) + 1
  {
    if c.day < DaysInMonth(c.year, c.month) then Civil(c.year, c.month, c.day + 1)
    else if c.month < 12 then
      assert DaysBeforeMonth(c.year, c.month + 1) == DaysBeforeMonth(c.year, c.month) + DaysInMonth(c.year, c.month);
      Civil(c.year, c.month + 1, 1)
    else
      YearLength(c.year);
      MonthsCoverYear(c.year);
      Civil(c.year + 1, 1, 1)
  }

  /** The preceding day. */
  function PrevDay(c: Civil): (r: Civil)
    requires ValidCivil(c)
    ensures ValidCivil(r)
    ensures DayNumber(r) == DayNumber(c) - 1
  {
    if c.day > 1 then Civil(c.year, c.month, c.day - 1)
    else if c.month > 1 then Civil(c.year, c.month - 1, DaysInMonth(c.year, c.month - 1))
    else
      YearLength(c.year - 1);
      MonthsCoverYear(c.year - 1);
      Civil(c.year - 1, 12, 31)
  }

  /** Every day number is the number of some date: count forwards or
      backwards from 1970-01-01 one day at a time. */
  lemma {:induction false} CivilExists(d: int)
    ensures exists c :: ValidCivil(c) && DayNumber(c) == d
    decreases if d >= 0 then d else -d
  {
    if d == 0 {
      assert ValidCivil(Civil(1970, 1, 1)) && DayNumber(Civil(1970, 1, 1)) == 0;
    } else if d > 0 {
      CivilExists(d - 1);
      var c :| ValidCivil(c) && DayNumber(c) == d - 1;
      assert ValidCivil(NextDay(c)) && DayNumber(NextDay(c)) == d;
    } else {
      CivilExists(d + 1);
      var c :| ValidCivil(c) && DayNumber(c) == d + 1;
      assert ValidCivil(PrevDay(c)) && DayNumber(PrevDay(c)) == d;
    }
  }

  /** No two valid dates share a day number. */
  lemma DayNumbersUnique()
    ensures forall a, b :: ValidCivil(a) && ValidCivil(b) && DayNumber(a) == DayNumber(b) ==> a == b
  {
    forall a, b | ValidCivil(a) && ValidCivil(b) && DayNumber(a) == DayNumber(b)
      ensures a == b
    {
      DayNumberInjective(a, b);
    }
  }

  /** The date with day number d. */
  function CivilOfDay(d: int): (r: Civil)
    ensures ValidCivil(r)
    ensures DayNumber(r) == d
  {
    CivilExists(d);
    DayNumbersUnique();
    var c :| ValidCivil(c) && DayNumber(c) == d;
    c
  }

  /** Distinct valid dates have distinct day numbers. */
  lemma DayNumberInjective(a: Civil, b: Civil)
    requires ValidCivil(a) && ValidCivil(b)
    requires DayNumber(a) == DayNumber(b)
    ensures a == b
  {
    if a.year < b.year {
      YearOrder(a, b);
    } else if b.year < a.year {
      YearOrder(b, a);
    } else if a.month < b.month {
      MonthOrder(a, b);
    } else if b.month < a.month {
      MonthOrder(b, a);
    }
  }

  /** A date of an earlier year comes first. */
  lemma YearOrder(lo: Civil, hi: Civil)
    requires ValidCivil(lo) && ValidCivil(hi) && lo.year < hi.year
    ensures DayNumber(lo) < DayNumber(hi)
  {
    YearBounds(lo);
    YearBounds(hi);
    YearsIncrease(lo.year + 1, hi.year);
  }

  /** A date of an earlier month of the same year comes first. */
  lemma MonthOrder(lo: Civil, hi: Civil)
    requires ValidCivil(lo) && ValidCivil(hi) && lo.year == hi.year && lo.month < hi.month
    ensures DayNumber(lo) < DayNumber(hi)
  {
    MonthsIncrease(lo.year, lo.month + 1, hi.month);
  }

  /** A valid date lies inside its year. */
  lemma YearBounds(c: Civil)
    requires ValidCivil(c)
    ensures DaysBeforeYear(c.year) <= DayNumber(c) < DaysBeforeYear(c.year + 1)
  {
    YearLength(c.year);
    MonthsCoverYear(c.year);
    MonthsIncrease(c.year, c.month + 1, 13);
  }

  lemma {:induction false} MonthsIncrease(y: int, m1: int, m2: int)
    requires 1 <= m1 <= m2 <= 13
    ensures DaysBeforeMonth(y, m1) <= DaysBeforeMonth(y, m2)
    decreases m2 - m1
  {
    if m1 < m2 {
      MonthsIncrease(y, m1, m2 - 1);
    }
  }

  lemma {:induction false} YearsIncrease(y1: int, y2: int)
    requires y1 <= y2
    ensures DaysBeforeYear(y1) <= DaysBeforeYear(y2)
    decreases y2 - y1
  {
    if y1 < y2 {
      YearsIncrease(y1, y2 - 1);
      YearLength(y2 - 1);
    }
  }

  /** The day numbers and the valid dates are in one-to-one correspondence. */
  lemma CivilOfDayNumber(c: Civil)
    requires ValidCivil(c)
    ensures CivilOfDay(DayNumber(c)) == c
  {
    DayNumberInjective(CivilOfDay(DayNumber(c)), c);
  }

  /** Two consecutive days of years 0 to 9999 have different ISO strings. */
  lemma AdjacentDaysDiffer(d: int)
    requires 0 <= CivilOfDay(d - 1).year
    requires CivilOfDay(d).year <= 9999
    ensures FormatDay(d - 1) != FormatDay(d)
  {
    YearOfDayMonotone(d - 1, d);
    ParseFormat(d);
    ParseFormat(d - 1);
  }

  /** Later days never fall in earlier years. */
  lemma YearOfDayMonotone(a: int, b: int)
    requires a <= b
    ensures CivilOfDay(a).year <= CivilOfDay(b).year
  {
    if CivilOfDay(a).year > CivilOfDay(b).year {
      YearOrder(CivilOfDay(b), CivilOfDay(a));
    }
  }

  /** Python's `date.weekday()`: Monday is 0, Sunday 6 (1970-01-01 was a Thursday). */
  function PyWeekday(d: int): (w: int)
    ensures 0 <= w < 7
  {
    (d + 3) % 7
  }

  /** Weekdays repeat every seven days; consecutive days have consecutive weekdays. */
  lemma WeekdayStep(d: int, k: int)
    ensures PyWeekday(d + 7 * k) == PyWeekday(d)
    ensures PyWeekday(d + 1) == (PyWeekday(d) + 1) % 7
  {
  }

  /** JavaScript's `Date.prototype.getDay()`: Sunday is 0, Saturday 6. */
  function JsDay(d: int): (w: int)
    ensures 0 <= w < 7
    ensures w == (PyWeekday(d) + 1) % 7
  {
    (d + 4) % 7
  }

  /** The year as `toISOString` writes it: four digits, or a sign and six digits. */
  function FormatYear(y: int): (r: string)
    ensures 0 <= y <= 9999 ==> |r| == 4 && AllDigits(r) && DigitsValue(r) == y
    ensures |r| >= 4
  {
    var digits := NatToDecimal(if y < 0 then -y else y);
    if 0 <= y <= 9999 then
      Pad4RoundTrip(y);
      PadStart(digits, 4, '0')
    else (if y < 0 then "-" else "+") + PadStart(digits, 6, '0')
  }

  /** `YYYY-MM-DD`. */
  function FormatIso(c: Civil): (s: string)
    requires ValidCivil(c)
    ensures 0 <= c.year <= 9999 ==> |s| == 10 && s[4] == '-' && s[7] == '-'
    ensures |s| >= 10
  {
    var y := FormatYear(c.year);
    assert c.month < 100 && c.day < 100;
    var m := Pad2(c.month);
    var d := Pad2(c.day);
    assert |m| == 2 && |d| == 2;
    if 0 <= c.year <= 9999 then
      DateFields(y, m, d);
      y + "-" + m + "-" + d
    else
      y + "-" + m + "-" + d
  }

  /** `date.toISOString().split('T')[0]` for the day with number d. */
  function FormatDay(d: int): (s: string)
    ensures |s| >= 10
  {
    FormatIso(CivilOfDay(d))
  }

  /** A strict `YYYY-MM-DD` reading into a day number; None for anything else. */
  function ParseIso(s: string): (r: Option<int>)
    ensures r.Some? ==> |s| == 10 && AllDigits(s[..4])
  {
    if |s| == 10 && s[4] == '-' && s[7] == '-'
       && AllDigits(s[..4]) && AllDigits(s[5..7]) && AllDigits(s[8..])
    then
      var y := DigitsValue(s[..4]);
      var m := DigitsValue(s[5..7]);
      var d := DigitsValue(s[8..]);
      if 1 <= m <= 12 && 1 <= d <= DaysInMonth(y, m) then Some(DayNumber(Civil(y, m, d))) else None
    else None
  }

  function Pow10(k: nat): (p: nat)
    ensures p >= 1
  {
    if k == 0 then 1 else 10 * Pow10(k - 1)
  }

  /** A number below 10^k is written with at most k digits. */
  lemma {:induction false} DecimalLength(n: nat, k: nat)
    requires k >= 1 && n < Pow10(k)
    ensures |NatToDecimal(n)| <= k
    decreases k
  {
    if n >= 10 {
      DecimalLength(n / 10, k - 1);
    }
  }

  /** A string of k digits has a value below 10^k. */
  lemma {:induction false} DigitsBelow(s: string)
    requires AllDigits(s)
    ensures DigitsValue(s) < Pow10(|s|)
    decreases |s|
  {
    if |s| > 0 {
      DigitsBelow(s[..|s| - 1]);
    }
  }

  /** Two digit strings of one width with one value are the same string. */
  lemma {:induction false} DigitsInjective(s: string, t: string)
    requires AllDigits(s) && AllDigits(t) && |s| == |t|
    requires DigitsValue(s) == DigitsValue(t)
    ensures s == t
    decreases |s|
  {
    if |s| > 0 {
      var n := |s|;
      DigitsInjective(s[..n - 1], t[..n - 1]);
      assert s == s[..n - 1] + [s[n - 1]];
      assert t == t[..n - 1] + [t[n - 1]];
    }
  }

  lemma Pad4RoundTrip(n: nat)
    requires n <= 9999
    ensures |PadStart(NatToDecimal(n), 4, '0')| == 4
    ensures AllDigits(PadStart(NatToDecimal(n), 4, '0'))
    ensures DigitsValue(PadStart(NatToDecimal(n), 4, '0')) == n
  {
    var d := NatToDecimal(n);
    DecimalRoundTrip(n);
    DecimalLength(n, 4);
    if |d| < 4 {
      LeadingZeros(4 - |d|, d);
    } else {
      assert PadStart(d, 4, '0') == d;
    }
  }

  /** Reading back a written date gives its day number. */
  lemma ParseFormat(d: int)
    requires 0 <= CivilOfDay(d).year <= 9999
    ensures ParseIso(FormatDay(d)) == Some(d)
  {
    ParseFormatCivil(CivilOfDay(d));
  }

  lemma ParseFormatCivil(c: Civil)
    requires ValidCivil(c) && 0 <= c.year <= 9999
    ensures ParseIso(FormatIso(c)) == Some(DayNumber(c))
  {
    var y := FormatYear(c.year);
    var m := Pad2(c.month);
    var dd := Pad2(c.day);
    var s := y + "-" + m + "-" + dd;
    assert s == FormatIso(c);
    Pad2RoundTrip(c.month);
    Pad2RoundTrip(c.day);
    assert |y| == 4 && |m| == 2 && |dd| == 2;
    DateFields(y, m, dd);
    assert |s| == 10 && s[4] == '-' && s[7] == '-';
    assert AllDigits(s[..4]) && AllDigits(s[5..7]) && AllDigits(s[8..]);
    assert DigitsValue(s[..4]) == c.year;
    assert DigitsValue(s[5..7]) == c.month;
    assert DigitsValue(s[8..]) == c.day;
  }

  lemma DateFields(y: string, m: string, d: string)
    requires |y| == 4 && |m| == 2 && |d| == 2
    ensures var s := y + "-" + m + "-" + d;
      |s| == 10 && s[4] == '-' && s[7] == '-' && s[..4] == y && s[5..7] == m && s[8..] == d
  {
  }

  /** Different strings never read as the same date. */
  lemma ParseIsoInjective(s: string, t: string)
    requires ParseIso(s).Some?
    ensures ParseIso(t) == ParseIso(s) ==> t == s
  {
    if ParseIso(t) == ParseIso(s) {
      var cs := Civil(DigitsValue(s[..4]), DigitsValue(s[5..7]), DigitsValue(s[8..]));
      var ct := Civil(DigitsValue(t[..4]), DigitsValue(t[5..7]), DigitsValue(t[8..]));
      DayNumberInjective(cs, ct);
      DigitsInjective(s[..4], t[..4]);
      DigitsInjective(s[5..7], t[5..7]);
      DigitsInjective(s[8..], t[8..]);
      assert s == s[..4] + "-" + s[5..7] + "-" + s[8..];
      assert t == t[..4] + "-" + t[5..7] + "-" + t[8..];
    }
  }

  /** Writing back a read date gives the string it was read from. */
  lemma FormatParse(s: string)
    requires ParseIso(s).Some?
    ensures FormatDay(ParseIso(s).value) == s
  {
    var v := ParseIso(s).value;
    var c := Civil(DigitsValue(s[..4]), DigitsValue(s[5..7]), DigitsValue(s[8..]));
    CivilOfDayNumber(c);
    DigitsBelow(s[..4]);
    ParseFormat(v);
    ParseIsoInjective(s, FormatDay(v));
  }
}

=== FILE: estado_serializer.dfy ===
/** `EstadoTareaSerializer.validate_estado`: the lifecycle moves one step at a time. */
module EstadoSerializer {
  import opened Base
  import opened BackendModel

  /** Accepts the requested state (returning it unchanged) iff it is the direct
      successor of the current one; None stands for the ValidationError. */
  function ValidateEstado(actual: Estado, nuevo: Estado): (r: Option<Estado>)
    ensures r.Some? <==> Index(nuevo) == Index(actual) + 1
    ensures r.Some? ==> r.value == nuevo
  {
    if Index(nuevo) != Index(actual) + 1 then None else Some(nuevo)
  }

  /** Staying put, moving back and skipping ahead are all refused. */
  lemma OnlyTheNextStep(actual: Estado, nuevo: Estado)
    ensures (nuevo == actual || Index(nuevo) < Index(actual) || Index(nuevo) > Index(actual) + 1)
      ==> ValidateEstado(actual, nuevo).None?
  {
  }

  /** From every state but the last exactly one value is accepted; from
      'entregado' none is, since no fifth state exists. */
  lemma {:induction false} SuccessorIsUnique(actual: Estado)
    ensures actual == Entregado ==> forall e :: ValidateEstado(actual, e).None?
    ensures actual != Entregado ==>
      exists e :: ValidateEstado(actual, e).Some? && forall f :: ValidateEstado(actual, f).Some? ==> f == e
  {
    if actual != Entregado {
      var e := Orden[Index(actual) + 1];
      assert ValidateEstado(actual, e).Some?;
    }
  }
}

=== FILE: header.dfy ===
/** The notification bell of the page header (`components/Header.jsx`): the
    unread counter and the two ways of marking notifications read. */
module Header {
  import opened Base
  import opened JsValue

  /** `!n.isRead`. */
  predicate IsUnread(n: Obj)
  {
    !Truthy(Get(n, "isRead"))
  }

  function Unread(): Obj -> bool
  {
    (n: Obj) => IsUnread(n)
  }

  /** `notifications.filter(n => !n.isRead).length`. */
  function UnreadCount(ns: seq<Obj>): (c: nat)
    ensures c <= |ns|
    ensures c == Count(ns, Unread())
  {
    FilterCount(ns, Unread());
    |Filter(ns, Unread())|
  }

  /** `{ ...n, isRead: true }`. */
  function MarkRead(n: Obj): (r: Obj)
    ensures !IsUnread(r)
    ensures r.Keys == n.Keys + {"isRead"}
    ensures forall k :: k in n && k != "isRead" ==> r[k] == n[k]
  {
    n["isRead" := Bool(true)]
  }

  function HasId(id: Val): Obj -> bool
  {
    (n: Obj) => Get(n, "id") == id
  }

  /** `handleMarkAsRead`: the notifications with that id are marked read;
      the others, the length and the order are unchanged. */
  function MarkAsRead(ns: seq<Obj>, id: Val): (r: seq<Obj>)
    ensures |r| == |ns|
    ensures forall i :: 0 <= i < |ns| ==> r[i] == if Get(ns[i], "id") == id then MarkRead(ns[i]) else ns[i]
  {
    MapWhere(ns, HasId(id), MarkRead)
  }

  /** `handleClearAll`: every notification is marked read. */
  function ClearAll(ns: seq<Obj>): (r: seq<Obj>)
    ensures |r| == |ns|
    ensures forall i :: 0 <= i < |ns| ==> r[i] == MarkRead(ns[i])
  {
    Map(ns, MarkRead)
  }

  /** After clearing, nothing is unread. */
  lemma {:induction false} ClearAllLeavesNoneUnread(ns: seq<Obj>)
    ensures UnreadCount(ClearAll(ns)) == 0
  {
    var r := ClearAll(ns);
    forall n | n in r
      ensures !Unread()(n)
    {
      var i :| 0 <= i < |r| && r[i] == n;
    }
    FilterNone(r, Unread());
  }

  function UnreadWithId(id: Val): Obj -> bool
  {
    (n: Obj) => IsUnread(n) && Get(n, "id") == id
  }

  /** Marking one notification read lowers the counter by exactly the number
      of unread notifications carrying that id, and never raises it. */
  lemma {:induction false} MarkAsReadCount(ns: seq<Obj>, id: Val)
    ensures |Filter(MarkAsRead(ns, id), Unread())| == |Filter(ns, Unread())| - Count(ns, UnreadWithId(id))
    ensures UnreadCount(MarkAsRead(ns, id)) <= UnreadCount(ns)
    decreases |ns|
  {
    if |ns| > 0 {
      var r := MarkAsRead(ns, id);
      var tail := ns[1..];
      MarkAsReadCount(tail, id);
      assert r == [r[0]] + MarkAsRead(tail, id);
      assert ns == [ns[0]] + tail;
      FilterCons(r[0], MarkAsRead(tail, id), Unread());
      FilterCons(ns[0], tail, Unread());
    }
  }

  /** Both operations are idempotent. */
  lemma Idempotent(ns: seq<Obj>, id: Val)
    ensures MarkAsRead(MarkAsRead(ns, id), id) == MarkAsRead(ns, id)
    ensures ClearAll(ClearAll(ns)) == ClearAll(ns)
  {
    var once := MarkAsRead(ns, id);
    forall i | 0 <= i < |ns|
      ensures MarkAsRead(once, id)[i] == once[i]
    {
      if Get(ns[i], "id") == id {
        assert Get(once[i], "id") == id;
        assert MarkRead(once[i]) == once[i];
      } else {
        assert Get(once[i], "id") != id;
      }
    }
    var all := ClearAll(ns);
    assert forall i :: 0 <= i < |ns| ==> MarkRead(all[i]) == all[i];
  }
}

=== FILE: js_date.dfy ===
/** JavaScript `Date` values as milliseconds since 1970-01-01 UTC, for the
    pages that build dates from the server's `YYYY-MM-DD` strings and compare
    them. */
module JsDate {
  import opened Base
  import opened JsValue
  import opened Dates

  const DayMs := 86400000

  /** The UTC day number of an instant. */
  function UtcDay(ms: int): int
  {
    ms / DayMs
  }

  /** `new Date(v)` in milliseconds; None is an invalid date. A `YYYY-MM-DD`
      string is UTC midnight of that day, null is the epoch, a number is
      taken as milliseconds. */
  function DateMs(v: Val): (r: Option<int>)
    ensures v.Str? ==> (r.Some? <==> ParseIso(v.s).Some?)
    ensures v.Str? && ParseIso(v.s).Some? ==> r == Some(ParseIso(v.s).value * DayMs)
    ensures v == Undef || v == NaN ==> r.None?
  {
    match v
    case Str(s) => (match ParseIso(s) case Some(d) => Some(d * DayMs) case None => None)
    case Null => Some(0)
    case Num(n) => Some(n)
    case Bool(b) => Some(if b then 1 else 0)
    case _ => None
  }

  /** Dates built from two date strings compare as the days they name, and
      the instant falls on that UTC day. */
  lemma DateMsOrder(a: string, b: string)
    requires ParseIso(a).Some?
    ensures ParseIso(b).Some? ==>
      (DateMs(Str(a)).value <= DateMs(Str(b)).value <==> ParseIso(a).value <= ParseIso(b).value)
    ensures UtcDay(DateMs(Str(a)).value) == ParseIso(a).value
  {
    var da := ParseIso(a).value;
    DivUnique(da * DayMs, DayMs, da, 0);
    if ParseIso(b).Some? {
      MsOrder(da, ParseIso(b).value);
    }
  }

  lemma MsOrder(da: int, db: int)
    ensures da * DayMs <= db * DayMs <==> da <= db
  {
    if da <= db {
      MulLe(DayMs, da, db);
    } else {
      MulLe(DayMs, db + 1, da);
    }
  }
}

=== FILE: jsvalue.dfy ===
/** JavaScript values as the client sees them after JSON decoding, and the few
    language rules the pages rely on: truthiness, `||`, `??`, object spread,
    `String(v)` and `parseInt(v, 10)`. An object is a map from keys to values;
    an absent key reads as `undefined`, written `None`. */
module JsValue {
  import opened Base
  import opened Strings

  /** Numbers are integers here: every number the modelled code handles is an id,
      a count, a clamped level or a number of seconds. */
  datatype Val =
    | Undef
    | Null
    | Bool(b: bool)
    | Num(n: int)
    | NaN
    | Str(s: string)
    | Arr(items: seq<Val>)
    | Rec(fields: map<string, Val>)

  type Obj = map<string, Val>

  /** `o.k`: an absent key reads as undefined. */
  function Get(o: Obj, k: string): (v: Val)
    ensures k !in o ==> v == Undef
    ensures k in o ==> v == o[k]
  {
    if k in o then o[k] else Undef
  }

  /** `v.k` for a key that only a plain object can carry (no string,
      array or number has the named fields read by the pages). */
  function Prop(v: Val, k: string): (r: Val)
    ensures v.Rec? ==> r == Get(v.fields, k)
    ensures !v.Rec? ==> r == Undef
  {
    if v.Rec? then Get(v.fields, k) else Undef
  }

  /** JavaScript truthiness. */
  predicate Truthy(v: Val)
  {
    match v
    case Undef => false
    case Null => false
    case Bool(b) => b
    case Num(n) => n != 0
    case NaN => false
    case Str(s) => s != ""
    case Arr(_) => true
    case Rec(_) => true
  }

  /** `a || b`. */
  function Or(a: Val, b: Val): (r: Val)
    ensures Truthy(a) ==> r == a
    ensures !Truthy(a) ==> r == b
  {
    if Truthy(a) then a else b
  }

  predicate Nullish(v: Val)
  {
    v == Undef || v == Null
  }

  /** `a ?? b`: only undefined and null fall through, so 0, '' and false are kept. */
  function Coalesce(a: Val, b: Val): (r: Val)
    ensures !Nullish(a) ==> r == a
    ensures Nullish(a) ==> r == b
  {
    if Nullish(a) then b else a
  }

  /** `{...a, ...b}`: every key of either, b's value winning. */
  function Merge(a: Obj, b: Obj): (r: Obj)
    ensures r.Keys == a.Keys + b.Keys
    ensures forall k :: k in b ==> r[k] == b[k]
    ensures forall k :: k in a && k !in b ==> r[k] == a[k]
  {
    a + b
  }

  /** `String(n)` for an integer. */
  function IntToString(n: int): string
  {
    if n < 0 then "-" + NatToDecimal(-n) else NatToDecimal(n)
  }

  /** `String(v)`; arrays render as their elements joined by commas. */
  function ToJsString(v: Val): string
    decreases v, 1
  {
    match v
    case Undef => "undefined"
    case Null => "null"
    case Bool(b) => if b then "true" else "false"
    case Num(n) => IntToString(n)
    case NaN => "NaN"
    case Str(s) => s
    case Arr(items) => Join(seq(|items|, i requires 0 <= i < |items| => JoinElem(items[i])), ",")
    case Rec(_) => "[object Object]"
  }

  /** How `Array.prototype.join` renders one element: null and undefined
      become the empty string. */
  function JoinElem(v: Val): string
    decreases v, 2
  {
    if Nullish(v) then "" else ToJsString(v)
  }

  /** `parseInt(v, 10)`; None stands for NaN. */
  function ParseInt(v: Val): Option<int>
  {
    ParseIntPrefix(ToJsString(v))
  }

  /** `String(v).toLowerCase().includes(q.toLowerCase())`, the search box test. */
  predicate LowerIncludes(v: Val, q: string)
  {
    Contains(LowerAscii(ToJsString(v)), LowerAscii(q))
  }

  /** An empty search matches every value. */
  lemma EmptySearchMatches(v: Val)
    ensures LowerIncludes(v, "")
  {
    EmptyIsContained(LowerAscii(ToJsString(v)));
  }

  /** `id.toString().startsWith('_')`: the mark of an id generated in the browser. */
  predicate IsLocalId(v: Val)
  {
    StartsWith(ToJsString(v), "_")
  }

  /** `parseInt(String(n))` gives n back. */
  lemma ParseIntOfNum(n: int)
    ensures ParseInt(Num(n)) == Some(n)
  {
    if n >= 0 {
      ParseIntOfDecimal(n);
    } else {
      var d := NatToDecimal(-n);
      var s := "-" + d;
      assert TrimStart(s) == s;
      assert s[1..] == d;
      DigitPrefixAll(d);
      assert d[..|d|] == d;
      DecimalRoundTrip(-n);
    }
  }

  /** Numeric ids, the ones the server hands out, are never browser-local. */
  lemma NumericIdsAreNotLocal(n: int)
    ensures !IsLocalId(Num(n))
  {
    var s := IntToString(n);
    if n >= 0 {
      assert IsDigit(s[0]);
    } else {
      assert s[0] == '-';
    }
  }
}

=== FILE: learning_profile.dfy ===
/** `TestPerfilView.post` of `Aprendizaje_adaptativo/views.py`: the answers to
    the profile test are scored per study method and the two best methods
    become the user's learning profile. */
module LearningProfile {
  import opened Base

  datatype Metodo = Pomodoro | Feynman | Leitner

  /** The key order of `puntajes`, which is the order ties are left in. */
  const Metodos: seq<Metodo> := [Pomodoro, Feynman, Leitner]

  function Position(m: Metodo): (i: nat)
    ensures i < |Metodos| && Metodos[i] == m
  {
    match m
    case Pomodoro => 0
    case Feynman => 1
    case Leitner => 2
  }

  function MetodoName(m: Metodo): string
  {
    match m
    case Pomodoro => "Pomodoro"
    case Feynman => "Feynman"
    case Leitner => "Leitner"
  }

  /** One `{pregunta, valor}` entry of `respuestas`. */
  datatype Answer = Answer(pregunta: int, valor: int)

  /** The three scores, DOUBLED: a mixed question adds `valor / 2` to two
      methods, and doubling keeps every score an integer. */
  datatype Scores = Scores(pomodoro: int, feynman: int, leitner: int)
  {
    function Get(m: Metodo): int
    {
      match m
      case Pomodoro => pomodoro
      case Feynman => feynman
      case Leitner => leitner
    }

    function Plus(o: Scores): (r: Scores)
      ensures forall m :: r.Get(m) == Get(m) + o.Get(m)
    {
      Scores(pomodoro + o.pomodoro, feynman + o.feynman, leitner + o.leitner)
    }

    function Total(): int
    {
      pomodoro + feynman + leitner
    }
  }

  const NoScore := Scores(0, 0, 0)

  /** The single-method tags. */
  function SingleTag(tag: string): Option<Metodo>
  {
    if tag == "Pomodoro" then Some(Pomodoro)
    else if tag == "Feynman" then Some(Feynman)
    else if tag == "Leitner" then Some(Leitner)
    else None
  }

  predicate MixedTag(tag: string)
  {
    tag == "Pomodoro_Feynman" || tag == "Feynman_Pomodoro"
  }

  /** The five tags a question may carry. */
  predicate KnownTag(tag: string)
  {
    SingleTag(tag).Some? || MixedTag(tag)
  }

  /** What one answer adds, doubled, given its question's tag. */
  function Contribution(tag: string, valor: int): (r: Scores)
    ensures SingleTag(tag).Some? ==>
      forall m :: r.Get(m) == if m == SingleTag(tag).value then 2 * valor else 0
    ensures MixedTag(tag) ==> r == Scores(valor, valor, 0)
    ensures !KnownTag(tag) ==> r == NoScore
    ensures r.Total() == if KnownTag(tag) then 2 * valor else 0
  {
    match SingleTag(tag)
    case Some(Pomodoro) => Scores(2 * valor, 0, 0)
    case Some(Feynman) => Scores(0, 2 * valor, 0)
    case Some(Leitner) => Scores(0, 0, 2 * valor)
    case None => if MixedTag(tag) then Scores(valor, valor, 0) else NoScore
  }

  /** Every answered question exists. */
  predicate AllKnown(respuestas: seq<Answer>, tags: map<int, string>)
  {
    forall i :: 0 <= i < |respuestas| ==> respuestas[i].pregunta in tags
  }

  /** The scoring loop: each answer adds its contribution. */
  function Accumulate(respuestas: seq<Answer>, tags: map<int, string>): Scores
    requires AllKnown(respuestas, tags)
  {
    if |respuestas| == 0 then NoScore
    else
      var a := respuestas[0];
      AllKnownTail(respuestas, tags);
      Contribution(tags[a.pregunta], a.valor).Plus(Accumulate(respuestas[1..], tags))
  }

  lemma AllKnownTail(respuestas: seq<Answer>, tags: map<int, string>)
    requires |respuestas| > 0 && AllKnown(respuestas, tags)
    ensures respuestas[0].pregunta in tags && AllKnown(respuestas[1..], tags)
  {
    assert forall i :: 0 <= i < |respuestas[1..]| ==> respuestas[1..][i] == respuestas[i + 1];
  }

  /** The sum of valor over the answers whose question has one of the five tags. */
  function KnownTotal(respuestas: seq<Answer>, tags: map<int, string>): int
    requires AllKnown(respuestas, tags)
  {
    if |respuestas| == 0 then 0
    else
      var a := respuestas[0];
      (if KnownTag(tags[a.pregunta]) then a.valor else 0) + KnownTotal(respuestas[1..], tags)
  }

  /** The scores share out exactly the valor of the answers with a known tag
      (twice it, as the scores are doubled); answers with another tag add nothing. */
  lemma {:induction false} ScoresShareKnownTotal(respuestas: seq<Answer>, tags: map<int, string>)
    requires AllKnown(respuestas, tags)
    ensures Accumulate(respuestas, tags).Total() == 2 * KnownTotal(respuestas, tags)
    decreases |respuestas|
  {
    if |respuestas| > 0 {
      ScoresShareKnownTotal(respuestas[1..], tags);
    }
  }

  /** Ranking order: a higher score first, and on a tie the method that comes
      first in `puntajes`. */
  predicate Before(s: Scores, a: Metodo, b: Metodo)
  {
    s.Get(a) > s.Get(b) || (s.Get(a) == s.Get(b) && Position(a) < Position(b))
  }

  /** Places m behind every method scoring at least as much. */
  function InsertDesc(m: Metodo, ranked: seq<Metodo>, s: Scores): (r: seq<Metodo>)
    ensures |r| == |ranked| + 1
  {
    if |ranked| == 0 || s.Get(ranked[0]) < s.Get(m) then [m] + ranked
    else [ranked[0]] + InsertDesc(m, ranked[1..], s)
  }

  /** `sorted(puntajes.items(), key=score, reverse=True)`: Python's sort is
      stable under reverse=True, so later keys are inserted after equal ones. */
  function RankDesc(ms: seq<Metodo>, s: Scores): (r: seq<Metodo>)
    ensures |r| == |ms|
  {
    if |ms| == 0 then []
    else InsertDesc(ms[|ms| - 1], RankDesc(ms[..|ms| - 1], s), s)
  }

  function Ranked(s: Scores): seq<Metodo>
  {
    RankDesc(Metodos, s)
  }

  /** The ranking of three methods, written out case by case. */
  function RankOfThree(s: Scores): seq<Metodo>
  {
    var a := if s.Get(Pomodoro) < s.Get(Feynman) then Feynman else Pomodoro;
    var b := if s.Get(Pomodoro) < s.Get(Feynman) then Pomodoro else Feynman;
    if s.Get(a) < s.Get(Leitner) then [Leitner, a, b]
    else if s.Get(b) < s.Get(Leitner) then [a, Leitner, b]
    else [a, b, Leitner]
  }

  lemma RankedUnrolled(s: Scores)
    ensures Ranked(s) == RankOfThree(s)
  {
    assert Metodos[..2] == [Pomodoro, Feynman];
    assert [Pomodoro, Feynman][..1] == [Pomodoro];
    assert [Pomodoro][..0] == [];
    var r1 := RankDesc([Pomodoro], s);
    assert r1 == [Pomodoro];
    var r2 := RankDesc([Pomodoro, Feynman], s);
    assert r2 == InsertDesc(Feynman, r1, s);
    assert r2 == if s.Get(Pomodoro) < s.Get(Feynman) then [Feynman, Pomodoro] else [Pomodoro, Feynman];
    assert Ranked(s) == InsertDesc(Leitner, r2, s);
    var a, b := r2[0], r2[1];
    assert r2 == [a, b] && [a, b][1..] == [b] && [b][1..] == [];
    assert InsertDesc(Leitner, [b], s) == if s.Get(b) < s.Get(Leitner) then [Leitner, b] else [b, Leitner];
  }

  /** The ranking lists each method once, each before the next. */
  lemma RankedInOrder(s: Scores)
    ensures |Ranked(s)| == 3
    ensures Before(s, Ranked(s)[0], Ranked(s)[1]) && Before(s, Ranked(s)[1], Ranked(s)[2])
    ensures forall m :: m in Ranked(s)
  {
    RankedUnrolled(s);
    RankedCovers(s);
  }

  lemma RankedCovers(s: Scores)
    ensures forall m :: m in Ranked(s)
  {
    RankedUnrolled(s);
    var r := RankOfThree(s);
    assert Pomodoro in r && Feynman in r && Leitner in r;
    forall m ensures m in Ranked(s) {
      match m
      case Pomodoro =>
      case Feynman =>
      case Leitner =>
    }
  }

  datatype Outcome =
    | NoAnswers
    | UnknownQuestion
    | Profile(principal: Metodo, secundario: Option<Metodo>)

  /** Lines 45-47: the first-ranked method is the principal one, and the
      second-ranked one is the secondary one when its score is positive. */
  function ProfileOf(s: Scores): (r: Outcome)
    ensures r.Profile? && r.secundario != Some(r.principal)
  {
    RankedInOrder(s);
    var ranked := Ranked(s);
    Profile(ranked[0], if s.Get(ranked[1]) > 0 then Some(ranked[1]) else None)
  }

  /** `post`: an empty or absent answer list is refused with 400; an answer to a
      question that does not exist raises (a server error); otherwise the
      profile of the accumulated scores. */
  function Post(respuestas: Option<seq<Answer>>, tags: map<int, string>): (r: Outcome)
    ensures r == NoAnswers <==> respuestas.None? || |respuestas.value| == 0
    ensures r == UnknownQuestion <==>
      respuestas.Some? && |respuestas.value| > 0 && !AllKnown(respuestas.value, tags)
    ensures r.Profile? ==> r.secundario != Some(r.principal)
    ensures r.Profile? ==> r == ProfileOf(Accumulate(respuestas.value, tags))
  {
    if respuestas.None? || |respuestas.value| == 0 then NoAnswers
    else if !AllKnown(respuestas.value, tags) then UnknownQuestion
    else ProfileOf(Accumulate(respuestas.value, tags))
  }

  /** The principal method has the highest score, and it is the first such
      method in `puntajes` order. */
  lemma PrincipalIsBest(s: Scores)
    ensures var p := ProfileOf(s).principal;
      (forall m :: s.Get(m) <= s.Get(p))
      && (forall m :: s.Get(m) == s.Get(p) ==> Position(p) <= Position(m))
  {
    RankedInOrder(s);
  }

  /** The secondary method, when there is one, has a positive score that only
      the principal method beats or ties with, and it is the first such method;
      when there is none, no other method scores above zero. */
  lemma SecondaryIsRunnerUp(s: Scores)
    ensures var r := ProfileOf(s);
      (r.secundario.Some? ==>
        s.Get(r.secundario.value) > 0
        && forall m :: m != r.principal ==>
             s.Get(m) <= s.Get(r.secundario.value)
             && (s.Get(m) == s.Get(r.secundario.value) ==> Position(r.secundario.value) <= Position(m)))
      && (r.secundario.None? ==> forall m :: m != r.principal ==> s.Get(m) <= 0)
  {
    RankedInOrder(s);
  }

  /** `update_or_create(usuario, pregunta_id, defaults={'valor': ...})` for each
      answer in turn: the stored answers of the user, by question. */
  function SaveAnswers(stored: map<int, int>, respuestas: seq<Answer>): (r: map<int, int>)
    ensures r.Keys == stored.Keys + set a | a in respuestas :: a.pregunta
    decreases |respuestas|
  {
    if |respuestas| == 0 then stored
    else SaveAnswers(stored[respuestas[0].pregunta := respuestas[0].valor], respuestas[1..])
  }

  /** The last answer to a question is the one stored. */
  lemma {:induction false} LastAnswerWins(stored: map<int, int>, respuestas: seq<Answer>, i: nat)
    requires i < |respuestas|
    requires forall j :: i < j < |respuestas| ==> respuestas[j].pregunta != respuestas[i].pregunta
    ensures SaveAnswers(stored, respuestas)[respuestas[i].pregunta] == respuestas[i].valor
    decreases |respuestas|
  {
    var next := stored[respuestas[0].pregunta := respuestas[0].valor];
    if i == 0 {
      KeptWhenNotAnswered(next, respuestas[1..], respuestas[0].pregunta);
    } else {
      LastAnswerWins(next, respuestas[1..], i - 1);
    }
  }

  /** A question nobody answers keeps its stored value. */
  lemma {:induction false} KeptWhenNotAnswered(stored: map<int, int>, respuestas: seq<Answer>, q: int)
    requires q in stored
    requires forall j :: 0 <= j < |respuestas| ==> respuestas[j].pregunta != q
    ensures SaveAnswers(stored, respuestas)[q] == stored[q]
    decreases |respuestas|
  {
    if |respuestas| > 0 {
      KeptWhenNotAnswered(stored[respuestas[0].pregunta := respuestas[0].valor], respuestas[1..], q);
    }
  }
}

=== FILE: method_recommendation.dfy ===
/** `recomendar_metodo` of `Aprendizaje_adaptativo/services.py`: the study
    method recommended for a topic, from the user's profile and the topic's
    three method priorities. */
module MethodRecommendation {
  import opened Base

  /** A stored `PerfilAprendizaje`: method names as stored. */
  datatype Perfil = Perfil(principal: string, secundario: Option<string>)

  /** A topic's `PrioridadMetodoTema`. */
  datatype Prioridades = Prioridades(p1: string, p2: string, p3: string)

  datatype Tema = Tema(id: int, nombre: string)

  /** The `RecomendacionEstudio` row created. */
  datatype Recomendacion = Recomendacion(tema: int, metodo: string, razon: string)

  datatype Outcome =
    | NoPerfil
    | NoPrioridades
    | Recommended(metodo: string, razon: string, stored: Recomendacion)

  function Lista(p: Prioridades): seq<string>
  {
    [p.p1, p.p2, p.p3]
  }

  /** `m in lista_prioridades`; None is never a priority. */
  predicate Listed(m: Option<string>, p: Prioridades)
  {
    m.Some? && m.value in Lista(p)
  }

  /** The match: the principal method if the topic lists it, else the
      secondary one if listed, else the topic's first priority. */
  function Elegir(perfil: Perfil, p: Prioridades): (r: string)
    ensures r in Lista(p)
  {
    if perfil.principal in Lista(p) then perfil.principal
    else if Listed(perfil.secundario, p) then perfil.secundario.value
    else p.p1
  }

  /** The choice is the first of principal, secondary that the topic lists,
      falling back to its first priority. */
  lemma ElegirPrefersProfile(perfil: Perfil, p: Prioridades)
    ensures Listed(Some(perfil.principal), p) ==> Elegir(perfil, p) == perfil.principal
    ensures !Listed(Some(perfil.principal), p) && Listed(perfil.secundario, p) ==>
      Elegir(perfil, p) == perfil.secundario.value
    ensures !Listed(Some(perfil.principal), p) && !Listed(perfil.secundario, p) ==>
      Elegir(perfil, p) == p.p1
    ensures Elegir(perfil, p) != p.p1 ==>
      Elegir(perfil, p) == perfil.principal || Some(Elegir(perfil, p)) == perfil.secundario
  {
  }

  /** Python's `str` of an optional method name. */
  function PyStr(m: Option<string>): string
  {
    if m.Some? then m.value else "None"
  }

  function Razon(tema: Tema, elegido: string, perfil: Perfil): string
  {
    "El tema '" + tema.nombre + "' recomienda como prioridad el método " + elegido + ". "
    + "Se eligió este método porque coincide con tu perfil de aprendizaje "
    + "(" + perfil.principal + " como principal y " + PyStr(perfil.secundario) + " como secundario)."
  }

  /** `recomendar_metodo`: a missing profile or missing priorities raise; otherwise
      the chosen method is stored and returned together with its reason. */
  function Recomendar(perfil: Option<Perfil>, prioridades: Option<Prioridades>, tema: Tema): (r: Outcome)
    ensures r == NoPerfil <==> perfil.None?
    ensures r == NoPrioridades <==> perfil.Some? && prioridades.None?
    ensures r.Recommended? ==> r.metodo in Lista(prioridades.value)
    ensures r.Recommended? ==>
      r.stored.metodo == r.metodo && r.stored.razon == r.razon && r.stored.tema == tema.id
  {
    if perfil.None? then NoPerfil
    else if prioridades.None? then NoPrioridades
    else
      var m := Elegir(perfil.value, prioridades.value);
      var razon := Razon(tema, m, perfil.value);
      Recommended(m, razon, Recomendacion(tema.id, m, razon))
  }
}

=== FILE: mock_stores.dfy ===
/** The in-memory list behind the mock services: records matched by `id`
    with `===`, updated with object spread and removed with `filter`. Both
    `services/calendarService.mock.js` and `services/taskService.mock.js`
    use the same three steps. */
module MockStore {
  import opened Base
  import opened JsValue

  type Store = seq<Obj>

  function HasId(id: Val): Obj -> bool
  {
    (a: Obj) => Get(a, "id") == id
  }

  function NotId(id: Val): Obj -> bool
  {
    (a: Obj) => Get(a, "id") != id
  }

  function MergeWith(patch: Obj): Obj -> Obj
  {
    (a: Obj) => Merge(a, patch)
  }

  /** `list.map(a => a.id === id ? { ...a, ...patch } : a)`: the records
      with that id take the patch's fields; the others, the length and the
      order are unchanged. */
  function Update(s: Store, id: Val, patch: Obj): (r: Store)
    ensures |r| == |s|
    ensures forall i :: 0 <= i < |s| && Get(s[i], "id") == id ==> r[i] == Merge(s[i], patch)
    ensures forall i :: 0 <= i < |s| && Get(s[i], "id") != id ==> r[i] == s[i]
  {
    MapWhere(s, HasId(id), MergeWith(patch))
  }

  /** What the update resolves to: `list.find(a => a.id === id)` on the new
      list. */
  function Updated(s: Store, id: Val, patch: Obj): Option<Obj>
  {
    Find(Update(s, id, patch), HasId(id))
  }

  /** Entry i is the first record with that id. */
  predicate FirstWithId(s: Store, id: Val, i: int)
  {
    0 <= i < |s| && Get(s[i], "id") == id && forall j :: 0 <= j < i ==> Get(s[j], "id") != id
  }

  /** A patch that leaves the id alone keeps every record's id. */
  lemma UpdateKeepsIds(s: Store, id: Val, patch: Obj)
    requires "id" !in patch
    ensures forall i :: 0 <= i < |s| ==> Get(Update(s, id, patch)[i], "id") == Get(s[i], "id")
  {
  }

  /** When the patch leaves the id alone, the update resolves to undefined
      exactly when no record has that id. */
  lemma UpdateResolvesToNothing(s: Store, id: Val, patch: Obj)
    requires "id" !in patch
    ensures Updated(s, id, patch).None? <==> forall a :: a in s ==> Get(a, "id") != id
  {
    var r := Update(s, id, patch);
    UpdateKeepsIds(s, id, patch);
    if exists a :: a in s && Get(a, "id") == id {
      var a :| a in s && Get(a, "id") == id;
      var k :| 0 <= k < |s| && s[k] == a;
      assert r[k] in r && HasId(id)(r[k]);
    } else {
      forall b | b in r
        ensures !HasId(id)(b)
      {
        var k :| 0 <= k < |r| && r[k] == b;
        assert s[k] in s;
      }
    }
  }

  /** When the patch leaves the id alone, the update resolves to the first
      record with that id, patched. */
  lemma UpdateResolvesToFirstMatch(s: Store, id: Val, patch: Obj, i: int)
    requires "id" !in patch && FirstWithId(s, id, i)
    ensures Updated(s, id, patch) == Some(Merge(s[i], patch))
  {
    var r := Update(s, id, patch);
    UpdateKeepsIds(s, id, patch);
    assert r[i] in r && HasId(id)(r[i]);
    var f := Updated(s, id, patch);
    var m :| 0 <= m < |r| && r[m] == f.value && HasId(id)(r[m]) && forall j :: 0 <= j < m ==> !HasId(id)(r[j]);
  }

  /** `list.filter(a => a.id !== id)`: every record with that id is gone,
      the rest stay in order. */
  function Delete(s: Store, id: Val): (r: Store)
    ensures forall a :: a in r <==> a in s && Get(a, "id") != id
    ensures IsSubseq(r, s)
    ensures |r| == |s| - Count(s, HasId(id))
  {
    var r := Filter(s, NotId(id));
    FilterIsSubseq(s, NotId(id));
    forall a
      ensures a in r <==> a in s && NotId(id)(a)
    {
      FilterMembers(s, NotId(id), a);
    }
    FilterCountComplement(s, id);
    r
  }

  lemma {:induction false} FilterCountComplement(s: Store, id: Val)
    ensures |Filter(s, NotId(id))| + Count(s, HasId(id)) == |s|
    decreases |s|
  {
    if |s| > 0 {
      FilterCountComplement(s[1..], id);
    }
  }

  /** Appending a record whose id is new and then deleting that id gives
      the store back. */
  lemma DeleteUndoesAppend(s: Store, x: Obj)
    requires forall a :: a in s ==> Get(a, "id") != Get(x, "id")
    ensures Delete(s + [x], Get(x, "id")) == s
  {
    var id := Get(x, "id");
    FilterAppend(s, [x], NotId(id));
    FilterKeepsAll(s, NotId(id));
    FilterCons(x, [], NotId(id));
    assert Filter([x], NotId(id)) == [];
  }
}

=== FILE: plan_modal.dfy ===
/** The study-plan dialog (`components/ModalPlanEstudio.jsx`): what it shows
    for the plan the server proposed. The server's answer has used several
    field names over time, so every shown value is the first of a chain of
    alternatives. */
module PlanModal {
  import opened Base
  import opened Strings
  import opened JsValue

  /** The list of sessions: the first of `sesiones`, `bloques` and
      `sesiones_generadas` that is an array, else none. */
  function Sessions(plan: Val): (r: seq<Val>)
    ensures Prop(plan, "sesiones").Arr? ==> r == Prop(plan, "sesiones").items
    ensures !Prop(plan, "sesiones").Arr? && Prop(plan, "bloques").Arr? ==> r == Prop(plan, "bloques").items
    ensures !Prop(plan, "sesiones").Arr? && !Prop(plan, "bloques").Arr? && Prop(plan, "sesiones_generadas").Arr?
      ==> r == Prop(plan, "sesiones_generadas").items
    ensures r != [] ==> exists k :: k in ["sesiones", "bloques", "sesiones_generadas"] && Prop(plan, k) == Arr(r)
  {
    if Prop(plan, "sesiones").Arr? then Prop(plan, "sesiones").items
    else if Prop(plan, "bloques").Arr? then Prop(plan, "bloques").items
    else if Prop(plan, "sesiones_generadas").Arr? then Prop(plan, "sesiones_generadas").items
    else []
  }

  /** `formatDateTime(fecha, hora)`: empty when both are empty; otherwise
      the date (or nothing), then ' - ' and the first five characters of the
      hour when there is one. */
  function FormatDateTime(fecha: Val, hora: Val): (r: string)
    ensures !Truthy(fecha) && !Truthy(hora) ==> r == ""
    ensures Truthy(fecha) || Truthy(hora) ==> StartsWith(r, ToJsString(Or(fecha, Str(""))))
    ensures !Truthy(hora) ==> r == (if Truthy(fecha) then ToJsString(fecha) else "")
  {
    if !Truthy(fecha) && !Truthy(hora) then ""
    else
      var h := if Truthy(hora) then Take(ToJsString(hora), 5) else "";
      var d := ToJsString(Or(fecha, Str("")));
      var r := d + (if h != "" then " - " + h else "");
      assert r[..|d|] == d;
      r
  }

  /** An hour sent with seconds ("HH:MM:SS") is shown as "HH:MM" after the
      date. */
  lemma SecondsAreCut(fecha: string, hm: string, sec: string)
    requires fecha != "" && |hm| == 5
    ensures FormatDateTime(Str(fecha), Str(hm + sec)) == fecha + " - " + hm
  {
    assert (hm + sec)[..5] == hm;
  }

  /** An hour alone is still shown, after an empty date. */
  lemma HourWithoutDate(hm: string)
    requires |hm| == 5
    ensures FormatDateTime(Null, Str(hm)) == " - " + hm
  {
  }

  /** The total shown in the summary: `sesiones_generadas ?? total_sesiones
      ?? sesiones.length`. */
  function Total(plan: Val): (r: Val)
    ensures !Nullish(Prop(plan, "sesiones_generadas")) ==> r == Prop(plan, "sesiones_generadas")
    ensures Nullish(Prop(plan, "sesiones_generadas")) && !Nullish(Prop(plan, "total_sesiones"))
      ==> r == Prop(plan, "total_sesiones")
    ensures Nullish(Prop(plan, "sesiones_generadas")) && Nullish(Prop(plan, "total_sesiones"))
      ==> r == Num(|Sessions(plan)|)
  {
    Coalesce(Prop(plan, "sesiones_generadas"), Coalesce(Prop(plan, "total_sesiones"), Num(|Sessions(plan)|)))
  }

  /** A reported count of zero is shown as zero, not replaced by the length. */
  lemma ZeroTotalIsShown(plan: Val)
    requires Prop(plan, "sesiones_generadas") == Num(0)
    ensures Total(plan) == Num(0)
  {
  }

  /** One card of the list. `fin` is the end hour cut to five characters,
      shown only when there is one; `numero` is shown unless it is ''. */
  datatype Card = Card(tipo: Val, numero: Val, cuando: string, fin: Option<string>)

  /** The first truthy of four fields, else the fallback. */
  function FirstOf(s: Val, a: string, b: string, c: string, d: string, fallback: Val): (r: Val)
    ensures Truthy(Prop(s, a)) ==> r == Prop(s, a)
    ensures !Truthy(Prop(s, a)) && Truthy(Prop(s, b)) ==> r == Prop(s, b)
    ensures !Truthy(Prop(s, a)) && !Truthy(Prop(s, b)) && Truthy(Prop(s, c)) ==> r == Prop(s, c)
    ensures !Truthy(Prop(s, a)) && !Truthy(Prop(s, b)) && !Truthy(Prop(s, c)) ==> r == Or(Prop(s, d), fallback)
  {
    Or(Or(Or(Or(Prop(s, a), Prop(s, b)), Prop(s, c)), Prop(s, d)), fallback)
  }

  /** The card of one session. */
  function CardOf(s: Val): (c: Card)
    ensures c.tipo == FirstOf(s, "tipo_sesion", "tipo", "nombre", "tarea", Str("sesión"))
    ensures c.numero == Coalesce(Prop(s, "numero_sesion"), Coalesce(Prop(s, "numero"), Coalesce(Prop(s, "id"), Str(""))))
    ensures c.cuando == FormatDateTime(FirstOf(s, "fecha", "fecha_inicio", "inicioFecha", "date", Str("")),
      FirstOf(s, "hora_inicio", "hora", "inicio", "hora_inicio_str", Str("")))
    ensures var fin := Or(Or(Or(Prop(s, "hora_fin"), Prop(s, "fin")), Prop(s, "hora_fin_str")), Str(""));
      c.fin == if Truthy(fin) then Some(Take(ToJsString(fin), 5)) else None
  {
    var fecha := FirstOf(s, "fecha", "fecha_inicio", "inicioFecha", "date", Str(""));
    var horaInicio := FirstOf(s, "hora_inicio", "hora", "inicio", "hora_inicio_str", Str(""));
    var fin := Or(Or(Or(Prop(s, "hora_fin"), Prop(s, "fin")), Prop(s, "hora_fin_str")), Str(""));
    Card(
      FirstOf(s, "tipo_sesion", "tipo", "nombre", "tarea", Str("sesión")),
      Coalesce(Prop(s, "numero_sesion"), Coalesce(Prop(s, "numero"), Coalesce(Prop(s, "id"), Str("")))),
      FormatDateTime(fecha, horaInicio),
      if Truthy(fin) then Some(Take(ToJsString(fin), 5)) else None)
  }

  /** Every card has a type to show, and a session numbered 0 keeps its
      number (where `||` would have dropped it). */
  lemma CardFallbacks(s: Val)
    ensures Truthy(CardOf(s).tipo)
    ensures Prop(s, "numero_sesion") == Num(0) ==> CardOf(s).numero == Num(0) && CardOf(s).numero != Str("")
    ensures Nullish(Prop(s, "numero_sesion")) && Nullish(Prop(s, "numero")) && Nullish(Prop(s, "id"))
      ==> CardOf(s).numero == Str("")
  {
  }

  /** The summary block, shown when the plan carries `planificacion`. */
  datatype Summary = Summary(temaId: Val, fechaInicio: Val, fechaFin: Val, total: Val)

  /** What the dialog shows. */
  datatype View = View(mensaje: Val, resumen: Option<Summary>, cards: seq<Card>, sinSesiones: bool)

  /** The dialog: nothing for a falsy plan; otherwise the message (or a
      default), the summary when `planificacion` is set, one card per
      session in order, and the 'no sessions' note exactly when there are
      none. */
  function Render(plan: Val): (r: Option<View>)
    ensures r.None? <==> !Truthy(plan)
    ensures r.Some? ==> r.value.mensaje == Or(Prop(plan, "mensaje"), Str("Plan de estudio generado"))
    ensures r.Some? ==> (r.value.resumen.Some? <==> Truthy(Prop(plan, "planificacion")))
    ensures r.Some? && r.value.resumen.Some? ==> r.value.resumen.value.total == Total(plan)
    ensures r.Some? ==> |r.value.cards| == |Sessions(plan)|
    ensures r.Some? ==> forall i :: 0 <= i < |Sessions(plan)| ==> r.value.cards[i] == CardOf(Sessions(plan)[i])
    ensures r.Some? ==> (r.value.sinSesiones <==> Sessions(plan) == [])
  {
    if !Truthy(plan) then None
    else
      var pl := Prop(plan, "planificacion");
      var resumen :=
        if Truthy(pl) then
          Some(Summary(
            Or(Or(Prop(pl, "tema_dificultad"), Prop(plan, "tema_id")), Str("-")),
            Or(Prop(pl, "fecha_inicio"), Prop(plan, "fecha_inicio")),
            Or(Prop(pl, "fecha_fin"), Prop(plan, "fecha_fin")),
            Total(plan)))
        else None;
      var ss := Sessions(plan);
      Some(View(Or(Prop(plan, "mensaje"), Str("Plan de estudio generado")), resumen, Map(ss, CardOf), |ss| == 0))
  }

  /** The summary's topic falls back to the plan's `tema_id`, then to '-'. */
  lemma SummaryTopicFallback(plan: Val)
    requires Truthy(plan) && Truthy(Prop(plan, "planificacion"))
    requires !Truthy(Prop(Prop(plan, "planificacion"), "tema_dificultad")) && !Truthy(Prop(plan, "tema_id"))
    ensures Render(plan).value.resumen.value.temaId == Str("-")
  {
  }
}

=== FILE: planning_page.dfy ===
/** The study-planning page (`pages/PlanificacionPage.jsx`): the available-day
    switches, the gate in front of the plan-generation request, the sessions
    of the selected plan, and their grouping by date for display. Network
    calls are replaced by the request the page would send. */
module PlanningPage {
  import opened Base
  import opened JsValue
  import opened StableSort

  /** `diasDisponibles`: an object whose keys keep their insertion order, as
      a list of (day, available) entries. */
  type Dias = seq<(string, bool)>

  const InitialDias: Dias := [("lunes", true), ("martes", true), ("miercoles", true), ("jueves", true),
    ("viernes", true), ("sabado", false), ("domingo", false)]

  predicate HasDay(d: Dias, dia: string)
  {
    exists i :: 0 <= i < |d| && d[i].0 == dia
  }

  function IsDay(dia: string): ((string, bool)) -> bool
  {
    (e: (string, bool)) => e.0 == dia
  }

  function Flip(e: (string, bool)): (string, bool)
  {
    (e.0, !e.1)
  }

  /** `handleToggleDia`: `{...prev, [dia]: !prev[dia]}`. An existing key is
      flipped where it stands; a new one is added last, as `true`
      (`!undefined`). */
  function ToggleDia(d: Dias, dia: string): (r: Dias)
    ensures HasDay(d, dia) ==> |r| == |d|
    ensures HasDay(d, dia) ==> forall i :: 0 <= i < |d| ==> r[i].0 == d[i].0
    ensures HasDay(d, dia) ==> forall i :: 0 <= i < |d| ==> r[i].1 == (if d[i].0 == dia then !d[i].1 else d[i].1)
    ensures !HasDay(d, dia) ==> r == d + [(dia, true)]
  {
    if HasDay(d, dia) then MapWhere(d, IsDay(dia), Flip) else d + [(dia, true)]
  }

  /** Toggling an existing day twice restores the switches. */
  lemma ToggleTwice(d: Dias, dia: string)
    requires HasDay(d, dia)
    ensures ToggleDia(ToggleDia(d, dia), dia) == d
  {
    var once := ToggleDia(d, dia);
    var i :| 0 <= i < |d| && d[i].0 == dia;
    assert once[i].0 == dia;
    var twice := ToggleDia(once, dia);
    assert forall k :: 0 <= k < |d| ==> twice[k] == d[k];
  }

  function IsOn(e: (string, bool)): bool
  {
    e.1
  }

  function DayName(e: (string, bool)): string
  {
    e.0
  }

  /** `Object.keys(diasDisponibles).filter(dia => diasDisponibles[dia])`: the
      days switched on, in key order. */
  function SelectedDays(d: Dias): (r: seq<string>)
    ensures forall x :: x in r <==> (x, true) in d
    ensures IsSubseq(r, Map(d, DayName))
  {
    var on := Filter(d, IsOn);
    var r := Map(on, DayName);
    FilterIsSubseq(d, IsOn);
    MapSubseq(on, d, DayName);
    forall x
      ensures x in r <==> (x, true) in d
    {
      FilterMembers(d, IsOn, (x, true));
      if x in r {
        var i :| 0 <= i < |on| && r[i] == x;
        assert on[i] in on;
        FilterMembers(d, IsOn, on[i]);
      }
      if (x, true) in d {
        var i :| 0 <= i < |on| && on[i] == (x, true);
        assert r[i] == x;
      }
    }
    r
  }

  /** The five weekdays in key order. */
  const Weekdays: seq<string> := ["lunes", "martes", "miercoles", "jueves", "viernes"]

  /** By default the weekdays are offered, Monday to Friday in that order,
      and the weekend is not. */
  lemma DefaultDays()
    ensures forall x :: x in SelectedDays(InitialDias) <==> x in Weekdays
    ensures SelectedDays(InitialDias) == Weekdays
  {
    OnThenOff(InitialDias, 5);
    FirstFiveNames();
  }

  lemma FirstFiveNames()
    ensures Map(InitialDias[..5], DayName) == Weekdays
  {
  }

  /** Switches on up to k and off from k select the first k days. */
  lemma OnThenOff(d: Dias, k: int)
    requires 0 <= k <= |d|
    requires forall i :: 0 <= i < k ==> d[i].1
    requires forall i :: k <= i < |d| ==> !d[i].1
    ensures SelectedDays(d) == Map(d[..k], DayName)
  {
    assert d[..k] + d[k..] == d;
    FilterAppend(d[..k], d[k..], IsOn);
    FilterKeepsAll(d[..k], IsOn);
    FilterNone(d[k..], IsOn);
  }

  /** The seven day names in key order. */
  const Semana: seq<string> := ["lunes", "martes", "miercoles", "jueves", "viernes", "sabado", "domingo"]

  /** The switches hold the seven days in week order. */
  predicate InWeekOrder(d: Dias)
  {
    Map(d, DayName) == Semana
  }

  /** Every state the switches reach from the initial one keeps the seven
      days in week order, so the days sent are always in week order. */
  lemma SelectedInWeekOrder(d: Dias, dia: string)
    requires InWeekOrder(d)
    ensures IsSubseq(SelectedDays(d), Semana)
    ensures InWeekOrder(InitialDias)
    ensures dia in Semana ==> InWeekOrder(ToggleDia(d, dia))
  {
    assert Map(InitialDias, DayName) == Semana;
    if dia in Semana {
      var i :| 0 <= i < |Semana| && Semana[i] == dia;
      assert d[i].0 == dia;
      var t := ToggleDia(d, dia);
      assert forall k :: 0 <= k < |d| ==> Map(t, DayName)[k] == Semana[k];
    }
  }

  const MissingFields := "Por favor, completa todos los campos requeridos."
  const NoDays := "Selecciona al menos un día disponible."

  /** What `handleGenerarPlanificacion` does before any network call: refuse
      with a message, or send the request. */
  datatype Generation =
    | Refused(error: string)
    | Requested(tema: Val, fechaInicio: string, hora: string, dias: seq<string>)

  /** A topic and a start date are required, then at least one day; the
      request carries the topic's id, the date, the hour and the days on. */
  function Generate(tema: Option<Obj>, fechaInicio: string, hora: string, d: Dias): (r: Generation)
    ensures tema.None? || fechaInicio == "" ==> r == Refused(MissingFields)
    ensures tema.Some? && fechaInicio != "" && SelectedDays(d) == [] ==> r == Refused(NoDays)
    ensures r.Requested? <==> tema.Some? && fechaInicio != "" && SelectedDays(d) != []
    ensures r.Requested? ==> r.tema == Get(tema.value, "id") && r.fechaInicio == fechaInicio
    ensures r.Requested? ==> r.hora == hora && r.dias == SelectedDays(d)
  {
    if tema.None? || fechaInicio == "" then Refused(MissingFields)
    else if SelectedDays(d) == [] then Refused(NoDays)
    else Requested(Get(tema.value, "id"), fechaInicio, hora, SelectedDays(d))
  }

  /** With every day switched off nothing is requested, whatever else is set. */
  lemma NoDayNoRequest(tema: Option<Obj>, fechaInicio: string, hora: string, d: Dias)
    requires forall i :: 0 <= i < |d| ==> !d[i].1
    ensures Generate(tema, fechaInicio, hora, d).Refused?
  {
    forall e | e in d
      ensures !IsOn(e)
    {
      var i :| 0 <= i < |d| && d[i] == e;
    }
    FilterNone(d, IsOn);
  }

  function SameTopic(plan: Obj): Obj -> bool
  {
    (s: Obj) => Get(s, "tema_dificultad") == Get(plan, "tema_dificultad")
  }

  /** `sesionesDePlanificacion`: the sessions on the selected plan's topic,
      in list order; none without a selected plan. */
  function PlanSessions(plan: Option<Obj>, sesiones: seq<Obj>): (r: seq<Obj>)
    ensures plan.None? ==> r == []
    ensures plan.Some? ==> forall s :: s in r <==> s in sesiones && Get(s, "tema_dificultad") == Get(plan.value, "tema_dificultad")
    ensures IsSubseq(r, sesiones)
  {
    if plan.None? then []
    else
      var r := Filter(sesiones, SameTopic(plan.value));
      FilterIsSubseq(sesiones, SameTopic(plan.value));
      forall s
        ensures s in r <==> s in sesiones && SameTopic(plan.value)(s)
      {
        FilterMembers(sesiones, SameTopic(plan.value), s);
      }
      r
  }

  /** The plan list's state: the selected plan and the loaded session list. */
  datatype Selection = Selection(plan: Option<Obj>, sesiones: seq<Obj>)

  /** The plan card's `onClick` as written: the plan is selected and the
      session list is overwritten by that plan's sessions, so the sessions of
      every other topic are gone until `cargarDatos` reloads the list. */
  function PickPlanAsWritten(st: Selection, plan: Obj): (r: Selection)
    ensures r.plan == Some(plan)
    ensures IsSubseq(r.sesiones, st.sesiones)
    ensures forall s :: s in r.sesiones <==> s in st.sesiones && Get(s, "tema_dificultad") == Get(plan, "tema_dificultad")
  {
    Selection(Some(plan), PlanSessions(Some(plan), st.sesiones))
  }

  /** Picking plan A and then a plan B on another topic shows no session at
      all, even when the loaded list holds B's sessions. */
  lemma SwitchingPlansLosesSessions(st: Selection, a: Obj, b: Obj)
    requires Get(a, "tema_dificultad") != Get(b, "tema_dificultad")
    ensures var r := PickPlanAsWritten(PickPlanAsWritten(st, a), b);
      r.plan == Some(b) && r.sesiones == [] && PlanSessions(r.plan, r.sesiones) == []
  {
    var once := PlanSessions(Some(a), st.sesiones);
    forall s | s in once
      ensures !SameTopic(b)(s)
    {
    }
    FilterNone(once, SameTopic(b));
  }

  /** The card's `onClick` as evidently intended: only the selection changes;
      `sesionesDePlanificacion` already filters the list by the plan. */
  function PickPlan(st: Selection, plan: Obj): (r: Selection)
    ensures r.plan == Some(plan)
    ensures r.sesiones == st.sesiones
  {
    st.(plan := Some(plan))
  }

  /** With the corrected handler, whatever was picked before, the shown
      sessions are exactly the loaded sessions on the last plan's topic; on a
      first pick the handler as written shows the same. */
  lemma PickedPlanShowsItsSessions(st: Selection, a: Obj, b: Obj)
    ensures var r := PickPlan(PickPlan(st, a), b);
      forall s :: s in PlanSessions(r.plan, r.sesiones) <==>
        s in st.sesiones && Get(s, "tema_dificultad") == Get(b, "tema_dificultad")
    ensures var w := PickPlanAsWritten(st, b);
      PlanSessions(w.plan, w.sesiones) == PlanSessions(PickPlan(st, b).plan, st.sesiones)
  {
    var once := PlanSessions(Some(b), st.sesiones);
    forall s | s in once
      ensures SameTopic(b)(s)
    {
    }
    FilterKeepsAll(once, SameTopic(b));
  }

  /** The property key a session is grouped under: `String(sesion.fecha)`. */
  function FechaKey(s: Obj): string
  {
    ToJsString(Get(s, "fecha"))
  }

  function FechaIs(k: string): Obj -> bool
  {
    (s: Obj) => FechaKey(s) == k
  }

  /** `sesionesPorFecha`: an object from date to sessions, with keys in
      first-appearance order. */
  type Groups = seq<(string, seq<Obj>)>

  predicate KeysDistinct(g: Groups)
  {
    forall i, j :: 0 <= i < j < |g| ==> g[i].0 != g[j].0
  }

  predicate HasKey(g: Groups, k: string)
  {
    exists i :: 0 <= i < |g| && g[i].0 == k
  }

  /** One step of the reduce: push the session onto its date's group, made
      empty first when the date is new. */
  function Push(g: Groups, k: string, x: Obj): (r: Groups)
    requires KeysDistinct(g)
    ensures HasKey(g, k) ==> |r| == |g|
    ensures !HasKey(g, k) ==> |r| == |g| + 1 && r[|g|] == (k, [x])
    ensures forall i :: 0 <= i < |g| ==> r[i].0 == g[i].0
    ensures forall i :: 0 <= i < |g| ==> r[i].1 == (if g[i].0 == k then g[i].1 + [x] else g[i].1)
    ensures KeysDistinct(r) && HasKey(r, k)
  {
    if HasKey(g, k) then
      seq(|g|, i requires 0 <= i < |g| => if g[i].0 == k then (k, g[i].1 + [x]) else g[i])
    else
      var r := g + [(k, [x])];
      assert r[|g|].0 == k;
      r
  }

  /** `sesiones.reduce(...)`, one session at a time from the left. */
  function GroupByFecha(s: seq<Obj>): (g: Groups)
    ensures KeysDistinct(g)
    decreases |s|
  {
    if |s| == 0 then [] else Push(GroupByFecha(s[..|s| - 1]), FechaKey(s[|s| - 1]), s[|s| - 1])
  }

  /** The grouping partitions the sessions: the dates are distinct, every
      session's date is a key, and each group is exactly the sessions of its
      date in list order (so no group is empty). */
  lemma {:induction false} GroupByFechaPartitions(s: seq<Obj>)
    ensures forall i :: 0 <= i < |GroupByFecha(s)| ==> GroupByFecha(s)[i].1 == Filter(s, FechaIs(GroupByFecha(s)[i].0))
    ensures forall x :: x in s ==> HasKey(GroupByFecha(s), FechaKey(x))
    ensures forall i :: 0 <= i < |GroupByFecha(s)| ==> |GroupByFecha(s)[i].1| > 0
    decreases |s|
  {
    if |s| > 0 {
      var n := |s| - 1;
      var prefix, x := s[..n], s[n];
      assert prefix + [x] == s;
      var g0 := GroupByFecha(prefix);
      var g := GroupByFecha(s);
      GroupByFechaPartitions(prefix);
      assert g == Push(g0, FechaKey(x), x);
      forall i | 0 <= i < |g|
        ensures g[i].1 == Filter(s, FechaIs(g[i].0))
        ensures |g[i].1| > 0
      {
        var p := FechaIs(g[i].0);
        FilterAppend(prefix, [x], p);
        FilterCons(x, [], p);
        assert [x] + [] == [x];
        if i == |g0| {
          assert g[i] == (FechaKey(x), [x]);
          assert !HasKey(g0, FechaKey(x));
          forall y | y in prefix
            ensures !p(y)
          {
            var j :| 0 <= j < |g0| && g0[j].0 == FechaKey(y);
          }
          FilterNone(prefix, p);
        }
      }
      forall y | y in s
        ensures HasKey(g, FechaKey(y))
      {
        if y in prefix {
          var i :| 0 <= i < |g0| && g0[i].0 == FechaKey(y);
          assert g[i].0 == FechaKey(y);
        }
      }
    }
  }

  function GroupKey(e: (string, seq<Obj>)): string
  {
    e.0
  }

  function HoraKey(s: Obj): string
  {
    ToJsString(Get(s, "hora_inicio"))
  }

  function SortGroup(e: (string, seq<Obj>)): (string, seq<Obj>)
  {
    (e.0, SortByKey(e.1, HoraKey))
  }

  /** What is rendered: `Object.keys(...).sort()`, and each date's sessions
      sorted by `hora_inicio`. */
  function Shown(g: Groups): (r: Groups)
    ensures |r| == |g|
    ensures SortedBy(r, GroupKey)
    ensures forall i :: 0 <= i < |r| ==> SortedBy(r[i].1, HoraKey)
  {
    var byKey := SortByKey(g, GroupKey);
    var r := Map(byKey, SortGroup);
    assert forall i :: 0 <= i < |r| ==> r[i].0 == byKey[i].0;
    r
  }

  /** Every shown date is one of the groups, with the same sessions
      reordered. */
  lemma ShownFromGroups(g: Groups, i: nat)
    requires i < |g|
    ensures exists j :: 0 <= j < |g| && Shown(g)[i].0 == g[j].0 && multiset(Shown(g)[i].1) == multiset(g[j].1)
  {
    var byKey := SortByKey(g, GroupKey);
    assert Shown(g)[i] == SortGroup(byKey[i]);
    assert byKey[i] in multiset(g);
    var j :| 0 <= j < |g| && g[j] == byKey[i];
    assert Shown(g)[i] == SortGroup(g[j]);
  }

  /** Every group is shown, with the same sessions reordered. */
  lemma GroupsAreShown(g: Groups, j: nat)
    requires j < |g|
    ensures exists i :: 0 <= i < |g| && Shown(g)[i].0 == g[j].0 && multiset(Shown(g)[i].1) == multiset(g[j].1)
  {
    var byKey := SortByKey(g, GroupKey);
    assert g[j] in multiset(byKey);
    var i :| 0 <= i < |byKey| && byKey[i] == g[j];
    assert Shown(g)[i] == SortGroup(g[j]);
  }
}

=== FILE: pomodoro.dfy ===
/** The study-session timer (`components/PomodoroTimer.jsx`): study and break
    phases of a per-method length, a cycle counter, and the session end.
    The one-second interval is modelled as a `Tick` step; sounds, alerts and
    the close callback are effects, and the model only records that the
    session finished. */
module PomodoroTimer {
  import opened Strings

  /** Minutes of study, minutes of break, and the number of cycles. */
  datatype Config = Config(estudio: nat, descanso: nat, ciclos: nat)

  /** `pomodoroConfig[metodo] || pomodoroConfig.Pomodoro`. */
  function ConfigFor(metodo: string): (c: Config)
    ensures metodo != "Feynman" && metodo != "Leitner" ==> c == Config(25, 5, 4)
    ensures c.estudio > 0 && c.descanso > 0 && c.ciclos > 0
  {
    if metodo == "Feynman" then Config(30, 10, 3)
    else if metodo == "Leitner" then Config(20, 5, 5)
    else Config(25, 5, 4)
  }

  datatype Phase = Estudio | Descanso

  /** The component state; `finished` records that the session-complete branch
      ran (the alert, `onComplete` and `onClose`). */
  datatype Timer = Timer(timeLeft: nat, running: bool, phase: Phase, cycle: int, finished: bool)

  /** The state after mounting, and after `handleReset`: stopped, studying,
      first cycle, a full study phase. */
  function Reset(c: Config): (t: Timer)
    ensures !t.running && t.phase == Estudio && t.cycle == 1 && !t.finished
    ensures t.timeLeft == c.estudio * 60
  {
    Timer(c.estudio * 60, false, Estudio, 1, false)
  }

  /** `handleStart`: the timer runs, from where it stands. */
  function Start(t: Timer): (r: Timer)
    ensures r.running
    ensures r.timeLeft == t.timeLeft && r.phase == t.phase && r.cycle == t.cycle && r.finished == t.finished
  {
    t.(running := true)
  }

  /** `handlePause`: the timer stops where it stands. */
  function Pause(t: Timer): (r: Timer)
    ensures !r.running
    ensures r.timeLeft == t.timeLeft && r.phase == t.phase && r.cycle == t.cycle && r.finished == t.finished
  {
    t.(running := false)
  }

  /** `handlePhaseComplete`: the timer stops; a study phase is followed by a
      break; a break ends the cycle, and the session ends when the cycle
      that just ended (the counter read before its increment) is the last. */
  function PhaseComplete(t: Timer, c: Config): (r: Timer)
    ensures !r.running && r.cycle >= t.cycle
    ensures t.phase == Estudio ==> r == Timer(c.descanso * 60, false, Descanso, t.cycle, t.finished)
    ensures t.phase == Descanso ==> r.cycle == t.cycle + 1
    ensures t.phase == Descanso ==> (r.finished <==> t.finished || t.cycle >= c.ciclos)
    ensures t.phase == Descanso && t.cycle < c.ciclos ==> r.phase == Estudio && r.timeLeft == c.estudio * 60
  {
    if t.phase == Estudio then Timer(c.descanso * 60, false, Descanso, t.cycle, t.finished)
    else if t.cycle >= c.ciclos then Timer(0, false, Descanso, t.cycle + 1, true)
    else Timer(c.estudio * 60, false, Estudio, t.cycle + 1, t.finished)
  }

  /** One second of the interval, which only runs while the timer runs and
      time is left: the time goes down by one, and at one second or less the
      phase completes. */
  function Tick(t: Timer, c: Config): (r: Timer)
    ensures !(t.running && t.timeLeft > 0) ==> r == t
    ensures t.running && t.timeLeft > 1 ==> r == t.(timeLeft := t.timeLeft - 1)
    ensures t.running && t.timeLeft == 1 ==> r == PhaseComplete(t, c)
  {
    if !(t.running && t.timeLeft > 0) then t
    else if t.timeLeft <= 1 then PhaseComplete(t, c)
    else t.(timeLeft := t.timeLeft - 1)
  }

  function Ticks(t: Timer, c: Config, n: nat): Timer
    decreases n
  {
    if n == 0 then t else Ticks(Tick(t, c), c, n - 1)
  }

  /** A paused timer stands still however many seconds pass, and pausing
      a timer that was just started puts it back as it was. */
  lemma {:induction false} PausedTimerStandsStill(t: Timer, c: Config, n: nat)
    ensures Ticks(Pause(t), c, n) == Pause(t)
    ensures !t.running ==> Pause(Start(t)) == t
    decreases n
  {
    if n > 0 {
      PausedTimerStandsStill(t, c, n - 1);
    }
  }

  /** A running phase with n seconds left lasts exactly n ticks: before that
      only the time changes, and the n-th tick completes the phase. */
  lemma {:induction false} PhaseLastsItsLength(t: Timer, c: Config, k: nat)
    requires t.running && k < t.timeLeft
    ensures Ticks(t, c, k) == t.(timeLeft := t.timeLeft - k)
    ensures Ticks(t, c, t.timeLeft) == PhaseComplete(t, c)
    decreases t.timeLeft
  {
    if t.timeLeft == 1 {
      assert Ticks(t, c, 1) == Ticks(Tick(t, c), c, 0);
    } else {
      var next := Tick(t, c);
      PhaseLastsItsLength(next, c, if k > 0 then k - 1 else 0);
      assert Ticks(t, c, t.timeLeft) == Ticks(next, c, next.timeLeft);
    }
  }

  /** The state after n phase completions. */
  function Completions(t: Timer, c: Config, n: nat): Timer
    decreases n
  {
    if n == 0 then t else Completions(PhaseComplete(t, c), c, n - 1)
  }

  /** The start of cycle j: a full study phase, stopped. */
  function CycleStart(c: Config, j: int): Timer
  {
    Timer(c.estudio * 60, false, Estudio, j, false)
  }

  /** From the start of cycle j, the session ends at the break of cycle
      `ciclos`: after 2·(ciclos − j) + 2 phase completions and not before. */
  lemma {:induction false} RemainingCycles(c: Config, j: int, n: nat)
    requires 1 <= j <= c.ciclos
    ensures n <= 2 * (c.ciclos - j) + 1 ==> !Completions(CycleStart(c, j), c, n).finished
    ensures Completions(CycleStart(c, j), c, 2 * (c.ciclos - j) + 2).finished
    decreases c.ciclos - j
  {
    var brk := PhaseComplete(CycleStart(c, j), c);
    assert Completions(CycleStart(c, j), c, 1) == brk;
    if j < c.ciclos {
      assert PhaseComplete(brk, c) == CycleStart(c, j + 1);
      RemainingCycles(c, j + 1, if n >= 2 then n - 2 else 0);
      if n >= 2 {
        assert Completions(CycleStart(c, j), c, n) == Completions(CycleStart(c, j + 1), c, n - 2);
      }
      assert Completions(CycleStart(c, j), c, 2 * (c.ciclos - j) + 2)
          == Completions(CycleStart(c, j + 1), c, 2 * (c.ciclos - (j + 1)) + 2);
    } else {
      assert Completions(brk, c, 1) == PhaseComplete(brk, c);
      assert Completions(CycleStart(c, j), c, 2) == Completions(brk, c, 1);
      assert Completions(CycleStart(c, j), c, 0) == CycleStart(c, j);
    }
  }

  /** From a reset, a session is `ciclos` study phases each followed by a
      break: it ends with exactly the 2·ciclos-th phase completion. */
  lemma SessionHasCiclosCycles(c: Config, n: nat)
    requires c.ciclos >= 1
    ensures n < 2 * c.ciclos ==> !Completions(Reset(c), c, n).finished
    ensures Completions(Reset(c), c, 2 * c.ciclos).finished
  {
    assert Reset(c) == CycleStart(c, 1);
    RemainingCycles(c, 1, n);
  }

  /** `formatTime`: zero-padded minutes, a colon, zero-padded seconds. Below
      100 minutes it is `mm:ss`, and the two numbers give back the seconds. */
  function FormatTime(seconds: nat): (r: string)
    ensures seconds < 6000 ==> |r| == 5 && r[2] == ':'
    ensures seconds < 6000 ==> AllDigits(r[..2]) && AllDigits(r[3..])
    ensures seconds < 6000 ==> DigitsValue(r[..2]) * 60 + DigitsValue(r[3..]) == seconds
  {
    var m, s := Pad2(seconds / 60), Pad2(seconds % 60);
    Pad2RoundTrip(seconds / 60);
    Pad2RoundTrip(seconds % 60);
    var r := m + ":" + s;
    assert seconds < 6000 ==> r[..2] == m && r[3..] == s;
    r
  }
}

=== FILE: profile_test_page.dfy ===
/** The learning-profile questionnaire (`pages/TestPerfilPage.jsx`): the
    answers object keyed by question id, the completeness test in front of
    submission, the payload sent, the retake, and the method descriptions. */
module ProfileTestPage {
  import opened Base
  import opened JsValue

  /** `respuestas`: its keys are question ids, which JavaScript enumerates
      in ascending numeric order whatever the order of insertion. The
      object is kept as (id, answer) entries with strictly ascending ids. */
  type Answers = seq<(nat, Val)>

  predicate Ordered(a: Answers)
  {
    forall i, j :: 0 <= i < j < |a| ==> a[i].0 < a[j].0
  }

  /** `respuestas[id]`: None when the key is absent. */
  function Lookup(a: Answers, id: nat): (r: Option<Val>)
    ensures r.Some? ==> (id, r.value) in a
    ensures r.None? ==> forall e :: e in a ==> e.0 != id
    decreases |a|
  {
    if |a| == 0 then None
    else if a[0].0 == id then Some(a[0].1)
    else Lookup(a[1..], id)
  }

  /** `{...prev, [id]: valor}`: the answer to one question is set, every
      other answer stays, and the keys stay in ascending order. */
  function SetAnswer(a: Answers, id: nat, valor: Val): (r: Answers)
    requires Ordered(a)
    ensures Ordered(r)
    ensures forall e :: e in r ==> e in a || e == (id, valor)
    ensures forall k :: Lookup(r, k) == if k == id then Some(valor) else Lookup(a, k)
    decreases |a|
  {
    if |a| == 0 then [(id, valor)]
    else if a[0].0 == id then [(id, valor)] + a[1..]
    else if id < a[0].0 then [(id, valor)] + a
    else
      var rest := SetAnswer(a[1..], id, valor);
      forall j | 0 <= j < |rest|
        ensures a[0].0 < rest[j].0
      {
        assert rest[j] in rest;
        if rest[j] in a[1..] {
          var m :| 0 <= m < |a[1..]| && a[1..][m] == rest[j];
          assert a[m + 1] == rest[j];
        }
      }
      var r := [a[0]] + rest;
      assert r[1..] == rest;
      r
  }

  /** The answers after loading the questions, and after a retake: every
      question id present, answered with null. */
  function Blank(ids: seq<nat>): (r: Answers)
    ensures Ordered(r)
    ensures forall k :: Lookup(r, k) == if k in ids then Some(Null) else None
    decreases |ids|
  {
    if |ids| == 0 then []
    else
      var n := |ids| - 1;
      var r := SetAnswer(Blank(ids[..n]), ids[n], Null);
      assert forall k :: k in ids <==> k in ids[..n] || k == ids[n] by {
        assert ids == ids[..n] + [ids[n]];
      }
      r
  }

  /** `todasRespondidas`: no answer is null or undefined. */
  predicate AllAnswered(a: Answers)
  {
    forall e :: e in a ==> !Nullish(e.1)
  }

  /** A fresh (or retaken) questionnaire counts as answered only when it has
      no questions at all. */
  lemma BlankIsUnanswered(ids: seq<nat>)
    ensures AllAnswered(Blank(ids)) <==> |ids| == 0
  {
    if |ids| > 0 {
      assert Lookup(Blank(ids), ids[0]) == Some(Null);
    } else {
      assert Blank(ids) == [];
    }
  }

  /** Answering a question never makes the questionnaire incomplete, and
      answering the only unanswered question completes it. */
  lemma AnsweringProgresses(a: Answers, id: nat, valor: Val)
    requires Ordered(a) && !Nullish(valor)
    ensures AllAnswered(a) ==> AllAnswered(SetAnswer(a, id, valor))
    ensures (forall e :: e in a && e.0 != id ==> !Nullish(e.1)) ==> AllAnswered(SetAnswer(a, id, valor))
  {
    var r := SetAnswer(a, id, valor);
    forall e | e in r && e.0 != id
      ensures e in a
    {
    }
  }

  /** One `{pregunta, valor}` pair of the payload, both read by `parseInt`;
      None stands for NaN. */
  datatype Pair = Pair(pregunta: Option<int>, valor: Option<int>)

  function ToPair(e: (nat, Val)): Pair
  {
    Pair(ParseInt(Num(e.0)), ParseInt(e.1))
  }

  /** `handleSubmit`: nothing is sent while an answer is missing; otherwise
      one pair per question in ascending id order, carrying the id itself
      and the answer read as an integer. */
  function Submit(a: Answers): (r: Option<seq<Pair>>)
    ensures r.Some? <==> AllAnswered(a)
    ensures r.Some? ==> |r.value| == |a|
    ensures r.Some? ==> forall i :: 0 <= i < |a| ==> r.value[i].pregunta == Some(a[i].0) && r.value[i].valor == ParseInt(a[i].1)
  {
    if !AllAnswered(a) then None
    else
      var pairs := Map(a, ToPair);
      forall i | 0 <= i < |a|
        ensures pairs[i].pregunta == Some(a[i].0)
      {
        ParseIntOfNum(a[i].0);
      }
      Some(pairs)
  }

  /** The answers a user can click are the numbers 1 to 5, and each reaches
      the server as that number. */
  lemma ClickedAnswersAreSent(a: Answers)
    requires forall e :: e in a ==> e.1.Num? && 1 <= e.1.n <= 5
    ensures Submit(a).Some?
    ensures forall i :: 0 <= i < |a| ==> Submit(a).value[i].valor == Some(a[i].1.n)
  {
    forall i | 0 <= i < |a|
      ensures ParseInt(a[i].1) == Some(a[i].1.n)
    {
      assert a[i] in a;
      ParseIntOfNum(a[i].1.n);
    }
  }

  /** The page state: the question ids, the answers, and the profile shown. */
  datatype Page = Page(ids: seq<nat>, respuestas: Answers, resultado: Val)

  /** The state after the questions load. */
  function Load(ids: seq<nat>): (p: Page)
    ensures p.ids == ids && p.resultado == Null
    ensures forall k :: Lookup(p.respuestas, k) == if k in ids then Some(Null) else None
  {
    Page(ids, Blank(ids), Null)
  }

  /** `handleActualizarTest`: the profile is hidden and the answers are
      reset to those of a fresh load. */
  function Retake(p: Page): (r: Page)
    ensures r.ids == p.ids && r.resultado == Null
    ensures forall k :: Lookup(r.respuestas, k) == if k in p.ids then Some(Null) else None
  {
    Page(p.ids, Blank(p.ids), Null)
  }

  /** Retaking returns the page to the state it had right after loading. */
  lemma RetakeIsFreshLoad(p: Page)
    ensures Retake(p) == Load(p.ids)
  {
  }

  const PomodoroText := "Técnica Pomodoro: Estudia en bloques cortos de 25 minutos con descansos regulares. Ideal para mantener la concentración y evitar el agotamiento."
  const FeynmanText := "Técnica Feynman: Explica los conceptos como si se los enseñaras a otra persona. Ideal para comprender profundamente los temas."
  const LeitnerText := "Técnica Leitner: Repasa conceptos usando tarjetas de memoria con intervalos espaciados. Ideal para memorizar fórmulas y definiciones."

  /** `getMetodoDescripcion`: a fixed text for the three known methods, and
      'Método ' followed by the name otherwise. */
  function Description(metodo: Val): (r: string)
    ensures metodo == Str("Pomodoro") ==> r == PomodoroText
    ensures metodo == Str("Feynman") ==> r == FeynmanText
    ensures metodo == Str("Leitner") ==> r == LeitnerText
    ensures ToJsString(metodo) != "Pomodoro" && ToJsString(metodo) != "Feynman" && ToJsString(metodo) != "Leitner"
      ==> r == "Método " + ToJsString(metodo)
  {
    var key := ToJsString(metodo);
    if key == "Pomodoro" then PomodoroText
    else if key == "Feynman" then FeynmanText
    else if key == "Leitner" then LeitnerText
    else "Método " + key
  }
}

=== FILE: recommendation_page.dfy ===
/** The study-method recommendation page (`pages/RecomendacionMetodoPage.jsx`):
    the search over the topics that have a difficulty, the selection, and the
    request for a recommendation with its two outcomes. */
module RecommendationPage {
  import opened Base
  import opened JsValue

  /** A topic is listed when the search occurs, ignoring case, in its topic
      name or in its course name. */
  predicate TopicMatches(t: Obj, busqueda: string)
  {
    LowerIncludes(Get(t, "tema_nombre"), busqueda) || LowerIncludes(Get(t, "curso_nombre"), busqueda)
  }

  function Matching(busqueda: string): Obj -> bool
  {
    (t: Obj) => TopicMatches(t, busqueda)
  }

  /** `temasFiltrados`, in list order. */
  function TopicsShown(temas: seq<Obj>, busqueda: string): (r: seq<Obj>)
    ensures forall t :: t in r <==> t in temas && TopicMatches(t, busqueda)
    ensures IsSubseq(r, temas)
  {
    var r := Filter(temas, Matching(busqueda));
    FilterIsSubseq(temas, Matching(busqueda));
    forall t
      ensures t in r <==> t in temas && TopicMatches(t, busqueda)
    {
      FilterMembers(temas, Matching(busqueda), t);
    }
    r
  }

  /** An empty search lists every topic. */
  lemma EmptySearchListsAll(temas: seq<Obj>)
    ensures TopicsShown(temas, "") == temas
  {
    forall t | t in temas
      ensures Matching("")(t)
    {
      EmptySearchMatches(Get(t, "tema_nombre"));
    }
    FilterKeepsAll(temas, Matching(""));
  }

  /** The selected topic, the recommendation shown and the error shown
      (null is `Null`). */
  datatype Page = Page(tema: Option<Obj>, recomendacion: Val, error: Val)

  /** `handleSeleccionarTema`: a new topic clears the old recommendation and
      any error. */
  function SelectTopic(p: Page, tema: Obj): (r: Page)
    ensures r == Page(Some(tema), Null, Null)
  {
    Page(Some(tema), Null, Null)
  }

  const NoTopicError := "Por favor, selecciona un tema primero."
  const RequestError := "Error al obtener la recomendación. Por favor, intenta nuevamente."

  /** The first half of `handleObtenerRecomendacion`: without a topic the
      page shows an error and calls nothing; otherwise it asks for a
      recommendation for the assignment's `tema` field, the topic's id. */
  function RequestFor(p: Page): (r: Result<Val, string>)
    ensures r.Err? <==> p.tema.None?
    ensures r.Err? ==> r.error == NoTopicError
    ensures r.Ok? ==> r.value == Get(p.tema.value, "tema")
  {
    match p.tema
    case None => Err(NoTopicError)
    case Some(t) => Ok(Get(t, "tema"))
  }

  /** The page after the button is pressed. `answer` is the server's reply:
      the result object, or the failure's `response.data.error` (undefined
      when absent). */
  function Obtain(p: Page, answer: Result<Obj, Val>): (r: Page)
    ensures r.tema == p.tema
    ensures p.tema.None? ==> r == p.(error := Str(NoTopicError))
    ensures p.tema.Some? && answer.Ok? ==> r.recomendacion == Get(answer.value, "recomendacion") && r.error == Null
    ensures p.tema.Some? && answer.Err? ==> r.recomendacion == p.recomendacion && r.error == Or(answer.error, Str(RequestError))
  {
    match RequestFor(p)
    case Err(msg) => p.(error := Str(msg))
    case Ok(_) =>
      match answer
      case Ok(res) => p.(recomendacion := Get(res, "recomendacion"), error := Null)
      case Err(e) => p.(error := Or(e, Str(RequestError)))
  }

  /** The request always names the topic picked last, by its topic id, and a
      failed request never shows the previous topic's recommendation. */
  lemma RequestFollowsSelection(p: Page, tema: Obj, e: Val)
    ensures RequestFor(SelectTopic(p, tema)) == Ok(Get(tema, "tema"))
    ensures Obtain(SelectTopic(p, tema), Err(e)).recomendacion == Null
    ensures Truthy(Obtain(SelectTopic(p, tema), Err(e)).error)
  {
  }
}

=== FILE: registration.dfy ===
/** The account rules of `Autenticacion/serializers.py`: the password criteria
    shared by registration and password reset, the institutional e-mail rule,
    the registration form checks, and the reset form checks. */
module Registration {
  import opened Base
  import opened Strings

  /** The first rule a password breaks, in the order the checks run. */
  datatype PasswordError = BadLength | NoUpper | NoLower | NoDigit | NoSpecial | HasSpace

  const Specials: string := "!\"#$%&'()*+,-./:;<=>?@[\\]^_`{|}~"

  predicate HasUpper(p: string)
  {
    exists i :: 0 <= i < |p| && 'A' <= p[i] <= 'Z'
  }

  predicate HasLower(p: string)
  {
    exists i :: 0 <= i < |p| && 'a' <= p[i] <= 'z'
  }

  predicate HasDigit(p: string)
  {
    exists i :: 0 <= i < |p| && IsDigit(p[i])
  }

  predicate HasSpecial(p: string)
  {
    exists i :: 0 <= i < |p| && p[i] in Specials
  }

  predicate HasBlank(p: string)
  {
    ' ' in p
  }

  /** The password passes every check. */
  predicate Strong(p: string)
  {
    8 <= |p| <= 20 && HasUpper(p) && HasLower(p) && HasDigit(p) && HasSpecial(p) && !HasBlank(p)
  }

  /** `criterios_password`: None when the password is accepted, otherwise the
      first failing rule. */
  function CriteriosPassword(p: string): (r: Option<PasswordError>)
    ensures r.None? <==> Strong(p)
    ensures r == Some(BadLength) <==> !(8 <= |p| <= 20)
    ensures r == Some(NoUpper) <==> 8 <= |p| <= 20 && !HasUpper(p)
    ensures r == Some(NoLower) <==> 8 <= |p| <= 20 && HasUpper(p) && !HasLower(p)
    ensures r == Some(NoDigit) <==> 8 <= |p| <= 20 && HasUpper(p) && HasLower(p) && !HasDigit(p)
    ensures r == Some(NoSpecial) <==>
      8 <= |p| <= 20 && HasUpper(p) && HasLower(p) && HasDigit(p) && !HasSpecial(p)
    ensures r == Some(HasSpace) <==>
      8 <= |p| <= 20 && HasUpper(p) && HasLower(p) && HasDigit(p) && HasSpecial(p) && HasBlank(p)
  {
    if |p| < 8 || |p| > 20 then Some(BadLength)
    else if !HasUpper(p) then Some(NoUpper)
    else if !HasLower(p) then Some(NoLower)
    else if !HasDigit(p) then Some(NoDigit)
    else if !HasSpecial(p) then Some(NoSpecial)
    else if HasBlank(p) then Some(HasSpace)
    else None
  }

  /** `validate_email`: registration e-mails must be institutional. */
  function ValidateEmail(email: string): (r: bool)
    ensures r ==> |email| >= |"@unmsm.edu.pe"| && email[|email| - 13..] == "@unmsm.edu.pe"
    ensures !r ==> !EndsWith(email, "@unmsm.edu.pe")
  {
    EndsWith(email, "@unmsm.edu.pe")
  }

  /** The registration form after field conversion: a missing key is absent,
      an empty value is the empty string. */
  type Form = map<string, string>

  const RequiredFields: seq<string> :=
    ["first_name", "username", "password", "confirmar_password", "email", "fecha_nacimiento", "escuela_profesional"]

  /** `not data.get(field)`. */
  predicate Blank(data: Form, field: string)
  {
    field !in data || data[field] == ""
  }

  /** `data.get(field)`. */
  function Lookup(data: Form, field: string): Option<string>
  {
    if field in data then Some(data[field]) else None
  }

  datatype FormError = Required(field: string) | Mismatch

  /** The first required field that is blank, scanning from position i. */
  function FirstBlank(data: Form, i: nat): (r: Option<string>)
    requires i <= |RequiredFields|
    ensures r.Some? ==> r.value in RequiredFields[i..] && Blank(data, r.value)
    ensures r.None? ==> forall j :: i <= j < |RequiredFields| ==> !Blank(data, RequiredFields[j])
    decreases |RequiredFields| - i
  {
    if i == |RequiredFields| then None
    else if Blank(data, RequiredFields[i]) then Some(RequiredFields[i])
    else FirstBlank(data, i + 1)
  }

  /** `RegistroUsuarioSerializer.validate`: required fields first, in order, then
      the password confirmation. */
  function ValidateRegistration(data: Form): (r: Option<FormError>)
    ensures r.None? <==>
      (forall f :: f in RequiredFields ==> !Blank(data, f))
      && Lookup(data, "password") == Lookup(data, "confirmar_password")
    ensures r.Some? && r.value.Required? ==> r.value.field in RequiredFields && Blank(data, r.value.field)
    ensures r == Some(Mismatch) ==> forall f :: f in RequiredFields ==> !Blank(data, f)
  {
    match FirstBlank(data, 0)
    case Some(f) => Some(Required(f))
    case None =>
      assert forall f :: f in RequiredFields ==> !Blank(data, f) by {
        forall f | f in RequiredFields
          ensures !Blank(data, f)
        {
          var j :| 0 <= j < |RequiredFields| && RequiredFields[j] == f;
        }
      }
      if Lookup(data, "password") != Lookup(data, "confirmar_password") then Some(Mismatch) else None
  }

  /** A blank field is reported in preference to a password mismatch. */
  lemma BlankBeforeMismatch(data: Form, f: string)
    requires f in RequiredFields && Blank(data, f)
    ensures ValidateRegistration(data).Some? && ValidateRegistration(data).value.Required?
  {
  }

  /** `create`: the confirmation is dropped before the user is built. */
  function CreateFields(validated: Form): (r: Form)
    ensures "confirmar_password" !in r
    ensures forall k :: k in r <==> k in validated && k != "confirmar_password"
    ensures forall k :: k in r ==> r[k] == validated[k]
  {
    validated - {"confirmar_password"}
  }

  /** The whole registration: the field validators (e-mail and password), and
      when both pass, the form checks. */
  datatype RegistrationError = EmailNotInstitutional | WeakPassword(e: PasswordError) | Form(f: FormError)

  /** The e-mail and password validators pass (a field that is absent is
      not validated on its own). */
  predicate FieldsPass(data: Form)
  {
    ("email" !in data || ValidateEmail(data["email"])) && ("password" !in data || Strong(data["password"]))
  }

  function Register(data: Form): (r: Result<Form, seq<RegistrationError>>)
    ensures r.Ok? ==> "password" in data && "email" in data && "confirmar_password" in data
    ensures r.Ok? ==> Strong(data["password"]) && EndsWith(data["email"], "@unmsm.edu.pe")
    ensures r.Ok? ==> data["password"] == data["confirmar_password"]
    ensures r.Ok? ==> r.value == CreateFields(data) && "confirmar_password" !in r.value
    ensures r.Ok? <==> FieldsPass(data) && ValidateRegistration(data).None?
  {
    var emailErr := if "email" in data && !ValidateEmail(data["email"]) then [EmailNotInstitutional] else [];
    var pwErr := if "password" in data && CriteriosPassword(data["password"]).Some?
                 then [WeakPassword(CriteriosPassword(data["password"]).value)] else [];
    if emailErr + pwErr != [] then Err(emailErr + pwErr)
    else match ValidateRegistration(data)
      case Some(f) => Err([Form(f)])
      case None =>
        assert "email" in RequiredFields && "password" in RequiredFields;
        assert "confirmar_password" in RequiredFields;
        Ok(CreateFields(data))
  }

  /** `SetNewPasswordSerializer.validate`: None when accepted. The fields' own
      bounds (8 to 64 characters) are checked first. */
  datatype ResetError = FieldLength | ResetMismatch | ResetWeak(e: PasswordError)

  function SetNewPassword(password: string, confirmar: string): (r: Option<ResetError>)
    ensures r.None? <==> password == confirmar && Strong(password)
    ensures r == Some(ResetMismatch) ==> password != confirmar
  {
    if !(8 <= |password| <= 64) || !(8 <= |confirmar| <= 64) then Some(FieldLength)
    else if password != confirmar then Some(ResetMismatch)
    else match CriteriosPassword(password)
      case Some(e) => Some(ResetWeak(e))
      case None => None
  }

  /** The reset field admits 64 characters, but anything longer than 20 is
      refused by the criteria, so no accepted password exceeds 20. */
  lemma ResetNeverAbove20(password: string, confirmar: string)
    requires 20 < |password| <= 64 && password == confirmar
    ensures SetNewPassword(password, confirmar) == Some(ResetWeak(BadLength))
  {
  }
}

=== FILE: scoring.dfy ===
/** `CalcularPuntuacionView.post` of `Gamificacion/views.py`: stars for the
    tasks due in a date range, plus a bonus for every whole Monday-to-Sunday
    week inside the range whose tasks were all finished on time. */
module Scoring {
  import opened Base
  import opened Strings
  import opened Dates
  import opened BackendModel

  /** `%m` of strptime: `1[0-2]|0[1-9]|[1-9]`. */
  function MonthField(t: string): (r: Option<int>)
    ensures r.Some? ==> 1 <= r.value <= 12
  {
    if |t| == 1 && '1' <= t[0] <= '9' then Some(DigitValue(t[0]))
    else if |t| == 2 && AllDigits(t) && 1 <= DigitsValue(t) <= 12 then Some(DigitsValue(t))
    else None
  }

  /** `%d` of strptime: `3[01]|[12]\d|0[1-9]|[1-9]| [1-9]`. */
  function DayField(t: string): (r: Option<int>)
    ensures r.Some? ==> 1 <= r.value <= 31
  {
    if |t| == 1 && '1' <= t[0] <= '9' then Some(DigitValue(t[0]))
    else if |t| == 2 && t[0] == ' ' && '1' <= t[1] <= '9' then Some(DigitValue(t[1]))
    else if |t| == 2 && AllDigits(t) && 1 <= DigitsValue(t) <= 31 then Some(DigitsValue(t))
    else None
  }

  /** `datetime.strptime(s, '%Y-%m-%d').date()`: four year digits, a month and a
      day of one or two digits, and a date that exists (year 1 at the earliest);
      None stands for the ValueError. */
  function ParseStrptime(s: string): (r: Option<int>)
  {
    if |s| >= 5 && AllDigits(s[..4]) && s[4] == '-' then
      var rest := s[5..];
      match IndexOf(rest, '-')
      case None => None
      case Some(k) =>
        var y := DigitsValue(s[..4]);
        var m := MonthField(rest[..k]);
        var d := DayField(rest[k + 1..]);
        if y >= 1 && m.Some? && d.Some? && d.value <= DaysInMonth(y, m.value)
        then Some(DayNumber(Civil(y, m.value, d.value)))
        else None
    else None
  }

  /** strptime accepts every strict `YYYY-MM-DD` date from year 1 on, with the
      same meaning. */
  lemma StrptimeAcceptsIso(s: string)
    requires ParseIso(s).Some? && s[..4] != "0000"
    ensures ParseStrptime(s) == ParseIso(s)
  {
    var rest := s[5..];
    assert rest[2] == '-';
    assert rest[..2] == s[5..7];
    assert rest[3..] == s[8..];
    assert IndexOf(rest, '-') == Some(2);
    if DigitsValue(s[..4]) == 0 {
      AllZeroDigits(s[..4]);
    }
  }

  lemma {:induction false} AllZeroDigits(s: string)
    requires AllDigits(s) && DigitsValue(s) == 0
    ensures forall i :: 0 <= i < |s| ==> s[i] == '0'
    decreases |s|
  {
    if |s| > 0 {
      AllZeroDigits(s[..|s| - 1]);
      assert forall i :: 0 <= i < |s| - 1 ==> s[i] == s[..|s| - 1][i];
    }
  }

  /** A date parameter of the request: missing or empty values are falsy. */
  predicate Given(v: Option<string>)
  {
    v.Some? && v.value != ""
  }

  /** The task is finished ('finalizado' or 'entregado'). */
  predicate Completed(t: Tarea)
  {
    t.estado.Some? && Done(t.estado.value.estado)
  }

  /** Finished no later than its due date. */
  predicate OnTime(t: Tarea)
  {
    Completed(t) && t.estado.value.fechaEstado <= t.fechaEntrega
  }

  /** A visible task due in [a, b]: the `fechaEntrega__range` filter. */
  predicate DueIn(t: Tarea, a: int, b: int)
  {
    t.visible && a <= t.fechaEntrega <= b
  }

  /** Stars of one task: 3 on time, 1 late, 0 unfinished. */
  function TaskStars(t: Tarea): (n: nat)
    ensures n > 0 <==> Completed(t)
    ensures n == 3 <==> OnTime(t)
  {
    if Completed(t) then (if t.estado.value.fechaEstado <= t.fechaEntrega then 3 else 1) else 0
  }

  /** Sum of the stars of a list of tasks. */
  function SumStars(ts: seq<Tarea>): nat
    decreases |ts|
  {
    if |ts| == 0 then 0 else SumStars(ts[..|ts| - 1]) + TaskStars(ts[|ts| - 1])
  }

  /** `fecha_inicio + (7 - weekday) % 7`: the first Monday on or after the start. */
  function FirstMonday(inicio: int): (r: int)
    ensures PyWeekday(r) == 0
    ensures inicio <= r <= inicio + 6
    ensures forall d :: inicio <= d < r ==> PyWeekday(d) != 0
  {
    inicio + (7 - PyWeekday(inicio)) % 7
  }

  /** `fecha_fin - (weekday + 1) % 7`: the last Sunday on or before the end. */
  function LastSunday(fin: int): (r: int)
    ensures PyWeekday(r) == 6
    ensures fin - 6 <= r <= fin
    ensures forall d :: r < d <= fin ==> PyWeekday(d) != 6
  {
    fin - (PyWeekday(fin) + 1) % 7
  }

  /** A week counts when it has a visible task due in it and every such task was
      finished by its due date. */
  predicate WeekComplete(tareas: seq<Tarea>, lunes: int)
  {
    (exists i :: 0 <= i < |tareas| && DueIn(tareas[i], lunes, lunes + 6))
    && forall i :: 0 <= i < |tareas| && DueIn(tareas[i], lunes, lunes + 6) ==> OnTime(tareas[i])
  }

  /** How many of the first k weeks from `lunes` are complete. */
  function CompleteWeeks(tareas: seq<Tarea>, lunes: int, k: nat): nat
  {
    if k == 0 then 0
    else CompleteWeeks(tareas, lunes, k - 1) + (if WeekComplete(tareas, lunes + 7 * (k - 1)) then 1 else 0)
  }

  /** How many Mondays `while semana <= fecha_domingo` visits. */
  function WeeksVisited(lunes: int, domingo: int): nat
  {
    if lunes > domingo then 0 else (domingo - lunes) / 7 + 1
  }

  /** Every visited week is a whole Monday-to-Sunday span inside [inicio, fin]. */
  lemma VisitedWeeksInside(inicio: int, fin: int, j: nat)
    requires j < WeeksVisited(FirstMonday(inicio), LastSunday(fin))
    ensures var w := FirstMonday(inicio) + 7 * j;
      PyWeekday(w) == 0 && inicio <= w && w + 6 <= fin
  {
    var lunes := FirstMonday(inicio);
    var domingo := LastSunday(fin);
    var w := lunes + 7 * j;
    WeekdayStep(lunes, j);
    WithinVisited(domingo - lunes, j);
    MondayToSunday(w, domingo);
  }

  /** The j-th visited Monday is not past the last Sunday. */
  lemma WithinVisited(span: int, j: nat)
    requires span >= 0 && j < span / 7 + 1
    ensures 7 * j <= span
  {
    DivUnique(span, 7, span / 7, span % 7);
    MulLe(7, j, span / 7);
  }

  /** A Sunday on or after a Monday is at least six days later. */
  lemma MondayToSunday(w: int, s: int)
    requires w <= s && PyWeekday(w) == 0 && PyWeekday(s) == 6
    ensures w + 6 <= s
  {
    var q := (w + 3) / 7;
    DivUnique(w + 3, 7, q, 0);
    if s - w < 6 {
      DivUnique(s + 3, 7, q, s - w);
    }
  }

  datatype Outcome =
    | BadRequest
    | Scored(total: nat, completadas: nat, estrellas: nat, semanas: nat)

  /** The whole request over the user's tasks. */
  method Score(tareas: seq<Tarea>, fechaInicio: Option<string>, fechaFin: Option<string>)
    returns (r: Outcome)
    ensures r.BadRequest? <==>
      !Given(fechaInicio) || !Given(fechaFin)
      || ParseStrptime(fechaInicio.value).None? || ParseStrptime(fechaFin.value).None?
    ensures r.Scored? ==>
      var a := ParseStrptime(fechaInicio.value).value;
      var b := ParseStrptime(fechaFin.value).value;
      && r.total == Count(tareas, (t: Tarea) => DueIn(t, a, b))
      && r.completadas == Count(tareas, (t: Tarea) => DueIn(t, a, b) && Completed(t))
      && r.semanas == CompleteWeeks(tareas, FirstMonday(a), WeeksVisited(FirstMonday(a), LastSunday(b)))
      && r.estrellas == SumStars(Filter(tareas, (t: Tarea) => DueIn(t, a, b))) + 2 * r.semanas
      && r.completadas <= r.total
      && r.estrellas <= 3 * r.total + 2 * r.semanas
  {
    if !Given(fechaInicio) || !Given(fechaFin) {
      return BadRequest;
    }
    var pa := ParseStrptime(fechaInicio.value);
    var pb := ParseStrptime(fechaFin.value);
    if pa.None? || pb.None? {
      return BadRequest;
    }
    var a, b := pa.value, pb.value;
    var due := Filter(tareas, (t: Tarea) => DueIn(t, a, b));
    var total, completadas, estrellas := TaskPass(due);
    FilterCount(tareas, (t: Tarea) => DueIn(t, a, b));
    CompletedAmongDue(tareas, a, b);
    var semanas := WeekPass(tareas, FirstMonday(a), LastSunday(b));
    r := Scored(total, completadas, estrellas + 2 * semanas, semanas);
  }

  /** The per-task loop over the tasks due in the range. */
  method TaskPass(due: seq<Tarea>) returns (total: nat, completadas: nat, estrellas: nat)
    ensures total == |due|
    ensures completadas == Count(due, Completed)
    ensures estrellas == SumStars(due)
    ensures completadas <= total && estrellas <= 3 * total
  {
    total := |due|;
    completadas, estrellas := 0, 0;
    var i := 0;
    while i < |due|
      invariant 0 <= i <= |due|
      invariant completadas == Count(due[..i], Completed)
      invariant estrellas == SumStars(due[..i])
      invariant completadas <= i && estrellas <= 3 * i
    {
      var t := due[i];
      CountSnoc(due[..i], t, Completed);
      assert due[..i + 1] == due[..i] + [t];
      assert due[..i + 1][..i] == due[..i];
      if t.estado.Some? && Done(t.estado.value.estado) {
        completadas := completadas + 1;
        if t.estado.value.fechaEstado <= t.fechaEntrega {
          estrellas := estrellas + 3;
        } else {
          estrellas := estrellas + 1;
        }
      }
      i := i + 1;
    }
    assert due[..i] == due;
  }

  /** The week loop: `semana` steps by seven days from the first Monday. */
  method WeekPass(tareas: seq<Tarea>, lunes: int, domingo: int) returns (semanas: nat)
    ensures semanas == CompleteWeeks(tareas, lunes, WeeksVisited(lunes, domingo))
    ensures semanas <= WeeksVisited(lunes, domingo)
  {
    semanas := 0;
    var semana := lunes;
    var k: nat := 0;
    while semana <= domingo
      invariant semana == lunes + 7 * k
      invariant lunes <= domingo ==> k <= WeeksVisited(lunes, domingo)
      invariant lunes > domingo ==> k == 0
      invariant semana <= domingo ==> k < WeeksVisited(lunes, domingo)
      invariant semanas == CompleteWeeks(tareas, lunes, k) && semanas <= k
      decreases domingo - semana
    {
      var complete := WeekCheck(tareas, semana);
      if complete {
        semanas := semanas + 1;
      }
      semana := semana + 7;
      k := k + 1;
    }
    assert k == WeeksVisited(lunes, domingo);
  }

  /** One week's check: `exists()`, then the loop that stops at the first task
      not finished on time. */
  method WeekCheck(tareas: seq<Tarea>, semana: int) returns (complete: bool)
    ensures complete == WeekComplete(tareas, semana)
  {
    var exists_ := false;
    var j := 0;
    while j < |tareas|
      invariant 0 <= j <= |tareas|
      invariant exists_ <==> exists i :: 0 <= i < j && DueIn(tareas[i], semana, semana + 6)
    {
      if DueIn(tareas[j], semana, semana + 6) {
        exists_ := true;
      }
      j := j + 1;
    }
    if !exists_ {
      return false;
    }
    complete := true;
    j := 0;
    while j < |tareas|
      invariant 0 <= j <= |tareas|
      invariant complete
      invariant forall i :: 0 <= i < j && DueIn(tareas[i], semana, semana + 6) ==> OnTime(tareas[i])
    {
      var t := tareas[j];
      if DueIn(t, semana, semana + 6) {
        if !(t.estado.Some? && Done(t.estado.value.estado)) {
          complete := false;
          break;
        }
        if t.estado.value.fechaEstado > t.fechaEntrega {
          complete := false;
          break;
        }
      }
      j := j + 1;
    }
  }

  /** Counting completed tasks among the due ones equals counting due-and-completed ones. */
  lemma {:induction false} CompletedAmongDue(tareas: seq<Tarea>, a: int, b: int)
    ensures Count(Filter(tareas, (t: Tarea) => DueIn(t, a, b)), Completed)
         == Count(tareas, (t: Tarea) => DueIn(t, a, b) && Completed(t))
    decreases |tareas|
  {
    if |tareas| > 0 {
      CompletedAmongDue(tareas[1..], a, b);
      var p := (t: Tarea) => DueIn(t, a, b);
      var f := Filter(tareas[1..], p);
      if p(tareas[0]) {
        assert Filter(tareas, p) == [tareas[0]] + f;
        assert ([tareas[0]] + f)[1..] == f;
      } else {
        assert Filter(tareas, p) == f;
      }
    }
  }
}

=== FILE: service_errors.dfy ===
/** The error handling shared by the HTTP services (`services/authService.js`,
    `services/userService.js`): how a failed request is turned into the
    message of the `Error` a service function throws, and the logout call,
    which never throws. The HTTP client is replaced by the outcome it
    delivers: the response body, or the failure it rejects with. */
module ServiceErrors {
  import opened Base
  import opened Strings
  import opened JsValue

  /** A rejected request: `error.response.data` (undefined when the server
      sent no response or no body) and `error.message`. */
  datatype Failure = Failure(data: Val, message: Val)

  /** `keys` is the order in which `Object.values` enumerates the body when
      it is a plain object: each of its keys exactly once. */
  predicate KeyOrder(data: Val, keys: seq<string>)
  {
    data.Rec? ==>
      && Distinct(keys)
      && (forall i :: 0 <= i < |keys| ==> keys[i] in data.fields)
      && (forall k :: k in data.fields ==> k in keys)
  }

  /** `Object.values(data)`: an array's elements, an object's values in key
      order. */
  function Values(data: Val, keys: seq<string>): (r: seq<Val>)
    requires KeyOrder(data, keys)
    ensures data.Rec? ==> |r| == |keys| && forall i :: 0 <= i < |keys| ==> r[i] == data.fields[keys[i]]
    ensures data.Arr? ==> r == data.items
  {
    match data
    case Rec(fields) => seq(|keys|, i requires 0 <= i < |keys| => fields[keys[i]])
    case Arr(items) => items
    case _ => []
  }

  /** `.flat()`: one level of nested arrays is spread in place. */
  function Flat(vs: seq<Val>): (r: seq<Val>)
    ensures forall v :: v in vs && !v.Arr? ==> v in r
    ensures forall v :: v in vs && v.Arr? ==> forall w :: w in v.items ==> w in r
    decreases |vs|
  {
    if |vs| == 0 then []
    else (if vs[0].Arr? then vs[0].items else [vs[0]]) + Flat(vs[1..])
  }

  /** `.join(' ')` of the flattened values. */
  function FieldErrors(vs: seq<Val>): string
  {
    var flat := Flat(vs);
    Join(seq(|flat|, i requires 0 <= i < |flat| => JoinElem(flat[i])), " ")
  }

  /** `getErrorMessage(error, defaultMessage)`. With a body: a truthy
      `detail`, else a truthy `message`, else a string body itself, else the
      non-empty joined field errors of a non-empty object. Failing all of
      these, `error.message`, else the caller's default. */
  function ErrorMessage(f: Failure, keys: seq<string>, dflt: string): (r: Val)
    requires KeyOrder(f.data, keys)
    ensures Truthy(Prop(f.data, "detail")) ==> r == Prop(f.data, "detail")
    ensures !Truthy(Prop(f.data, "detail")) && Truthy(Prop(f.data, "message")) ==> r == Prop(f.data, "message")
    ensures f.data.Str? && f.data.s != "" ==> r == f.data
    ensures (f.data.Rec? || f.data.Arr?) && !Truthy(Prop(f.data, "detail")) && !Truthy(Prop(f.data, "message"))
      && |Values(f.data, keys)| > 0 && FieldErrors(Values(f.data, keys)) != ""
      ==> r == Str(FieldErrors(Values(f.data, keys)))
    ensures !Truthy(f.data) ==> r == Or(f.message, Str(dflt))
    ensures Truthy(f.data) && !Truthy(Prop(f.data, "detail")) && !Truthy(Prop(f.data, "message")) && !f.data.Str?
      && !((f.data.Rec? || f.data.Arr?) && |Values(f.data, keys)| > 0 && FieldErrors(Values(f.data, keys)) != "")
      ==> r == Or(f.message, Str(dflt))
  {
    var d := f.data;
    if !Truthy(d) then Or(f.message, Str(dflt))
    else if Truthy(Prop(d, "detail")) then Prop(d, "detail")
    else if Truthy(Prop(d, "message")) then Prop(d, "message")
    else if d.Str? then d
    else if (d.Rec? || d.Arr?) && |Values(d, keys)| > 0 && FieldErrors(Values(d, keys)) != "" then
      Str(FieldErrors(Values(d, keys)))
    else Or(f.message, Str(dflt))
  }

  /** Joining with a non-empty separator is empty only for no parts or a
      single empty part. */
  lemma {:induction false} JoinEmpty(parts: seq<string>, sep: string)
    requires sep != ""
    ensures Join(parts, sep) == "" <==> |parts| == 0 || (|parts| == 1 && parts[0] == "")
    decreases |parts|
  {
    if |parts| > 1 {
      assert |parts[0] + sep + Join(parts[1..], sep)| >= |sep|;
    }
  }

  /** Every `Error` a service throws carries a non-empty message as long as
      the caller's default is non-empty. */
  lemma MessageNeverEmpty(f: Failure, keys: seq<string>, dflt: string)
    requires KeyOrder(f.data, keys) && dflt != ""
    ensures Truthy(ErrorMessage(f, keys, dflt))
  {
  }

  /** A validation body with two or more field messages always reaches the
      user as the joined field messages, unless it has `detail` or
      `message`. */
  lemma ManyFieldErrorsAreShown(f: Failure, keys: seq<string>, dflt: string)
    requires KeyOrder(f.data, keys) && (f.data.Rec? || f.data.Arr?)
    requires !Truthy(Prop(f.data, "detail")) && !Truthy(Prop(f.data, "message"))
    requires |Flat(Values(f.data, keys))| >= 2
    ensures ErrorMessage(f, keys, dflt) == Str(FieldErrors(Values(f.data, keys)))
  {
    var vs := Values(f.data, keys);
    var flat := Flat(vs);
    JoinEmpty(seq(|flat|, i requires 0 <= i < |flat| => JoinElem(flat[i])), " ");
  }

  /** An object body whose fields hold only empty lists gives no field
      message, so the user sees `error.message` or the default. */
  lemma EmptyFieldListsFallBack(f: Failure, keys: seq<string>, dflt: string)
    requires KeyOrder(f.data, keys) && f.data.Rec?
    requires forall k :: k in f.data.fields ==> f.data.fields[k] == Arr([])
    requires !Truthy(Prop(f.data, "detail")) && !Truthy(Prop(f.data, "message"))
    ensures ErrorMessage(f, keys, dflt) == Or(f.message, Str(dflt))
  {
    var vs := Values(f.data, keys);
    FlatOfEmptyLists(vs);
  }

  lemma {:induction false} FlatOfEmptyLists(vs: seq<Val>)
    requires forall i :: 0 <= i < |vs| ==> vs[i] == Arr([])
    ensures Flat(vs) == []
    decreases |vs|
  {
    if |vs| > 0 {
      FlatOfEmptyLists(vs[1..]);
    }
  }

  /** `new Error(m).message`: undefined gives the empty message, anything
      else its string form. */
  function ErrorText(m: Val): (r: string)
    ensures m.Str? ==> r == m.s
    ensures m == Undef ==> r == ""
  {
    if m == Undef then "" else ToJsString(m)
  }

  /** A service function (`loginUser`, `registerUser`, `getUserProfile`, …):
      the response body on success; on failure it throws an `Error` whose
      message is `getErrorMessage` with that function's default. */
  function Call(outcome: Result<Val, Failure>, keys: seq<string>, dflt: string): (r: Result<Val, string>)
    requires outcome.Err? ==> KeyOrder(outcome.error.data, keys)
    ensures outcome.Ok? <==> r.Ok?
    ensures outcome.Ok? ==> r.value == outcome.value
    ensures outcome.Err? ==> r.error == ErrorText(ErrorMessage(outcome.error, keys, dflt))
  {
    match outcome
    case Ok(body) => Ok(body)
    case Err(f) => Err(ErrorText(ErrorMessage(f, keys, dflt)))
  }

  /** With a non-empty default, the thrown message is never empty, unless
      the text picked is an empty array (whose string form is ''). */
  lemma ThrownMessageNonEmpty(f: Failure, keys: seq<string>, dflt: string)
    requires KeyOrder(f.data, keys) && dflt != ""
    requires !f.message.Arr? && !Prop(f.data, "detail").Arr? && !Prop(f.data, "message").Arr?
    ensures Call(Err(f), keys, dflt).error != ""
  {
    MessageNeverEmpty(f, keys, dflt);
    var m := ErrorMessage(f, keys, dflt);
    NonEmptyString(m);
  }

  /** The string form of a truthy non-array value is never empty. */
  lemma NonEmptyString(v: Val)
    requires Truthy(v) && !v.Arr?
    ensures ToJsString(v) != ""
  {
    if v.Num? {
      var n := v.n;
      if n >= 0 {
        assert |NatToDecimal(n)| > 0;
      }
    }
  }

  const TokenKey := "authToken"

  /** `logoutUser`: the stored token is removed before the server is asked,
      whatever it answers; a failure is swallowed and gives null. */
  function Logout(storage: map<string, string>, outcome: Result<Val, Failure>): (r: (map<string, string>, Val))
    ensures TokenKey !in r.0
    ensures forall k :: k in storage && k != TokenKey ==> k in r.0 && r.0[k] == storage[k]
    ensures r.0.Keys <= storage.Keys
    ensures outcome.Ok? ==> r.1 == outcome.value
    ensures outcome.Err? ==> r.1 == Null
  {
    var cleared := storage - {TokenKey};
    match outcome
    case Ok(body) => (cleared, body)
    case Err(_) => (cleared, Null)
  }

  /** Logging out twice leaves the same storage as logging out once, and a
      failed logout clears the session exactly as a successful one does. */
  lemma LogoutClearsEitherWay(storage: map<string, string>, body: Val, f: Failure)
    ensures Logout(storage, Ok(body)).0 == Logout(storage, Err(f)).0
    ensures Logout(Logout(storage, Err(f)).0, Ok(body)).0 == Logout(storage, Err(f)).0
  {
  }
}

=== FILE: settings_page.dfy ===
/** The settings page (`pages/SettingsPage.jsx`): the profile form and the
    payload it sends, and the four preference switches kept in the
    browser's storage. Storage holds the parsed JSON value here; the JSON
    text itself is not modelled. */
module SettingsPage {
  import opened Base
  import opened JsValue

  /** The profile form's fields. */
  datatype Profile = Profile(name: Val, username: Val, password: string, email: Val, career: Val, birthDate: Val)

  /** The form after the profile loads: each field from the server, '' when
      falsy; the password stays empty. */
  function Loaded(data: Obj): (p: Profile)
    ensures p.password == ""
    ensures p.name == Or(Get(data, "first_name"), Str("")) && p.username == Or(Get(data, "username"), Str(""))
    ensures p.email == Or(Get(data, "email"), Str("")) && p.career == Or(Get(data, "escuela_profesional"), Str(""))
    ensures p.birthDate == Or(Get(data, "fecha_nacimiento"), Str(""))
  {
    Profile(Or(Get(data, "first_name"), Str("")), Or(Get(data, "username"), Str("")), "",
      Or(Get(data, "email"), Str("")), Or(Get(data, "escuela_profesional"), Str("")),
      Or(Get(data, "fecha_nacimiento"), Str("")))
  }

  const ProfileKeys: set<string> := {"first_name", "username", "email", "escuela_profesional", "fecha_nacimiento"}

  /** The body of `updateUserProfile`: the five profile fields, and the
      password only when one was typed (`...(password && { password })`). */
  function Payload(p: Profile): (r: Obj)
    ensures "password" in r <==> p.password != ""
    ensures "password" in r ==> r["password"] == Str(p.password)
    ensures r.Keys == ProfileKeys + (if p.password != "" then {"password"} else {})
    ensures r["first_name"] == p.name && r["username"] == p.username && r["email"] == p.email
    ensures r["escuela_profesional"] == p.career && r["fecha_nacimiento"] == p.birthDate
  {
    var base := map["first_name" := p.name, "username" := p.username, "email" := p.email,
      "escuela_profesional" := p.career, "fecha_nacimiento" := p.birthDate];
    if p.password != "" then base["password" := Str(p.password)] else base
  }

  /** Saving a freshly loaded profile never sends a password, so it cannot
      reset one. */
  lemma LoadedProfileSendsNoPassword(data: Obj)
    ensures "password" !in Payload(Loaded(data))
  {
  }

  const Saved := "Perfil actualizado con éxito"
  const NotSaved := "Error al guardar los cambios"

  /** `handleProfileSubmit`: the alert after the request. */
  function SubmitAlert<E>(outcome: Result<Val, E>): (r: string)
    ensures outcome.Ok? <==> r == Saved
  {
    if outcome.Ok? then Saved else NotSaved
  }

  /** The four switches. */
  datatype Flag = AntiProcrastination | Notifications | Suggestions | DarkMode

  function Key(f: Flag): string
  {
    match f
    case AntiProcrastination => "antiProcrastination"
    case Notifications => "notifications"
    case Suggestions => "suggestions"
    case DarkMode => "darkMode"
  }

  /** The default of each switch. */
  function Default(f: Flag): bool
  {
    f == Notifications
  }

  /** The switches' state: the value each holds. */
  type Prefs = Flag -> Val

  /** The preferences read at start: `JSON.parse(stored) || {}`, then each
      flag's stored value, or its default when that is null or undefined.
      None is an absent entry. */
  function LoadPrefs(stored: Option<Val>): (p: Prefs)
    ensures forall f :: stored.None? ==> p(f) == Bool(Default(f))
    ensures forall f :: stored.Some? && !Truthy(stored.value) ==> p(f) == Bool(Default(f))
    ensures forall f :: stored.Some? && Truthy(stored.value) ==> p(f) == Coalesce(Prop(stored.value, Key(f)), Bool(Default(f)))
  {
    var obj := if stored.Some? && Truthy(stored.value) then stored.value else Rec(map[]);
    (f: Flag) => Coalesce(Prop(obj, Key(f)), Bool(Default(f)))
  }

  /** Without stored preferences: anti-procrastination off, notifications
      on, suggestions off, dark mode off. */
  lemma Defaults()
    ensures LoadPrefs(None)(AntiProcrastination) == Bool(false)
    ensures LoadPrefs(None)(Notifications) == Bool(true)
    ensures LoadPrefs(None)(Suggestions) == Bool(false)
    ensures LoadPrefs(None)(DarkMode) == Bool(false)
  {
  }

  /** `handlePreferencesSubmit`: the object stored, with exactly the four
      flags. */
  function SavePrefs(p: Prefs): (r: Val)
    ensures r.Rec? && r.fields.Keys == {"antiProcrastination", "notifications", "suggestions", "darkMode"}
    ensures forall f :: r.fields[Key(f)] == p(f)
  {
    Rec(map["antiProcrastination" := p(AntiProcrastination), "notifications" := p(Notifications),
      "suggestions" := p(Suggestions), "darkMode" := p(DarkMode)])
  }

  /** The switches hold booleans. */
  predicate Booleans(p: Prefs)
  {
    forall f :: p(f).Bool?
  }

  /** Reading back what was saved gives the same switches. */
  lemma SaveThenLoad(p: Prefs, f: Flag)
    requires Booleans(p)
    ensures LoadPrefs(Some(SavePrefs(p)))(f) == p(f)
  {
    assert p(f).Bool?;
  }

  /** The change handler of a switch: `setX(!x)`. */
  function Toggle(p: Prefs, which: Flag): (r: Prefs)
    ensures r(which) == Bool(!Truthy(p(which)))
    ensures forall f :: f != which ==> r(f) == p(f)
  {
    (f: Flag) => if f == which then Bool(!Truthy(p(which))) else p(f)
  }

  /** Flipping a switch twice restores it, and leaves the others alone. */
  lemma ToggleTwice(p: Prefs, which: Flag, f: Flag)
    requires p(which).Bool?
    ensures Toggle(Toggle(p, which), which)(f) == p(f)
  {
  }
}

=== FILE: sidebar.dfy ===
/** The navigation sidebar (`components/Sidebar.jsx`): which entry is
    highlighted for the current path, and the logout entry. */
module Sidebar {
  import opened Base
  import opened Strings
  import opened JsValue
  import ServiceErrors

  /** A sidebar entry: its route (none for the logout entry) and whether it
      is the logout entry. */
  datatype Item = Item(id: string, path: Option<string>, isLogout: bool)

  const NavItems: seq<Item> := [
    Item("dashboard", Some("/dashboard"), false),
    Item("calendario", Some("/calendar"), false),
    Item("tareas", Some("/tasks"), false),
    Item("modo", Some("/anti-procrastination"), false),
    Item("estadistica", Some("/analytics"), false),
    Item("configuracion", Some("/settings"), false)]

  const LogoutItem := Item("logout", None, true)

  /** `allNavItems`. */
  const AllItems: seq<Item> := NavItems + [LogoutItem]

  /** `isActive`: never the logout entry; otherwise the path is the entry's
      route, or merely starts with it (with no '/' boundary) when the route
      is not '/'. */
  predicate IsActive(item: Item, pathname: string)
  {
    !item.isLogout && item.path.Some? &&
    (pathname == item.path.value || (item.path.value != "" && item.path.value != "/" && StartsWith(pathname, item.path.value)))
  }

  /** The logout entry is never highlighted, an entry is highlighted on its
      own route, and also on any path extending its route's text. */
  lemma ActiveRules(item: Item, pathname: string, rest: string)
    ensures item.isLogout ==> !IsActive(item, pathname)
    ensures !item.isLogout && item.path == Some(pathname) ==> IsActive(item, pathname)
    ensures !item.isLogout && item.path.Some? && item.path.value != "" && item.path.value != "/"
      ==> IsActive(item, item.path.value + rest)
  {
    if item.path.Some? {
      assert (item.path.value + rest)[..|item.path.value|] == item.path.value;
    }
  }

  /** Because of the missing boundary, `/tasks-archive` highlights
      'Tareas'. */
  lemma RawPrefixHighlights()
    ensures IsActive(NavItems[2], "/tasks-archive")
  {
    ActiveRules(NavItems[2], "", "-archive");
  }

  /** Two prefixes of one string: the shorter is a prefix of the longer. */
  lemma PrefixesNest(p: string, a: string, b: string)
    requires StartsWith(p, a) && StartsWith(p, b) && |a| <= |b|
    ensures StartsWith(b, a)
  {
    assert b[..|a|] == p[..|b|][..|a|];
  }

  /** No route of the sidebar starts with another. */
  lemma RoutesApart(i: int, j: int)
    requires 0 <= i < |NavItems| && 0 <= j < |NavItems| && i != j
    requires |NavItems[i].path.value| <= |NavItems[j].path.value|
    ensures !StartsWith(NavItems[j].path.value, NavItems[i].path.value)
  {
    var a, b := NavItems[i].path.value, NavItems[j].path.value;
    assert a[1] != b[1] || a[2] != b[2] || a[3] != b[3];
  }

  /** At most one entry is highlighted, whatever the path: no route starts
      with another. */
  lemma AtMostOneActive(pathname: string, i: int, j: int)
    requires 0 <= i < |AllItems| && 0 <= j < |AllItems|
    requires IsActive(AllItems[i], pathname) && IsActive(AllItems[j], pathname)
    ensures i == j
  {
    if i != j {
      assert i < |NavItems| && j < |NavItems|;
      var a, b := NavItems[i].path.value, NavItems[j].path.value;
      assert StartsWith(pathname, a) by {
        assert pathname == a || StartsWith(pathname, a);
        if pathname == a {
          assert pathname[..|a|] == a;
        }
      }
      assert StartsWith(pathname, b) by {
        if pathname == b {
          assert pathname[..|b|] == b;
        }
      }
      if |a| <= |b| {
        PrefixesNest(pathname, a, b);
        RoutesApart(i, j);
      } else {
        PrefixesNest(pathname, b, a);
        RoutesApart(j, i);
      }
    }
  }

  /** What `handleLogout` does after the call: the alert shown and the
      route taken. */
  datatype Outcome = Outcome(alert: string, navigate: string)

  const LoggedOut := "Has cerrado sesión."
  const LoggedOutLocally := "Error al cerrar sesión, pero se ha limpiado la sesión local."

  /** `handleLogout`, given whether `logoutUser` resolved or threw: the
      alert differs, and both go to /login. */
  function HandleLogout(call: Result<Val, string>): (r: Outcome)
    ensures r.navigate == "/login"
    ensures call.Ok? <==> r.alert == LoggedOut
  {
    match call
    case Ok(_) => Outcome(LoggedOut, "/login")
    case Err(_) => Outcome(LoggedOutLocally, "/login")
  }

  /** `logoutUser` swallows server failures, so the user always sees the
      plain logout message and lands on /login with the token gone. */
  lemma LogoutAlwaysLooksClean(storage: map<string, string>, server: Result<Val, ServiceErrors.Failure>)
    ensures HandleLogout(Ok(ServiceErrors.Logout(storage, server).1)) == Outcome(LoggedOut, "/login")
    ensures ServiceErrors.TokenKey !in ServiceErrors.Logout(storage, server).0
  {
  }
}

=== FILE: sorting.dfy ===
/** String order and the one sort the system uses. Every sort in the backend
    (`sorted(..., key=...)`) and the client (`Array.prototype.sort` with
    `localeCompare`) orders records by a string key: a start time, a date.
    Both sorts are stable, so one stable insertion sort by key models them all. */
module StableSort {
  import opened Base

  /** Lexicographic order on character codes: `a <= b` on strings. */
  predicate StrLeq(a: string, b: string)
    decreases |a|
  {
    |a| == 0 || (|b| > 0 && (a[0] < b[0] || (a[0] == b[0] && StrLeq(a[1..], b[1..]))))
  }

  lemma {:induction false} StrLeqRefl(a: string)
    ensures StrLeq(a, a)
    decreases |a|
  {
    if |a| > 0 {
      StrLeqRefl(a[1..]);
    }
  }

  lemma {:induction false} StrLeqTotal(a: string, b: string)
    ensures StrLeq(a, b) || StrLeq(b, a)
    decreases |a|
  {
    if |a| > 0 && |b| > 0 && a[0] == b[0] {
      StrLeqTotal(a[1..], b[1..]);
    }
  }

  lemma {:induction false} StrLeqTrans(a: string, b: string, c: string)
    requires StrLeq(a, b) && StrLeq(b, c)
    ensures StrLeq(a, c)
    decreases |a|
  {
    if |a| > 0 && a[0] == b[0] && b[0] == c[0] {
      StrLeqTrans(a[1..], b[1..], c[1..]);
    }
  }

  lemma {:induction false} StrLeqAntisym(a: string, b: string)
    requires StrLeq(a, b) && StrLeq(b, a)
    ensures a == b
    decreases |a|
  {
    if |a| > 0 {
      StrLeqAntisym(a[1..], b[1..]);
      assert a == [a[0]] + a[1..];
      assert b == [b[0]] + b[1..];
    }
  }

  /** Keys never decrease along the sequence. */
  predicate SortedBy<T>(s: seq<T>, key: T -> string)
  {
    forall i, j :: 0 <= i < j < |s| ==> StrLeq(key(s[i]), key(s[j]))
  }

  /** The records whose key is exactly k, in their original order. */
  function WithKey<T>(s: seq<T>, key: T -> string, k: string): seq<T>
  {
    Filter(s, KeyIs(key, k))
  }

  function KeyIs<T>(key: T -> string, k: string): T -> bool
  {
    (x: T) => key(x) == k
  }

  /** Puts x in front of the first element whose key is not smaller than x's. */
  function Insert<T>(x: T, t: seq<T>, key: T -> string): (r: seq<T>)
    ensures multiset(r) == multiset(t) + multiset{x}
    ensures |r| == |t| + 1
    ensures SortedBy(t, key) ==> SortedBy(r, key)
    decreases |t|
  {
    if |t| == 0 then [x]
    else if StrLeq(key(x), key(t[0])) then
      InsertFront(x, t, key);
      [x] + t
    else
      var rest := Insert(x, t[1..], key);
      StrLeqTotal(key(x), key(t[0]));
      assert t == [t[0]] + t[1..];
      InsertBehind(x, t, key, rest);
      [t[0]] + rest
  }

  lemma InsertFront<T>(x: T, t: seq<T>, key: T -> string)
    requires |t| > 0 && StrLeq(key(x), key(t[0]))
    ensures SortedBy(t, key) ==> SortedBy([x] + t, key)
  {
    if SortedBy(t, key) {
      var r := [x] + t;
      forall i, j | 0 <= i < j < |r|
        ensures StrLeq(key(r[i]), key(r[j]))
      {
        if i == 0 {
          if j > 1 {
            StrLeqTrans(key(x), key(t[0]), key(t[j - 1]));
          }
        }
      }
    }
  }

  lemma InsertBehind<T>(x: T, t: seq<T>, key: T -> string, rest: seq<T>)
    requires |t| > 0 && StrLeq(key(t[0]), key(x))
    requires multiset(rest) == multiset(t[1..]) + multiset{x}
    requires SortedBy(t[1..], key) ==> SortedBy(rest, key)
    ensures SortedBy(t, key) ==> SortedBy([t[0]] + rest, key)
  {
    if SortedBy(t, key) {
      assert SortedBy(t[1..], key);
      var r := [t[0]] + rest;
      forall i, j | 0 <= i < j < |r|
        ensures StrLeq(key(r[i]), key(r[j]))
      {
        if i == 0 {
          var y := rest[j - 1];
          assert y in multiset(rest);
          if y != x {
            assert y in multiset(t[1..]);
            var k :| 0 <= k < |t[1..]| && t[1..][k] == y;
            assert t[k + 1] == y;
          }
        }
      }
    }
  }

  /** `sorted(s, key=key)`: a stable sort by a string key. */
  function SortByKey<T>(s: seq<T>, key: T -> string): (r: seq<T>)
    ensures multiset(r) == multiset(s)
    ensures |r| == |s|
    ensures SortedBy(r, key)
    decreases |s|
  {
    if |s| == 0 then []
    else
      assert s == [s[0]] + s[1..];
      Insert(s[0], SortByKey(s[1..], key), key)
  }

  /** Inserting x keeps the relative order of every key class: x lands in front
      of all other elements that share its key. */
  lemma {:induction false} InsertWithKey<T>(x: T, t: seq<T>, key: T -> string, k: string)
    ensures WithKey(Insert(x, t, key), key, k) == WithKey([x] + t, key, k)
    decreases |t|
  {
    var p := KeyIs(key, k);
    if |t| == 0 {
      assert [x] + t == [x];
    } else if !StrLeq(key(x), key(t[0])) {
      var rest := t[1..];
      InsertWithKey(x, rest, key, k);
      StrLeqRefl(key(x));
      assert !(p(t[0]) && p(x));
      PassOver(x, t[0], Insert(x, rest, key), rest, p);
      assert [t[0]] + rest == t;
    }
  }

  /** Moving x past y, which a filter cannot keep together with x, leaves
      the filtered sequence as it was. */
  lemma PassOver<T>(x: T, y: T, ins: seq<T>, rest: seq<T>, p: T -> bool)
    requires !(p(x) && p(y))
    requires Filter(ins, p) == Filter([x] + rest, p)
    ensures Filter([y] + ins, p) == Filter([x] + ([y] + rest), p)
  {
    FilterCons(y, ins, p);
    FilterCons(x, rest, p);
    FilterCons(y, rest, p);
    FilterCons(x, [y] + rest, p);
  }

  /** Stability: records with equal keys keep their original relative order. */
  lemma {:induction false} SortStable<T>(s: seq<T>, key: T -> string, k: string)
    ensures WithKey(SortByKey(s, key), key, k) == WithKey(s, key, k)
    decreases |s|
  {
    if |s| > 0 {
      var p := KeyIs(key, k);
      SortStable(s[1..], key, k);
      InsertWithKey(s[0], SortByKey(s[1..], key), key, k);
      FilterCons(s[0], SortByKey(s[1..], key), p);
      FilterCons(s[0], s[1..], p);
      assert [s[0]] + s[1..] == s;
    }
  }
}

=== FILE: stats_page.dfy ===
/** The statistics page (`pages/StatsPage.jsx`): the star history narrowed to
    the chosen weeks, and the star total. The two bounds are the date
    inputs' values ('' when unset). */
module StatsPage {
  import opened Base
  import opened JsValue
  import opened Dates
  import opened JsDate

  /** `semana >= ini` when the lower bound is set: `new Date('')` is never
      built, while an unparsable bound is an invalid date that no week
      reaches. */
  predicate AfterStart(semana: Option<int>, ini: string)
  {
    ini == "" || (semana.Some? && DateMs(Str(ini)).Some? && semana.value >= DateMs(Str(ini)).value)
  }

  predicate BeforeEnd(semana: Option<int>, fin: string)
  {
    fin == "" || (semana.Some? && DateMs(Str(fin)).Some? && semana.value <= DateMs(Str(fin)).value)
  }

  /** The filter test of one history entry. */
  predicate InRange(item: Obj, ini: string, fin: string)
  {
    (ini == "" && fin == "") ||
    (var semana := DateMs(Get(item, "semana_inicio")); AfterStart(semana, ini) && BeforeEnd(semana, fin))
  }

  function Within(ini: string, fin: string): Obj -> bool
  {
    (item: Obj) => InRange(item, ini, fin)
  }

  /** `estrellasFiltradas`: the entries in range, in history order. */
  function Filtered(h: seq<Obj>, ini: string, fin: string): (r: seq<Obj>)
    ensures forall x :: x in r <==> x in h && InRange(x, ini, fin)
    ensures IsSubseq(r, h)
  {
    var r := Filter(h, Within(ini, fin));
    FilterIsSubseq(h, Within(ini, fin));
    forall x
      ensures x in r <==> x in h && Within(ini, fin)(x)
    {
      FilterMembers(h, Within(ini, fin), x);
    }
    r
  }

  /** With neither bound the whole history is shown. */
  lemma NoBoundsKeepAll(h: seq<Obj>)
    ensures Filtered(h, "", "") == h
  {
    FilterKeepsAll(h, Within("", ""));
  }

  /** For weeks and bounds written as dates, an entry is kept exactly when
      its week lies between the bounds, both included, and an unset bound
      does not constrain. */
  lemma BoundsAreInclusiveDays(item: Obj, ini: string, fin: string)
    requires Get(item, "semana_inicio").Str? && ParseIso(Get(item, "semana_inicio").s).Some?
    requires ini != "" ==> ParseIso(ini).Some?
    requires fin != "" ==> ParseIso(fin).Some?
    ensures var w := ParseIso(Get(item, "semana_inicio").s).value;
      InRange(item, ini, fin) <==>
        (ini == "" || ParseIso(ini).value <= w) && (fin == "" || w <= ParseIso(fin).value)
  {
    var s := Get(item, "semana_inicio").s;
    if ini != "" {
      DateMsOrder(ini, s);
    }
    if fin != "" {
      DateMsOrder(s, fin);
    }
  }

  /** A bound that is not a date hides every entry. */
  lemma BadBoundHidesAll(h: seq<Obj>, ini: string, fin: string)
    requires ini != "" && ParseIso(ini).None?
    ensures Filtered(h, ini, fin) == []
  {
    forall x | x in h
      ensures !Within(ini, fin)(x)
    {
    }
    FilterNone(h, Within(ini, fin));
  }

  /** JavaScript's `a + b` on the values met in a reduce: a string on
      either side concatenates, otherwise both are read as numbers and an
      unreadable one gives NaN. */
  function Plus(a: Val, b: Val): (r: Val)
    ensures a.Num? && b.Num? ==> r == Num(a.n + b.n)
    ensures a == NaN && !b.Str? && !b.Arr? && !b.Rec? ==> r == NaN
    ensures !a.Str? && !a.Arr? && !a.Rec? && b == Undef ==> r == NaN
    ensures !a.Str? && !a.Arr? && !a.Rec? && !b.Str? && !b.Arr? && !b.Rec? ==> r.Num? || r == NaN
  {
    if a.Str? || b.Str? || a.Arr? || b.Arr? || a.Rec? || b.Rec? then Str(ToJsString(a) + ToJsString(b))
    else match (ToNumber(a), ToNumber(b))
      case (Some(x), Some(y)) => Num(x + y)
      case _ => NaN
  }

  /** `Number(v)` for a primitive that is not a string; None is NaN. */
  function ToNumber(v: Val): Option<int>
  {
    match v
    case Null => Some(0)
    case Bool(b) => Some(if b then 1 else 0)
    case Num(n) => Some(n)
    case _ => None
  }

  /** `historialEstrellas.reduce((acc, item) => acc + item.estrellas, 0)`. */
  function Total(h: seq<Obj>): Val
    decreases |h|
  {
    if |h| == 0 then Num(0) else Plus(Total(h[..|h| - 1]), Get(h[|h| - 1], "estrellas"))
  }

  /** Every entry carries a number of stars. */
  predicate Counted(h: seq<Obj>)
  {
    forall i :: 0 <= i < |h| ==> Get(h[i], "estrellas").Num?
  }

  /** The stars of the history, added up. */
  function StarSum(h: seq<Obj>): int
    requires Counted(h)
    decreases |h|
  {
    if |h| == 0 then 0 else StarSum(h[..|h| - 1]) + Get(h[|h| - 1], "estrellas").n
  }

  /** `totalEstrellas`: with numeric stars, the sum over the whole history,
      whatever the date filter shows. */
  lemma {:induction false} TotalIsSum(h: seq<Obj>)
    requires Counted(h)
    ensures Total(h) == Num(StarSum(h))
    decreases |h|
  {
    if |h| > 0 {
      TotalIsSum(h[..|h| - 1]);
    }
  }

  /** One entry without stars turns the total into NaN, and it stays so. */
  lemma {:induction false} MissingStarsPoisonTotal(h: seq<Obj>, k: int)
    requires 0 <= k < |h| && Get(h[k], "estrellas") == Undef
    requires forall i :: 0 <= i < |h| ==> !Get(h[i], "estrellas").Str? && !Get(h[i], "estrellas").Arr? && !Get(h[i], "estrellas").Rec?
    ensures Total(h) == NaN
    decreases |h|
  {
    var n := |h| - 1;
    var prefix := h[..n];
    assert forall i :: 0 <= i < |prefix| ==> prefix[i] == h[i];
    assert Total(h) == Plus(Total(prefix), Get(h[n], "estrellas"));
    if k < n {
      MissingStarsPoisonTotal(prefix, k);
    } else {
      TotalNeverText(prefix);
    }
  }

  /** Without textual stars the running total is never a string. */
  lemma {:induction false} TotalNeverText(h: seq<Obj>)
    requires forall i :: 0 <= i < |h| ==> !Get(h[i], "estrellas").Str? && !Get(h[i], "estrellas").Arr? && !Get(h[i], "estrellas").Rec?
    ensures Total(h).Num? || Total(h) == NaN
    decreases |h|
  {
    if |h| > 0 {
      var prefix := h[..|h| - 1];
      assert forall i :: 0 <= i < |prefix| ==> prefix[i] == h[i];
      TotalNeverText(prefix);
    }
  }

  /** With non-negative stars, the stars of the weeks shown never exceed
      the total. */
  lemma {:induction false} ShownStarsWithinTotal(h: seq<Obj>, ini: string, fin: string)
    requires forall i :: 0 <= i < |h| ==> Get(h[i], "estrellas").Num? && Get(h[i], "estrellas").n >= 0
    ensures Counted(Filtered(h, ini, fin))
    ensures StarSum(Filtered(h, ini, fin)) <= StarSum(h)
    decreases |h|
  {
    var f := Filtered(h, ini, fin);
    forall i | 0 <= i < |f|
      ensures Get(f[i], "estrellas").Num?
    {
      assert f[i] in h;
    }
    if |h| > 0 {
      var n := |h| - 1;
      var prefix := h[..n];
      ShownStarsWithinTotal(prefix, ini, fin);
      FilterAppend(prefix, [h[n]], Within(ini, fin));
      assert prefix + [h[n]] == h;
      FilterCons(h[n], [], Within(ini, fin));
      assert [h[n]] + [] == [h[n]];
      var fp := Filtered(prefix, ini, fin);
      if InRange(h[n], ini, fin) {
        assert f == fp + [h[n]];
        assert f[..|f| - 1] == fp;
      } else {
        assert f == fp;
      }
    }
  }
}

=== FILE: status_chart.dfy ===
/** The task-state pie chart of the client (`components/GlobalStatusChart.jsx`):
    the same five buckets as the backend's weekly view, filled by a simpler
    rule (every task lands in exactly one), and the legend's percentages. */
module StatusChart {
  import opened Base
  import opened JsValue
  import opened StableSort
  import WeeklyStatus

  type Bucket = WeeklyStatus.Bucket
  type Counters = WeeklyStatus.Counters

  /** `a < b` on two strings: code-unit order, and not equal. */
  predicate StrLess(a: string, b: string)
  {
    StrLeq(a, b) && a != b
  }

  /** `fechaEntrega < today`. A string, an array or an object converts to a
      string and the two compare as strings; any other value converts to a
      number, `today` converts to NaN, and the comparison is false. */
  predicate Vencida(fechaEntrega: Val, today: string)
  {
    (fechaEntrega.Str? || fechaEntrega.Arr? || fechaEntrega.Rec?) && StrLess(ToJsString(fechaEntrega), today)
  }

  /** The counter a task increments: a missing state is 'inicio'; any state
      other than 'en_desarrollo' and 'finalizado' (such as 'entregado')
      counts as to do; the other two split on whether the task is overdue. */
  function Classify(task: Obj, today: string): (b: Bucket)
    ensures var estado := Or(Get(task, "estado"), Str("inicio"));
      (b == WeeklyStatus.PorHacer <==> estado != Str("en_desarrollo") && estado != Str("finalizado"))
    ensures b == WeeklyStatus.EnProcesoFuera <==> Get(task, "estado") == Str("en_desarrollo") && Vencida(Get(task, "fechaEntrega"), today)
    ensures b == WeeklyStatus.EnProcesoDentro <==> Get(task, "estado") == Str("en_desarrollo") && !Vencida(Get(task, "fechaEntrega"), today)
    ensures b == WeeklyStatus.FinalizadoFuera <==> Get(task, "estado") == Str("finalizado") && Vencida(Get(task, "fechaEntrega"), today)
    ensures b == WeeklyStatus.FinalizadoDentro <==> Get(task, "estado") == Str("finalizado") && !Vencida(Get(task, "fechaEntrega"), today)
  {
    var estado := Or(Get(task, "estado"), Str("inicio"));
    var vencida := Vencida(Get(task, "fechaEntrega"), today);
    if estado == Str("inicio") then WeeklyStatus.PorHacer
    else if estado == Str("en_desarrollo") then (if vencida then WeeklyStatus.EnProcesoFuera else WeeklyStatus.EnProcesoDentro)
    else if estado == Str("finalizado") then (if vencida then WeeklyStatus.FinalizadoFuera else WeeklyStatus.FinalizadoDentro)
    else WeeklyStatus.PorHacer
  }

  /** A delivered task, and a task without a state, are drawn as to do. */
  lemma DeliveredCountsAsToDo(task: Obj, today: string)
    requires Get(task, "estado") == Str("entregado") || !Truthy(Get(task, "estado"))
    ensures Classify(task, today) == WeeklyStatus.PorHacer
  {
  }

  function InBucket(today: string, b: Bucket): Obj -> bool
  {
    (t: Obj) => Classify(t, today) == b
  }

  /** The counters after `allTasks.forEach`: every task adds one to its
      bucket, so the counters add up to the number of tasks. */
  function Counts(tasks: seq<Obj>, today: string): (c: Counters)
    ensures c.Sum() == |tasks|
    decreases |tasks|
  {
    if |tasks| == 0 then WeeklyStatus.Zero
    else Counts(tasks[1..], today).Add(Classify(tasks[0], today))
  }

  /** Each counter is the number of tasks in its bucket. */
  lemma {:induction false} CountsPerBucket(tasks: seq<Obj>, today: string, b: Bucket)
    ensures Counts(tasks, today).Get(b) == Count(tasks, InBucket(today, b))
    decreases |tasks|
  {
    if |tasks| > 0 {
      CountsPerBucket(tasks[1..], today, b);
    }
  }

  /** `total ? Math.round(value / total * 100) : 0`, with the rounding done
      on exact fractions (half rounds up, as `Math.round` does). */
  function Percent(value: nat, total: nat): (p: nat)
    ensures total == 0 ==> p == 0
    ensures total > 0 && value <= total ==> p <= 100
    ensures total > 0 ==> 2 * total * p <= 200 * value + total < 2 * total * (p + 1)
  {
    if total == 0 then 0
    else
      var p := (200 * value + total) / (2 * total);
      PercentBound(value, total, p);
      p
  }

  lemma PercentBound(value: nat, total: nat, p: int)
    requires total > 0 && p == (200 * value + total) / (2 * total)
    ensures p >= 0
    ensures 2 * total * p <= 200 * value + total < 2 * total * (p + 1)
    ensures value <= total ==> p <= 100
  {
    var d, n := 2 * total, 200 * value + total;
    DivUnique(n, d, p, n % d);
    if value <= total && p > 100 {
      MulLe(d, 101, p);
      assert false;
    }
  }

  datatype Entry = Entry(key: Bucket, caption: string, value: nat, percent: nat)

  function Label(b: Bucket): string
  {
    match b
    case PorHacer => "Por hacer"
    case EnProcesoDentro => "En proceso dentro de la fecha"
    case EnProcesoFuera => "En proceso fuera de la fecha"
    case FinalizadoDentro => "Finalizado dentro de la fecha"
    case FinalizadoFuera => "Finalizado fuera de la fecha"
  }

  /** The counters' keys in the order the object literal lists them. */
  const Order: seq<Bucket> := [WeeklyStatus.PorHacer, WeeklyStatus.EnProcesoDentro, WeeklyStatus.EnProcesoFuera,
    WeeklyStatus.FinalizadoDentro, WeeklyStatus.FinalizadoFuera]

  /** `chartData`: one entry per counter, in the fixed key order. */
  function ChartData(c: Counters): (r: seq<Entry>)
    ensures |r| == 5
    ensures forall i :: 0 <= i < 5 ==> r[i].key == Order[i] && r[i].caption == Label(Order[i])
    ensures forall i :: 0 <= i < 5 ==> r[i].value == c.Get(Order[i])
    ensures forall i :: 0 <= i < 5 ==> r[i].percent == Percent(c.Get(Order[i]), c.Sum())
  {
    seq(5, i requires 0 <= i < 5 => Entry(Order[i], Label(Order[i]), c.Get(Order[i]), Percent(c.Get(Order[i]), c.Sum())))
  }

  /** Whatever the counters, the entries' values add up to their total and
      every percent is at most 100; with no tasks every percent is 0. */
  lemma ChartOfCounters(c: Counters)
    ensures var r := ChartData(c);
      r[0].value + r[1].value + r[2].value + r[3].value + r[4].value == c.Sum()
    ensures forall i :: 0 <= i < 5 ==> ChartData(c)[i].percent <= 100
    ensures c.Sum() == 0 ==> forall i :: 0 <= i < 5 ==> ChartData(c)[i].percent == 0
  {
    var r := ChartData(c);
    forall i | 0 <= i < 5
      ensures r[i].percent <= 100
    {
      assert c.Get(Order[i]) <= c.Sum();
    }
  }

  /** The chart of a task list: five entries whose values add up to the
      number of tasks; with no tasks every percent is 0. */
  lemma ChartOfTasks(tasks: seq<Obj>, today: string)
    ensures var r := ChartData(Counts(tasks, today));
      r[0].value + r[1].value + r[2].value + r[3].value + r[4].value == |tasks|
    ensures |tasks| == 0 ==> forall e :: e in ChartData(Counts(tasks, today)) ==> e.percent == 0
  {
    var c := Counts(tasks, today);
    ChartOfCounters(c);
  }
}

=== FILE: strings.dfy ===
/** String operations of JavaScript and Python used by the models, on `seq<char>`:
    slicing, prefix/suffix/substring tests, ASCII lower-casing, joining,
    decimal rendering with zero padding, and parsing back. */
module Strings {
  import opened Base

  /** `s.slice(0, n)` for n >= 0: the first n characters, or all of s when shorter. */
  function Take(s: string, n: nat): (r: string)
    ensures |r| == if |s| < n then |s| else n
    ensures r == s[..|r|]
  {
    if |s| <= n then s else s[..n]
  }

  /** `s.startsWith(p)`. */
  predicate StartsWith(s: string, p: string)
  {
    |p| <= |s| && s[..|p|] == p
  }

  /** `s.endswith(p)` / `s.endsWith(p)`. */
  predicate EndsWith(s: string, p: string)
  {
    |p| <= |s| && s[|s| - |p|..] == p
  }

  /** `h.includes(n)`: n occurs in h at some position (the empty string occurs everywhere). */
  predicate Contains(h: string, n: string)
    decreases |h|
  {
    StartsWith(h, n) || (|h| > 0 && Contains(h[1..], n))
  }

  lemma {:induction false} EmptyIsContained(h: string)
    ensures Contains(h, "")
  {
    assert StartsWith(h, "");
  }

  /** `s.index(c)` / `s.indexOf(c)`: the first position of c, None when absent. */
  function IndexOf(s: string, c: char): (r: Option<nat>)
    ensures r.Some? ==> r.value < |s| && s[r.value] == c && forall j :: 0 <= j < r.value ==> s[j] != c
    ensures r.None? ==> c !in s
    decreases |s|
  {
    if |s| == 0 then None
    else if s[0] == c then Some(0)
    else match IndexOf(s[1..], c)
      case None => None
      case Some(k) => Some(k + 1)
  }

  /** Lower-cases A-Z and leaves every other character alone. */
  function LowerChar(c: char): char
  {
    if 'A' <= c <= 'Z' then (c as int + 32) as char else c
  }

  function LowerAscii(s: string): (r: string)
    ensures |r| == |s|
    ensures forall i :: 0 <= i < |s| ==> r[i] == LowerChar(s[i])
  {
    seq(|s|, i requires 0 <= i < |s| => LowerChar(s[i]))
  }

  /** `parts.join(sep)`. */
  function Join(parts: seq<string>, sep: string): string
    decreases |parts|
  {
    if |parts| == 0 then ""
    else if |parts| == 1 then parts[0]
    else parts[0] + sep + Join(parts[1..], sep)
  }

  /** `c` repeated n times. */
  function Repeat(c: char, n: nat): (r: string)
    ensures |r| == n
    ensures forall i :: 0 <= i < n ==> r[i] == c
  {
    if n == 0 then "" else [c] + Repeat(c, n - 1)
  }

  /** `s.padStart(width, c)`. */
  function PadStart(s: string, width: nat, c: char): (r: string)
    ensures |r| == if |s| < width then width else |s|
  {
    if |s| >= width then s else Repeat(c, width - |s|) + s
  }

  predicate IsDigit(c: char)
  {
    '0' <= c <= '9'
  }

  predicate AllDigits(s: string)
  {
    forall i :: 0 <= i < |s| ==> IsDigit(s[i])
  }

  function DigitChar(d: nat): (c: char)
    requires d < 10
    ensures IsDigit(c)
  {
    ('0' as int + d) as char
  }

  function DigitValue(c: char): (d: nat)
    requires IsDigit(c)
    ensures d < 10
  {
    c as int - '0' as int
  }

  /** Decimal rendering of a natural number without leading zeros: `String(n)`. */
  function NatToDecimal(n: nat): (r: string)
    ensures 1 <= |r|
    ensures AllDigits(r)
    ensures |r| == 1 <==> n < 10
    decreases n
  {
    if n < 10 then [DigitChar(n)] else NatToDecimal(n / 10) + [DigitChar(n % 10)]
  }

  /** The value of a string of decimal digits (leading zeros allowed). */
  function DigitsValue(s: string): nat
    requires AllDigits(s)
    decreases |s|
  {
    if |s| == 0 then 0 else DigitsValue(s[..|s| - 1]) * 10 + DigitValue(s[|s| - 1])
  }

  /** Reading back a rendered number gives the number. */
  lemma {:induction false} DecimalRoundTrip(n: nat)
    ensures DigitsValue(NatToDecimal(n)) == n
    decreases n
  {
    var r := NatToDecimal(n);
    if n >= 10 {
      DecimalRoundTrip(n / 10);
      assert r[..|r| - 1] == NatToDecimal(n / 10);
    }
  }

  /** Leading zeros do not change the value of a digit string. */
  lemma {:induction false} LeadingZeros(k: nat, s: string)
    requires AllDigits(s)
    ensures AllDigits(Repeat('0', k) + s)
    ensures DigitsValue(Repeat('0', k) + s) == DigitsValue(s)
    decreases |s|
  {
    var z := Repeat('0', k);
    assert AllDigits(z + s);
    if |s| == 0 {
      assert z + s == z;
      AllZeros(k);
    } else {
      var t := z + s;
      assert t[..|t| - 1] == z + s[..|s| - 1];
      LeadingZeros(k, s[..|s| - 1]);
    }
  }

  lemma {:induction false} AllZeros(k: nat)
    ensures AllDigits(Repeat('0', k))
    ensures DigitsValue(Repeat('0', k)) == 0
    decreases k
  {
    if k > 0 {
      var z := Repeat('0', k);
      assert z[..|z| - 1] == Repeat('0', k - 1) by {
        assert forall i :: 0 <= i < k - 1 ==> z[i] == '0';
      }
      AllZeros(k - 1);
    }
  }

  /** `String(n).padStart(2, '0')`. */
  function Pad2(n: nat): (r: string)
    ensures AllDigits(r)
    ensures n < 100 ==> |r| == 2
    ensures |r| >= 2
  {
    PadStart(NatToDecimal(n), 2, '0')
  }

  /** Reading back a zero-padded number gives the number. */
  lemma Pad2RoundTrip(n: nat)
    ensures DigitsValue(Pad2(n)) == n
  {
    var d := NatToDecimal(n);
    DecimalRoundTrip(n);
    if |d| < 2 {
      LeadingZeros(2 - |d|, d);
    }
  }

  /** Characters JavaScript's parseInt skips before the number: the white
      space and line terminators of section 12.2 and 12.3 of ECMA-262 (tab,
      vertical tab, form feed, the byte-order mark, the space separators of
      Unicode category Zs, line feed, carriage return and the line and
      paragraph separators). */
  predicate IsJsSpace(c: char)
  {
    c == ' ' || c == '\t' || c == '\n' || c == '\r' || c == '\U{0B}' || c == '\U{0C}'
    || c == '\U{A0}' || c == '\U{FEFF}' || c == '\U{1680}' || '\U{2000}' <= c <= '\U{200A}'
    || c == '\U{2028}' || c == '\U{2029}' || c == '\U{202F}' || c == '\U{205F}' || c == '\U{3000}'
  }

  function TrimStart(s: string): (r: string)
    ensures |r| <= |s|
    ensures |r| > 0 ==> !IsJsSpace(r[0])
    decreases |s|
  {
    if |s| > 0 && IsJsSpace(s[0]) then TrimStart(s[1..]) else s
  }

  /** Length of the longest all-digit prefix. */
  function DigitPrefixLength(s: string): (n: nat)
    ensures n <= |s|
    ensures AllDigits(s[..n])
    ensures n < |s| ==> !IsDigit(s[n])
    decreases |s|
  {
    if |s| > 0 && IsDigit(s[0]) then
      var k := 1 + DigitPrefixLength(s[1..]);
      assert s[..k] == [s[0]] + s[1..][..k - 1];
      k
    else 0
  }

  /** `parseInt(s, 10)`: optional sign then the longest digit prefix, after leading
      white space; None stands for NaN (no digit where the number should start). */
  function ParseIntPrefix(s: string): (r: Option<int>)
  {
    var t := TrimStart(s);
    var neg := |t| > 0 && t[0] == '-';
    var u := if |t| > 0 && (t[0] == '-' || t[0] == '+') then t[1..] else t;
    var n := DigitPrefixLength(u);
    if n == 0 then None
    else
      var v: int := DigitsValue(u[..n]);
      var value: int := if neg then -v else v;
      Some(value)
  }

  /** parseInt reads back what String(n) wrote. */
  lemma ParseIntOfDecimal(n: nat)
    ensures ParseIntPrefix(NatToDecimal(n)) == Some(n)
  {
    var d := NatToDecimal(n);
    assert TrimStart(d) == d;
    DigitPrefixAll(d);
    assert d[..|d|] == d;
    DecimalRoundTrip(n);
  }

  lemma {:induction false} DigitPrefixAll(s: string)
    requires AllDigits(s)
    ensures DigitPrefixLength(s) == |s|
    decreases |s|
  {
    if |s| > 0 {
      DigitPrefixAll(s[1..]);
    }
  }
}

=== FILE: suggestions.dfy ===
/** The suggestion rules of `Notificacion/utils.py` that run after a calendar
    record is created: an overload warning for a day with more than ten hours
    of academic work, and, for a new task, a warning when its realization
    order contradicts its delivery order against another task. The e-mail
    itself is an effect; the model returns the suggestions that would be sent. */
module Suggestions {
  import opened Base
  import opened BackendModel

  datatype Suggestion =
    | Overload(day: int)
    | Reorder(masUrgente: string, otra: string)

  /** `hasattr(actividad, "fechaRealizacion")` holds only for a Tarea. */
  function Day(a: Activity): (d: int)
    ensures a.kind == KTarea ==> d == a.fechaRealizacion
    ensures a.kind != KTarea ==> d == a.fecha
  {
    if a.kind == KTarea then a.fechaRealizacion else a.fecha
  }

  /** The records the overload rule reads for a day: the tasks realised that
      day and the classes and study sessions on it. */
  predicate LoadsDay(a: Activity, day: int)
  {
    match a.kind
    case KTarea => a.fechaRealizacion == day
    case KClase => a.fecha == day
    case KEstudio => a.fecha == day
    case KActividad => false
  }

  /** The seconds from horaInicio to horaFin (negative when the end is earlier). */
  function Duration(a: Activity): int
  {
    a.horaFin - a.horaInicio
  }

  /** Total seconds of the records that load the day. */
  function Load(store: seq<Activity>, day: int): int
  {
    if |store| == 0 then 0
    else (if LoadsDay(store[0], day) then Duration(store[0]) else 0) + Load(store[1..], day)
  }

  lemma {:induction false} LoadAppend(a: seq<Activity>, b: seq<Activity>, day: int)
    ensures Load(a + b, day) == Load(a, day) + Load(b, day)
    decreases |a|
  {
    if |a| == 0 {
      assert a + b == b;
    } else {
      assert (a + b)[1..] == a[1..] + b;
      LoadAppend(a[1..], b, day);
    }
  }

  /** A non-academic activity never adds to any day's load. */
  lemma NonAcademicNeverLoads(store: seq<Activity>, a: Activity, day: int)
    requires a.kind == KActividad
    ensures Load(store + [a], day) == Load(store, day)
  {
    LoadAppend(store, [a], day);
    assert [a][1..] == [];
  }

  /** Ten hours, in seconds: `total_horas > 10`. */
  const Limit := 36000

  /** `verificar_sobrecarga`: the warning is sent iff the day's load is
      strictly above ten hours. */
  function VerificarSobrecarga(store: seq<Activity>, nueva: Activity): (r: Option<Suggestion>)
    ensures r.Some? <==> Load(store, Day(nueva)) > Limit
    ensures r.Some? ==> r.value == Overload(Day(nueva))
  {
    var day := Day(nueva);
    if Load(store, day) > Limit then Some(Overload(day)) else None
  }

  /** A day whose records fit in ten hours draws no warning, whatever
      non-academic activities are added to it. */
  lemma NoWarningFromLeisure(store: seq<Activity>, a: Activity, nueva: Activity)
    requires a.kind == KActividad
    requires VerificarSobrecarga(store, nueva).None?
    ensures VerificarSobrecarga(store + [a], nueva).None?
  {
    NonAcademicNeverLoads(store, a, Day(nueva));
  }

  /** The new task is done before the other but due after it, or the reverse. */
  predicate Inverted(nueva: Activity, otra: Activity)
  {
    (nueva.fechaRealizacion < otra.fechaRealizacion && nueva.fechaEntrega > otra.fechaEntrega)
    || (nueva.fechaRealizacion > otra.fechaRealizacion && nueva.fechaEntrega < otra.fechaEntrega)
  }

  /** The message for an inverted pair names first the task due first. */
  function ReorderMessage(nueva: Activity, otra: Activity): (r: Suggestion)
    requires Inverted(nueva, otra)
    ensures r.Reorder?
    ensures nueva.fechaEntrega > otra.fechaEntrega ==> r.masUrgente == otra.titulo && r.otra == nueva.titulo
    ensures nueva.fechaEntrega < otra.fechaEntrega ==> r.masUrgente == nueva.titulo && r.otra == otra.titulo
  {
    if nueva.fechaRealizacion < otra.fechaRealizacion && nueva.fechaEntrega > otra.fechaEntrega
    then Reorder(otra.titulo, nueva.titulo)
    else Reorder(nueva.titulo, otra.titulo)
  }

  /** `otra` is one of `usuario.tareas.exclude(id=tarea_nueva.id)`. */
  predicate Other(nueva: Activity, otra: Activity)
  {
    otra.id != nueva.id
  }

  /** `verificar_orden_tareas`: the loop stops at the first other task whose
      order is inverted, so at most one warning is sent. */
  function VerificarOrden(tareas: seq<Activity>, nueva: Activity): (r: Option<Suggestion>)
    ensures r.None? <==>
      forall i :: 0 <= i < |tareas| && Other(nueva, tareas[i]) ==> !Inverted(nueva, tareas[i])
    ensures r.Some? ==>
      exists i :: 0 <= i < |tareas| && Other(nueva, tareas[i]) && Inverted(nueva, tareas[i])
        && r.value == ReorderMessage(nueva, tareas[i])
        && forall j :: 0 <= j < i && Other(nueva, tareas[j]) ==> !Inverted(nueva, tareas[j])
  {
    if |tareas| == 0 then None
    else if Other(nueva, tareas[0]) && Inverted(nueva, tareas[0]) then
      Some(ReorderMessage(nueva, tareas[0]))
    else
      var r := VerificarOrden(tareas[1..], nueva);
      if r.Some? then
        var i :| 0 <= i < |tareas[1..]| && Other(nueva, tareas[1..][i]) && Inverted(nueva, tareas[1..][i])
          && r.value == ReorderMessage(nueva, tareas[1..][i])
          && forall j :: 0 <= j < i && Other(nueva, tareas[1..][j]) ==> !Inverted(nueva, tareas[1..][j]);
        assert tareas[i + 1] == tareas[1..][i];
        r
      else
        r
  }

  /** Two tasks with the same realization date, or the same delivery date,
      are never in the wrong order. */
  lemma EqualDatesNeverTrigger(tareas: seq<Activity>, nueva: Activity)
    requires forall i :: 0 <= i < |tareas| ==>
      tareas[i].fechaRealizacion == nueva.fechaRealizacion || tareas[i].fechaEntrega == nueva.fechaEntrega
    ensures VerificarOrden(tareas, nueva).None?
  {
  }

  /** A record with the new task's id is skipped: it changes nothing. */
  lemma SameIdIsSkipped(t: Activity, tareas: seq<Activity>, nueva: Activity)
    requires t.id == nueva.id
    ensures VerificarOrden([t] + tareas, nueva) == VerificarOrden(tareas, nueva)
  {
    assert ([t] + tareas)[1..] == tareas;
  }

  /** `sugerencia_actividad`: the overload check for every record, then the
      ordering check only for a Tarea. `store` holds the user's calendar
      records, the new one included, since it is saved first. */
  function SugerenciaActividad(store: seq<Activity>, nueva: Activity): (r: seq<Suggestion>)
    ensures |r| <= 2
    ensures (exists s :: s in r && s.Overload?) <==> Load(store, Day(nueva)) > Limit
    ensures nueva.kind != KTarea ==> forall s :: s in r ==> s.Overload?
    ensures nueva.kind == KTarea ==>
      ((exists s :: s in r && s.Reorder?) <==> VerificarOrden(Filter(store, IsTarea), nueva).Some?)
  {
    var overload := VerificarSobrecarga(store, nueva);
    var first := if overload.Some? then [overload.value] else [];
    if nueva.kind == KTarea then
      var orden := VerificarOrden(Filter(store, IsTarea), nueva);
      first + (if orden.Some? then [orden.value] else [])
    else first
  }

  function IsTarea(a: Activity): bool
  {
    a.kind == KTarea
  }
}

=== FILE: task_form.dfy ===
/** The task form (`components/TaskFormModal.jsx`): the fields it loads from
    the task being edited, the complexity input, and the payload it submits
    when every required field is filled. */
module TaskForm {
  import opened Base
  import opened JsValue

  /** The form fields; each holds whatever the loaded task had, or ''. */
  datatype Form = Form(
    titulo: Val, curso: Val, desc: Val, fEntrega: Val, hEntrega: Val,
    fTarea: Val, hInicio: Val, hFin: Val, complejidad: Val, estado: Val)

  const Blank := Form(Str(""), Str(""), Str(""), Str(""), Str(""), Str(""), Str(""), Str(""), Num(1), Str("inicio"))

  /** The effect on `[initialData, isOpen]`: a task to edit fills every field
      from it, with '' (complexity 1, state 'inicio') for a falsy value;
      without one the form is blank. */
  function Load(initialData: Option<Obj>): (f: Form)
    ensures initialData.None? ==> f == Blank
    ensures initialData.Some? ==>
      var o := initialData.value;
      && f.titulo == Or(Get(o, "titulo"), Str(""))
      && f.curso == Or(Get(o, "curso"), Str(""))
      && f.desc == Or(Get(o, "desc"), Str(""))
      && f.fEntrega == Or(Get(o, "fEntrega"), Str(""))
      && f.hEntrega == Or(Get(o, "hEntrega"), Str(""))
      && f.fTarea == Or(Get(o, "fTarea"), Str(""))
      && f.hInicio == Or(Get(o, "hInicio"), Str(""))
      && f.hFin == Or(Get(o, "hFin"), Str(""))
      && f.complejidad == Or(Get(o, "complejidad"), Num(1))
      && f.estado == Or(Get(o, "estado"), Str("inicio"))
  {
    match initialData
    case None => Blank
    case Some(o) =>
      Form(Or(Get(o, "titulo"), Str("")), Or(Get(o, "curso"), Str("")), Or(Get(o, "desc"), Str("")),
        Or(Get(o, "fEntrega"), Str("")), Or(Get(o, "hEntrega"), Str("")), Or(Get(o, "fTarea"), Str("")),
        Or(Get(o, "hInicio"), Str("")), Or(Get(o, "hFin"), Str("")),
        Or(Get(o, "complejidad"), Num(1)), Or(Get(o, "estado"), Str("inicio")))
  }

  /** A loaded form never holds a falsy text field other than '', and its
      complexity and state are never falsy. */
  lemma LoadedFieldsAreDefaulted(initialData: Option<Obj>)
    ensures var f := Load(initialData);
      (Truthy(f.titulo) || f.titulo == Str("")) && Truthy(f.complejidad) && Truthy(f.estado)
  {
  }

  /** `Math.min(5, Math.max(1, n))`. */
  function Clamp(n: int): (r: int)
    ensures 1 <= r <= 5
    ensures 1 <= n <= 5 ==> r == n
    ensures n < 1 ==> r == 1
    ensures n > 5 ==> r == 5
  {
    if n < 1 then 1 else if n > 5 then 5 else n
  }

  /** The complexity input's `onChange`: a number is clamped into 1..5, and
      anything `parseInt` cannot read clears the field. */
  function OnComplejidad(input: string): (r: Val)
    ensures r == Str("") || (r.Num? && 1 <= r.n <= 5)
    ensures ParseInt(Str(input)).None? <==> r == Str("")
  {
    match ParseInt(Str(input))
    case None => Str("")
    case Some(n) => Num(Clamp(n))
  }

  /** The complexity submitted: the field read by `parseInt` and clamped; NaN
      when it cannot be read. */
  function Normalized(complejidad: Val): (r: Val)
    ensures r == NaN || (r.Num? && 1 <= r.n <= 5)
    ensures r == NaN <==> ParseInt(complejidad).None?
  {
    match ParseInt(complejidad)
    case None => NaN
    case Some(n) => Num(Clamp(n))
  }

  /** A complexity typed into the field is submitted as typed; a cleared field
      is submitted as NaN. */
  lemma TypedComplexityIsSubmitted(input: string)
    ensures OnComplejidad(input).Num? ==> Normalized(OnComplejidad(input)) == OnComplejidad(input)
    ensures OnComplejidad(input) == Str("") ==> Normalized(OnComplejidad(input)) == NaN
  {
    if OnComplejidad(input).Num? {
      ParseIntOfNum(OnComplejidad(input).n);
    } else {
      assert ParseInt(Str("")).None?;
    }
  }

  /** The required fields: titulo, both dates and the three times. */
  predicate Complete(f: Form)
  {
    Truthy(f.titulo) && Truthy(f.fEntrega) && Truthy(f.hEntrega)
    && Truthy(f.fTarea) && Truthy(f.hInicio) && Truthy(f.hFin)
  }

  /** `handleSubmit`: nothing is submitted (None) unless every required field
      is filled; the payload renames the fields, sends the description under
      the misspelt key 'descripcipon', normalises the complexity, and carries
      the edited task's id only when editing. */
  function Submit(f: Form, initialData: Option<Obj>): (r: Option<Obj>)
    ensures r.Some? <==> Complete(f)
    ensures r.Some? ==> ("id" in r.value <==> initialData.Some?)
    ensures r.Some? && initialData.Some? ==> r.value["id"] == Get(initialData.value, "id")
    ensures r.Some? ==> "descripcipon" in r.value && "descripcion" !in r.value && r.value["descripcipon"] == f.desc
    ensures r.Some? ==> "complejidad" in r.value && r.value["complejidad"] == Normalized(f.complejidad)
    ensures r.Some? ==> "fechaRealizacion" in r.value && r.value["fechaRealizacion"] == f.fTarea
    ensures r.Some? ==> r.value.Keys == PayloadKeys + (if initialData.Some? then {"id"} else {})
    ensures r.Some? ==> r.value == (if initialData.Some? then Fields(f)["id" := Get(initialData.value, "id")] else Fields(f))
  {
    PayloadKeysApart();
    var fields := Fields(f);
    if !Complete(f) then None
    else if initialData.Some? then Some(fields["id" := Get(initialData.value, "id")])
    else Some(fields)
  }

  /** The keys of the payload, the task's id aside. */
  const PayloadKeys: set<string> := {"titulo", "curso", "descripcipon", "fechaEntrega", "horaEntrega",
    "fechaRealizacion", "horaInicio", "horaFin", "complejidad", "estado"}

  /** The payload's fields, renamed from the form's. */
  function Fields(f: Form): (m: Obj)
    ensures m.Keys == PayloadKeys
    ensures m["titulo"] == f.titulo && m["curso"] == f.curso
    ensures m["descripcipon"] == f.desc
    ensures m["fechaEntrega"] == f.fEntrega && m["horaEntrega"] == f.hEntrega
    ensures m["fechaRealizacion"] == f.fTarea
    ensures m["horaInicio"] == f.hInicio && m["horaFin"] == f.hFin
    ensures m["complejidad"] == Normalized(f.complejidad)
    ensures m["estado"] == f.estado
  {
    var c := Normalized(f.complejidad);
    PayloadOfKeys(f.titulo, f.curso, f.desc, f.fEntrega, f.hEntrega, f.fTarea, f.hInicio, f.hFin, c, f.estado);
    PayloadOfValues(f.titulo, f.curso, f.desc, f.fEntrega, f.hEntrega, f.fTarea, f.hInicio, f.hFin, c, f.estado);
    PayloadOf(f.titulo, f.curso, f.desc, f.fEntrega, f.hEntrega, f.fTarea, f.hInicio, f.hFin, c, f.estado)
  }

  /** The payload object literal of `handleSubmit`, field by field. */
  function PayloadOf<V>(titulo: V, curso: V, desc: V, fEntrega: V, hEntrega: V,
                        fTarea: V, hInicio: V, hFin: V, complejidad: V, estado: V): map<string, V>
  {
    map[
      "titulo" := titulo,
      "curso" := curso,
      "descripcipon" := desc,
      "fechaEntrega" := fEntrega,
      "horaEntrega" := hEntrega,
      "fechaRealizacion" := fTarea,
      "horaInicio" := hInicio,
      "horaFin" := hFin,
      "complejidad" := complejidad,
      "estado" := estado]
  }

  /** The literal has exactly the ten payload keys... */
  lemma PayloadOfKeys<V>(titulo: V, curso: V, desc: V, fEntrega: V, hEntrega: V,
                         fTarea: V, hInicio: V, hFin: V, complejidad: V, estado: V)
    ensures PayloadOf(titulo, curso, desc, fEntrega, hEntrega, fTarea, hInicio, hFin, complejidad, estado).Keys == PayloadKeys
  {
  }

  /** ...and each key holds the value written against it. */
  lemma PayloadOfValues<V>(titulo: V, curso: V, desc: V, fEntrega: V, hEntrega: V,
                           fTarea: V, hInicio: V, hFin: V, complejidad: V, estado: V)
    ensures var m := PayloadOf(titulo, curso, desc, fEntrega, hEntrega, fTarea, hInicio, hFin, complejidad, estado);
      && m["titulo"] == titulo && m["curso"] == curso && m["descripcipon"] == desc
      && m["fechaEntrega"] == fEntrega && m["horaEntrega"] == hEntrega && m["fechaRealizacion"] == fTarea
      && m["horaInicio"] == hInicio && m["horaFin"] == hFin && m["complejidad"] == complejidad
      && m["estado"] == estado
  {
    PayloadOfKeys(titulo, curso, desc, fEntrega, hEntrega, fTarea, hInicio, hFin, complejidad, estado);
    assert "titulo"[0] == 't' && "estado"[0] == 'e';
    assert "fechaEntrega"[0] == 'f' && "descripcipon"[0] == 'd';
    assert "horaEntrega"[0] == 'h' && "complejidad"[0] == 'c';
  }

  /** Neither the id nor the correctly spelt 'descripcion' is among them. */
  lemma PayloadKeysApart()
    ensures "id" !in PayloadKeys && "descripcion" !in PayloadKeys
  {
    assert "id"[0] == 'i' && "descripcion"[0] == 'd' && "descripcion"[9] == 'o' && "descripcipon"[9] == 'p';
    assert forall k :: k in PayloadKeys && k != "descripcipon" ==> k[0] != 'i' && k[0] != 'd';
  }

  /** A blank form is never submitted. */
  lemma BlankIsRefused()
    ensures Submit(Blank, None).None?
  {
  }
}

=== FILE: task_item.dfy ===
/** One row of the task table (`components/TaskItemT.jsx`): the delivered
    marking, the three status buttons and which of them is lit, and what
    each button asks for. */
module TaskItem {
  import opened Base
  import opened JsValue
  import MockStore
  import TaskMock
  import StatusChart
  import WeeklyStatus

  /** `isEntregado`. */
  predicate IsEntregado(task: Obj)
  {
    Get(task, "estado") == Str("entregado") || Truthy(Get(task, "entregado"))
  }

  /** `estadoActual`: a missing (falsy) state reads as 'inicio'. */
  function EstadoActual(task: Obj): (r: Val)
    ensures !Truthy(Get(task, "estado")) ==> r == Str("inicio")
    ensures Truthy(Get(task, "estado")) ==> r == Get(task, "estado")
  {
    Or(Get(task, "estado"), Str("inicio"))
  }

  /** The states of the three buttons, in display order. */
  const Buttons: seq<string> := ["inicio", "en_desarrollo", "finalizado"]

  /** Button b carries the class 'activo'. */
  predicate Lit(task: Obj, b: int)
    requires 0 <= b < |Buttons|
  {
    EstadoActual(task) == Str(Buttons[b])
  }

  /** What button b asks for when clicked: `onSetStatus(task.id, state)`. */
  function Click(task: Obj, b: int): (r: (Val, Val))
    requires 0 <= b < |Buttons|
    ensures r.0 == Get(task, "id") && r.1 == Str(Buttons[b])
  {
    (Get(task, "id"), Str(Buttons[b]))
  }

  /** The text cells: title, course and complexity with their fallbacks. */
  datatype Row = Row(titulo: Val, curso: Val, complejidad: Val, entregado: bool, lit: seq<bool>)

  function RowOf(task: Obj): (r: Row)
    ensures r.titulo == Or(Get(task, "titulo"), Str("Sin título"))
    ensures r.curso == Or(Get(task, "curso"), Str("N/A")) && r.complejidad == Or(Get(task, "complejidad"), Str("N/A"))
    ensures r.entregado <==> IsEntregado(task)
    ensures |r.lit| == |Buttons| && forall b :: 0 <= b < |Buttons| ==> (r.lit[b] <==> Lit(task, b))
  {
    Row(Or(Get(task, "titulo"), Str("Sin título")), Or(Get(task, "curso"), Str("N/A")),
      Or(Get(task, "complejidad"), Str("N/A")), IsEntregado(task),
      seq(|Buttons|, b requires 0 <= b < |Buttons| => Lit(task, b)))
  }

  /** At most one button is lit; exactly one when the state (or its
      default) is one of the three, and none otherwise, for example for
      'entregado'. */
  lemma OneButtonLit(task: Obj)
    ensures forall b, c :: 0 <= b < c < |Buttons| ==> !(Lit(task, b) && Lit(task, c))
    ensures (exists b :: 0 <= b < |Buttons| && Lit(task, b)) <==> EstadoActual(task) in [Str("inicio"), Str("en_desarrollo"), Str("finalizado")]
    ensures !Truthy(Get(task, "estado")) ==> Lit(task, 0)
  {
    if EstadoActual(task) == Str("inicio") {
      assert Lit(task, 0);
    } else if EstadoActual(task) == Str("en_desarrollo") {
      assert Lit(task, 1);
    } else if EstadoActual(task) == Str("finalizado") {
      assert Lit(task, 2);
    }
  }

  /** With the mock task list behind the page, clicking button b lights
      exactly that button on the task, and completes it exactly for
      'finalizado'. */
  lemma ClickLightsThatButton(s: MockStore.Store, i: int, b: int)
    requires 0 <= i < |s| && 0 <= b < |Buttons|
    ensures var t := TaskMock.SetStatus(s, Click(s[i], b).0, Click(s[i], b).1)[i];
      && (forall c :: 0 <= c < |Buttons| ==> (Lit(t, c) <==> c == b))
      && (Truthy(Get(t, "completado")) <==> b == 2)
  {
    var t := TaskMock.SetStatus(s, Click(s[i], b).0, Click(s[i], b).1)[i];
    assert Get(t, "estado") == Str(Buttons[b]);
    assert EstadoActual(t) == Str(Buttons[b]);
  }

  /** The row and the chart read a delivered task differently: the row
      marks it delivered and lights none of the three buttons, while the
      chart counts it among the tasks still to do. */
  lemma DeliveredReadsTwoWays(task: Obj, today: string)
    requires Get(task, "estado") == Str("entregado")
    ensures RowOf(task).entregado
    ensures forall b :: 0 <= b < |Buttons| ==> !RowOf(task).lit[b]
    ensures StatusChart.Classify(task, today) == WeeklyStatus.PorHacer
  {
    OneButtonLit(task);
  }
}

=== FILE: task_mock.dfy ===
/** `services/taskService.mock.js`: the task list, with a status setter
    that keeps `completado` in step, and a creator that moves the form's
    short field names to the names used elsewhere. */
module TaskMock {
  import opened Base
  import opened JsValue
  import opened MockStore

  /** The fields `updateTaskStatus` writes. */
  function StatusPatch(newState: Val): (p: Obj)
    ensures p.Keys == {"estado", "completado"}
    ensures p["estado"] == newState
    ensures p["completado"] == Bool(newState == Str("finalizado"))
  {
    map["estado" := newState, "completado" := Bool(newState == Str("finalizado"))]
  }

  /** `updateTaskStatus`: the task with that id gets the new state, and is
      completed exactly when the state is 'finalizado'; nothing else
      changes. */
  function SetStatus(s: Store, id: Val, newState: Val): (r: Store)
    ensures |r| == |s|
    ensures forall i :: 0 <= i < |s| && Get(s[i], "id") == id ==>
      Get(r[i], "estado") == newState && (Truthy(Get(r[i], "completado")) <==> newState == Str("finalizado"))
    ensures forall i :: 0 <= i < |s| && Get(s[i], "id") == id ==>
      forall k :: k in s[i] && k != "estado" && k != "completado" ==> k in r[i] && r[i][k] == s[i][k]
    ensures forall i :: 0 <= i < |s| && Get(s[i], "id") != id ==> r[i] == s[i]
  {
    Update(s, id, StatusPatch(newState))
  }

  /** The status setter resolves to the task it changed. */
  lemma SetStatusResolves(s: Store, id: Val, newState: Val, i: nat)
    requires FirstWithId(s, id, i)
    ensures Updated(s, id, StatusPatch(newState)) == Some(Merge(s[i], StatusPatch(newState)))
  {
    UpdateResolvesToFirstMatch(s, id, StatusPatch(newState), i);
  }

  /** Setting the same state twice is the same as setting it once. */
  lemma SetStatusIdempotent(s: Store, id: Val, newState: Val)
    ensures SetStatus(SetStatus(s, id, newState), id, newState) == SetStatus(s, id, newState)
  {
    var once := SetStatus(s, id, newState);
    forall i | 0 <= i < |s|
      ensures SetStatus(once, id, newState)[i] == once[i]
    {
      if Get(s[i], "id") == id {
        assert Get(once[i], "id") == id;
        assert Merge(once[i], StatusPatch(newState)) == once[i];
      }
    }
  }

  const LegacyKeys: set<string> := {"fEntrega", "hEntrega", "desc", "fTarea", "hInicio", "hFin"}

  /** The short name the form may use for a canonical field. */
  function Legacy(canonical: string): string
  {
    match canonical
    case "fecha_entrega" => "fEntrega"
    case "hora_entrega" => "hEntrega"
    case "descripcion" => "desc"
    case "fecha_tarea" => "fTarea"
    case "hora_inicio" => "hInicio"
    case "hora_fin" => "hFin"
    case _ => canonical
  }

  const CanonicalKeys: set<string> := {"fecha_entrega", "hora_entrega", "descripcion", "fecha_tarea", "hora_inicio", "hora_fin"}

  /** `taskData.<short> || taskData.<canonical>`. */
  function Pick(data: Obj, canonical: string): Val
  {
    Or(Get(data, Legacy(canonical)), Get(data, canonical))
  }

  /** The six canonical fields as `createTask` computes them. */
  function Canonical(data: Obj): (m: Obj)
    ensures m.Keys == CanonicalKeys
    ensures forall k :: k in m ==> m[k] == Pick(data, k)
  {
    map k | k in CanonicalKeys :: Pick(data, k)
  }

  /** A key of the data that `createTask` copies untouched. */
  predicate Copied(k: string)
  {
    k !in LegacyKeys && k !in CanonicalKeys && k != "id" && k != "completado"
  }

  /** No short name is also a name the task keeps. */
  lemma NamesApart()
    ensures CanonicalKeys !! LegacyKeys
    ensures forall k :: k in CanonicalKeys ==> k !in LegacyKeys && k != "id" && k != "completado"
    ensures "id" !in LegacyKeys && "completado" !in LegacyKeys
    ensures forall k :: k in CanonicalKeys ==> Legacy(k) in LegacyKeys
  {
  }

  /** `{ ...taskData, id, completado: false, fecha_entrega: …, … }`. */
  function Spread(data: Obj, now: int): (o: Obj)
    ensures o.Keys == data.Keys + {"id", "completado"} + CanonicalKeys
    ensures o["id"] == Num(now) && o["completado"] == Bool(false)
    ensures forall k :: k in CanonicalKeys ==> o[k] == Pick(data, k)
    ensures forall k :: k in data && Copied(k) ==> o[k] == data[k]
  {
    Merge(data, Extra(data, now))
  }

  /** The fields written over the data: the id, `completado` and the six
      canonical fields. */
  function Extra(data: Obj, now: int): (m: Obj)
    ensures m.Keys == {"id", "completado"} + CanonicalKeys
    ensures m["id"] == Num(now) && m["completado"] == Bool(false)
    ensures forall k :: k in CanonicalKeys ==> m[k] == Pick(data, k)
  {
    NamesApart();
    map["id" := Num(now), "completado" := Bool(false)] + Canonical(data)
  }

  /** The `delete newTask.<short>` statements. */
  function DropLegacy(o: Obj): (r: Obj)
    ensures r.Keys == o.Keys - LegacyKeys
    ensures forall k :: k in r ==> r[k] == o[k]
  {
    o - LegacyKeys
  }

  /** `createTask`: the data with a new id, `completado: false`, each
      canonical field set from its short name when that is truthy and from
      the canonical name otherwise (so present, maybe undefined), and the
      short names deleted; the task is appended and handed back. */
  function Create(s: Store, data: Obj, now: int): (r: (Store, Obj))
    ensures |r.0| == |s| + 1 && r.0[..|s|] == s && r.0[|s|] == r.1
    ensures r.1.Keys == (data.Keys - LegacyKeys) + {"id", "completado"} + CanonicalKeys
    ensures r.1["id"] == Num(now) && r.1["completado"] == Bool(false)
    ensures forall k :: k in CanonicalKeys ==> r.1[k] == Or(Get(data, Legacy(k)), Get(data, k))
    ensures forall k :: k in data && Copied(k) ==> r.1[k] == data[k]
  {
    var task := DropLegacy(Spread(data, now));
    TaskKeys(data, now);
    TaskCanonical(data, now);
    TaskCopied(data, now);
    (s + [task], task)
  }

  /** The keys of a created task. */
  lemma TaskKeys(data: Obj, now: int)
    ensures DropLegacy(Spread(data, now)).Keys == (data.Keys - LegacyKeys) + {"id", "completado"} + CanonicalKeys
    ensures DropLegacy(Spread(data, now))["id"] == Num(now)
    ensures DropLegacy(Spread(data, now))["completado"] == Bool(false)
  {
    DroppedKeys(data, Spread(data, now), now);
  }

  lemma DroppedKeys(data: Obj, o: Obj, now: int)
    requires o.Keys == data.Keys + {"id", "completado"} + CanonicalKeys
    requires o["id"] == Num(now) && o["completado"] == Bool(false)
    ensures DropLegacy(o).Keys == (data.Keys - LegacyKeys) + {"id", "completado"} + CanonicalKeys
    ensures DropLegacy(o)["id"] == Num(now) && DropLegacy(o)["completado"] == Bool(false)
  {
    NamesApart();
    var keys := (data.Keys - LegacyKeys) + {"id", "completado"} + CanonicalKeys;
    forall k
      ensures k in DropLegacy(o).Keys <==> k in keys
    {
      if k in CanonicalKeys {
        assert k !in LegacyKeys;
      }
    }
  }

  /** Each canonical field of a created task. */
  lemma TaskCanonical(data: Obj, now: int)
    ensures forall k :: k in CanonicalKeys ==>
      k in DropLegacy(Spread(data, now)) && DropLegacy(Spread(data, now))[k] == Or(Get(data, Legacy(k)), Get(data, k))
  {
    NamesApart();
  }

  /** The fields a created task copies from the data. */
  lemma TaskCopied(data: Obj, now: int)
    ensures forall k :: k in data && Copied(k) ==> DropLegacy(Spread(data, now))[k] == data[k]
  {
  }

  /** Data already using the canonical names keeps its values, and the
      created task uses no short name. */
  lemma CanonicalDataKept(s: Store, data: Obj, now: int)
    requires forall k :: k in data ==> k !in LegacyKeys
    ensures forall k :: k in CanonicalKeys ==> Create(s, data, now).1[k] == Get(data, k)
    ensures forall k :: k in LegacyKeys ==> k !in Create(s, data, now).1
  {
    NamesApart();
  }

  /** A new task starts open, and deleting it right away gives the list
      back when its id is new. */
  lemma CreateThenDelete(s: Store, data: Obj, now: int)
    requires forall a :: a in s ==> Get(a, "id") != Num(now)
    ensures !Truthy(Get(Create(s, data, now).1, "completado"))
    ensures Delete(Create(s, data, now).0, Num(now)) == s
  {
    var r := Create(s, data, now);
    assert r.0 == s + [r.1];
    DeleteUndoesAppend(s, r.1);
  }
}

=== FILE: task_page.dfy ===
/** The task list page (`pages/TaskPage.jsx`): how the list held by the page
    changes when a request completes. Each handler is given the outcome of
    its request: the server's answer, or the error it was rejected with. */
module TaskPage {
  import opened Base
  import opened JsValue
  import MockStore

  /** The page state: the list, the loading flag, the error shown ('' for
      none), whether the form is open and the task being edited. */
  datatype Page = Page(tasks: seq<Obj>, loading: bool, error: Val, showModal: bool, editing: Option<Obj>)

  const Initial := Page([], true, Str(""), false, None)

  /** `prev.map(t => t.id === id ? answer : t)`. */
  function Replace(ts: seq<Obj>, id: Val, answer: Obj): (r: seq<Obj>)
    ensures |r| == |ts|
    ensures forall i :: 0 <= i < |ts| ==> r[i] == if Get(ts[i], "id") == id then answer else ts[i]
  {
    MapWhere(ts, MockStore.HasId(id), (_: Obj) => answer)
  }

  /** `fetchTasks`: the list fetched (an empty one for a null answer), or
      an empty list and the error. */
  function Fetched(p: Page, outcome: Result<Option<seq<Obj>>, Val>): (r: Page)
    ensures !r.loading && r.showModal == p.showModal && r.editing == p.editing
    ensures outcome.Ok? ==> r.error == Str("") && r.tasks == (if outcome.value.Some? then outcome.value.value else [])
    ensures outcome.Err? ==> r.tasks == [] && r.error == Or(outcome.error, Str("Error al cargar las tareas."))
  {
    match outcome
    case Ok(None) => p.(tasks := [], error := Str(""), loading := false)
    case Ok(Some(ts)) => p.(tasks := ts, error := Str(""), loading := false)
    case Err(m) => p.(tasks := [], error := Or(m, Str("Error al cargar las tareas.")), loading := false)
  }

  /** `handleOpenNewTaskModal` and `handleOpenEditTaskModal`. */
  function Open(p: Page, task: Option<Obj>): (r: Page)
    ensures r.showModal && r.editing == task && r.tasks == p.tasks
  {
    p.(showModal := true, editing := task)
  }

  /** The form edits an existing task when the edited task has a truthy id. */
  predicate IsEdit(p: Page)
  {
    p.editing.Some? && Truthy(Get(p.editing.value, "id"))
  }

  /** `handleFormSubmit`, given the server's answer to the update or the
      creation. On success the edited id's records are replaced by the
      answer (or the answer is appended) and the form closes; on failure
      the list stays and the error is shown, worded after whether a task
      was being edited. */
  function FormSubmit(p: Page, outcome: Result<Obj, Val>): (r: Page)
    ensures !r.loading
    ensures outcome.Ok? && IsEdit(p) ==> r.tasks == Replace(p.tasks, Get(p.editing.value, "id"), outcome.value)
    ensures outcome.Ok? && !IsEdit(p) ==> r.tasks == p.tasks + [outcome.value]
    ensures outcome.Ok? ==> !r.showModal && r.editing.None? && r.error == Str("")
    ensures outcome.Err? ==> r.tasks == p.tasks && r.showModal == p.showModal && r.editing == p.editing
    ensures outcome.Err? ==> r.error == Or(outcome.error,
      Str(if p.editing.Some? then "Error al actualizar la tarea." else "Error al crear la tarea."))
  {
    match outcome
    case Ok(answer) =>
      var ts := if IsEdit(p) then Replace(p.tasks, Get(p.editing.value, "id"), answer) else p.tasks + [answer];
      p.(tasks := ts, showModal := false, editing := None, error := Str(""), loading := false)
    case Err(m) =>
      var dflt := if p.editing.Some? then "Error al actualizar la tarea." else "Error al crear la tarea.";
      p.(error := Or(m, Str(dflt)), loading := false)
  }

  /** Creating adds exactly one task at the end. */
  lemma CreateAppendsOne(p: Page, answer: Obj)
    requires p.editing.None?
    ensures |FormSubmit(p, Ok(answer)).tasks| == |p.tasks| + 1
    ensures FormSubmit(p, Ok(answer)).tasks[|p.tasks|] == answer
  {
  }

  /** A task being edited that has no id is created anew; if that fails,
      the message speaks of an update. */
  lemma EditWithoutIdCreates(p: Page, answer: Obj)
    requires p.editing.Some? && !Truthy(Get(p.editing.value, "id"))
    ensures FormSubmit(p, Ok(answer)).tasks == p.tasks + [answer]
    ensures FormSubmit(p, Err(Undef)).error == Str("Error al actualizar la tarea.")
  {
  }

  /** `handleDeleteTask`: nothing without confirmation; on success every
      record with the id goes; on failure the list stays and the error is
      shown. */
  function DeleteTask(p: Page, id: Val, confirmed: bool, outcome: Result<Val, Val>): (r: Page)
    ensures !confirmed ==> r == p
    ensures confirmed && outcome.Ok? ==> r.tasks == MockStore.Delete(p.tasks, id) && r.error == p.error
    ensures confirmed && outcome.Err? ==> r.tasks == p.tasks && r.error == Or(outcome.error, Str("Error al eliminar la tarea."))
  {
    if !confirmed then p
    else match outcome
      case Ok(_) => p.(tasks := MockStore.Delete(p.tasks, id))
      case Err(m) => p.(error := Or(m, Str("Error al eliminar la tarea.")))
  }

  /** A confirmed, successful delete leaves no record with that id and
      keeps the others in order. */
  lemma DeleteRemovesId(p: Page, id: Val, answer: Val)
    ensures forall t :: t in DeleteTask(p, id, true, Ok(answer)).tasks ==> Get(t, "id") != id
    ensures IsSubseq(DeleteTask(p, id, true, Ok(answer)).tasks, p.tasks)
  {
  }

  /** `handleToggleEntregado`: the request sends the negated flag; on
      success the records with the id are replaced by the answer. */
  function ToggleEntregado(p: Page, id: Val, isEntregado: bool, outcome: Result<Obj, Val>): (r: (Page, (Val, bool)))
    ensures r.1 == (id, !isEntregado)
    ensures outcome.Ok? ==> r.0.tasks == Replace(p.tasks, id, outcome.value)
    ensures outcome.Err? ==> r.0.tasks == p.tasks && r.0.error == Or(outcome.error, Str("Error al actualizar entregado."))
  {
    match outcome
    case Ok(answer) => (p.(tasks := Replace(p.tasks, id, answer)), (id, !isEntregado))
    case Err(m) => (p.(error := Or(m, Str("Error al actualizar entregado."))), (id, !isEntregado))
  }

  /** `handleSetStatus`: on success the records with the id are replaced by
      the answer; on failure the list stays. */
  function SetStatus(p: Page, id: Val, outcome: Result<Obj, Val>): (r: Page)
    ensures outcome.Ok? ==> r.tasks == Replace(p.tasks, id, outcome.value)
    ensures outcome.Err? ==> r.tasks == p.tasks && r.error == Or(outcome.error, Str("Error al cambiar el estado de la tarea."))
  {
    match outcome
    case Ok(answer) => p.(tasks := Replace(p.tasks, id, answer))
    case Err(m) => p.(error := Or(m, Str("Error al cambiar el estado de la tarea.")))
  }

  /** No two records share an id. */
  predicate IdsDistinct(ts: seq<Obj>)
  {
    forall i, j :: 0 <= i < j < |ts| ==> Get(ts[i], "id") != Get(ts[j], "id")
  }

  /** When ids are distinct and the server answers with the stored record
      patched, the page's list after a status change is exactly the
      server's list after the same patch: the page stays in step. */
  lemma SetStatusStaysInStep(p: Page, k: int, patch: Obj)
    requires IdsDistinct(p.tasks) && 0 <= k < |p.tasks|
    ensures SetStatus(p, Get(p.tasks[k], "id"), Ok(Merge(p.tasks[k], patch))).tasks
      == MockStore.Update(p.tasks, Get(p.tasks[k], "id"), patch)
  {
    var id := Get(p.tasks[k], "id");
    var local := SetStatus(p, id, Ok(Merge(p.tasks[k], patch))).tasks;
    var store := MockStore.Update(p.tasks, id, patch);
    forall i | 0 <= i < |p.tasks|
      ensures local[i] == store[i]
    {
      if Get(p.tasks[i], "id") == id {
        assert i == k;
      }
    }
  }
}

=== FILE: task_status.dfy ===
/** The task-state views of `Tareas/views.py`: advancing a task's state,
    hiding a task, and counting completed and pending tasks. */
module TaskStatus {
  import opened Base
  import opened BackendModel
  import opened EstadoSerializer
  import Scoring

  /** The HTTP status and the task's `EstadoTarea` row after a request. */
  datatype PatchResult = PatchResult(status: int, row: Option<EstadoRow>)

  /** One PATCH request: the day it is served on and its `estado` field
      (None when absent). */
  datatype Request = Request(day: int, estado: Option<string>)

  /** The state a task is treated as having: a missing row is created by
      `get_or_create` with the model default 'inicio'. */
  function Current(row: Option<EstadoRow>): Estado
  {
    if row.Some? then row.value.estado else Inicio
  }

  /** The row `get_or_create` returns: the existing one, or a new 'inicio' row
      whose `fecha_estado` (`auto_now`) is stamped with today. */
  function GetOrCreate(row: Option<EstadoRow>, today: int): (r: EstadoRow)
    ensures r.estado == Current(row)
    ensures row.Some? ==> r == row.value
    ensures row.None? ==> r.fechaEstado == today
  {
    if row.Some? then row.value else EstadoRow(Inicio, today)
  }

  /** `ActualizarEstadoPorTareaView.patch`, served on day `today`. `found` says
      whether the task exists for this user, `row` is its lifecycle row and
      `requested` the `estado` field of the request body (None when absent).
      Every write restamps `fecha_estado` (`auto_now`): the creation by
      `get_or_create` and the `save()` of an accepted move. */
  function Patch(found: bool, row: Option<EstadoRow>, requested: Option<string>, today: int): (r: PatchResult)
    ensures r.status == 200 || r.status == 400 || r.status == 404
    ensures r.status == 404 <==> !found
    ensures r.status == 200 <==>
      found && requested.Some? && EstadoOfName(requested.value).Some?
      && Index(EstadoOfName(requested.value).value) == Index(Current(row)) + 1
    ensures r.status == 200 ==> r.row == Some(EstadoRow(EstadoOfName(requested.value).value, today))
    ensures r.status != 200 && (!found || requested.None? || EstadoOfName(requested.value).None?) ==> r.row == row
    ensures r.status == 400 && requested.Some? && EstadoOfName(requested.value).Some? ==>
      && r.row.Some? && r.row.value.estado == Current(row)
      && (row.Some? ==> r.row == row)
      && (row.None? ==> r.row.value.fechaEstado == today)
  {
    if !found then PatchResult(404, row)
    else if requested.None? then PatchResult(400, row)
    else
      var nuevo := EstadoOfName(requested.value);
      if nuevo.None? then PatchResult(400, row)
      else
        var estadoTarea := GetOrCreate(row, today);
        if Index(nuevo.value) == Index(estadoTarea.estado) + 1 then PatchResult(200, Some(EstadoRow(nuevo.value, today)))
        else PatchResult(400, Some(estadoTarea))
  }

  /** A name outside the four choices is refused before the row is touched. */
  lemma InvalidNameTouchesNothing(row: Option<EstadoRow>, s: string, today: int)
    requires forall e: Estado :: Name(e) != s
    ensures Patch(true, row, Some(s), today) == PatchResult(400, row)
  {
  }

  /** From 'entregado' no request is ever accepted and the row, date included,
      stays as it is. */
  lemma NothingAfterEntregado(found: bool, row: EstadoRow, requested: Option<string>, today: int)
    requires row.estado == Entregado
    ensures Patch(found, Some(row), requested, today).status != 200
    ensures Patch(found, Some(row), requested, today).row == Some(row)
  {
  }

  /** A task without a row can only move to 'en_desarrollo'; any other valid
      name is refused but leaves a fresh 'inicio' row stamped today. */
  lemma FirstMoveFromNoRow(e: Estado, today: int)
    ensures Patch(true, None, Some(Name(e)), today).status == 200 <==> e == EnDesarrollo
    ensures e != EnDesarrollo ==> Patch(true, None, Some(Name(e)), today).row == Some(EstadoRow(Inicio, today))
  {
  }

  /** The view and the serializer agree on which moves of an existing row are allowed. */
  lemma AgreesWithSerializer(actual: EstadoRow, e: Estado, today: int)
    ensures Patch(true, Some(actual), Some(Name(e)), today).status == 200 <==> ValidateEstado(actual.estado, e).Some?
  {
  }

  /** The row after a sequence of PATCH requests on an existing task. */
  function Replay(row: Option<EstadoRow>, requests: seq<Request>): Option<EstadoRow>
    decreases |requests|
  {
    if |requests| == 0 then row
    else Replay(Patch(true, row, requests[0].estado, requests[0].day).row, requests[1..])
  }

  /** How many of those requests were accepted. */
  function Accepted(row: Option<EstadoRow>, requests: seq<Request>): nat
    decreases |requests|
  {
    if |requests| == 0 then 0
    else (if Patch(true, row, requests[0].estado, requests[0].day).status == 200 then 1 else 0)
         + Accepted(Patch(true, row, requests[0].estado, requests[0].day).row, requests[1..])
  }

  /** Whatever is requested, the state's position in the lifecycle is exactly the
      number of accepted requests: no state is skipped and none is revisited. */
  lemma {:induction false} StepsCountAccepted(row: Option<EstadoRow>, requests: seq<Request>)
    ensures Index(Current(Replay(row, requests))) == Index(Current(row)) + Accepted(row, requests)
    decreases |requests|
  {
    if |requests| > 0 {
      StepsCountAccepted(Patch(true, row, requests[0].estado, requests[0].day).row, requests[1..]);
    }
  }

  /** Delivering restamps the state date, and the stars read that date: a task
      finished on time but marked 'entregado' after its due date falls from
      3 stars to 1. */
  lemma LateDeliveryCostsStars(t: Tarea, finished: int, delivered: int)
    requires t.estado == Some(EstadoRow(Finalizado, finished))
    requires finished <= t.fechaEntrega < delivered
    ensures Scoring.TaskStars(t) == 3
    ensures var r := Patch(true, t.estado, Some(Name(Entregado)), delivered);
      r.status == 200 && r.row == Some(EstadoRow(Entregado, delivered))
      && Scoring.TaskStars(t.(estado := r.row)) == 1
  {
  }

  /** `OcultarTareaView.patch`: 404 for a missing task, otherwise the task with
      visible false. */
  function Hide(tarea: Option<Tarea>): (r: (int, Option<Tarea>))
    ensures tarea.None? ==> r == (404, None)
    ensures tarea.Some? ==> r.0 == 200 && r.1.Some? && !r.1.value.visible
    ensures tarea.Some? ==> r.1.value.(visible := tarea.value.visible) == tarea.value
  {
    if tarea.None? then (404, None) else (200, Some(tarea.value.(visible := false)))
  }

  predicate Completed(t: Tarea)
  {
    t.visible && t.estado.Some? && Done(t.estado.value.estado)
  }

  /** No row at all, or a row in 'inicio' or 'en_desarrollo'. */
  predicate Pending(t: Tarea)
  {
    t.visible && !(t.estado.Some? && Done(t.estado.value.estado))
  }

  predicate Visible(t: Tarea)
  {
    t.visible
  }

  /** `TareasCompletadasPendientesView.get` over the user's tasks. */
  method CountCompletedPending(tareas: seq<Tarea>) returns (completadas: nat, pendientes: nat)
    ensures completadas == Count(tareas, Completed)
    ensures pendientes == Count(tareas, Pending)
  {
    completadas, pendientes := 0, 0;
    var i := 0;
    while i < |tareas|
      invariant 0 <= i <= |tareas|
      invariant completadas == Count(tareas[..i], Completed)
      invariant pendientes == Count(tareas[..i], Pending)
    {
      var t := tareas[i];
      CountSnoc(tareas[..i], t, Completed);
      CountSnoc(tareas[..i], t, Pending);
      assert tareas[..i + 1] == tareas[..i] + [t];
      if t.visible {
        if t.estado.Some? {
          var e := t.estado.value.estado;
          if e == Finalizado || e == Entregado {
            completadas := completadas + 1;
          } else if e == Inicio || e == EnDesarrollo {
            pendientes := pendientes + 1;
          }
        } else {
          pendientes := pendientes + 1;
        }
      }
      i := i + 1;
    }
    assert tareas[..i] == tareas;
  }

  /** Every visible task is counted exactly once and hidden tasks never are. */
  lemma EveryVisibleTaskOnce(tareas: seq<Tarea>)
    ensures Count(tareas, Completed) + Count(tareas, Pending) == Count(tareas, Visible)
  {
    CountPartition(tareas, Visible, Completed, Pending);
  }
}

=== FILE: weekly_status.dfy ===
/** `EstadoTareasView.get` of `Estadisticas/views.py`: every task of the user is
    put in at most one of five buckets relative to today and the current
    Monday-to-Sunday week; the view reports each bucket's share. */
module WeeklyStatus {
  import opened Base
  import opened Dates
  import opened BackendModel

  datatype Bucket =
    | PorHacer
    | EnProcesoDentro
    | EnProcesoFuera
    | FinalizadoDentro
    | FinalizadoFuera

  /** `hoy - timedelta(days=hoy.weekday())`: the Monday of today's week. */
  function WeekStart(hoy: int): (r: int)
    ensures PyWeekday(r) == 0
    ensures r <= hoy < r + 7
  {
    hoy - PyWeekday(hoy)
  }

  /** Monday of today's week, and the Sunday six days later. */
  predicate InWeek(hoy: int, d: int)
  {
    WeekStart(hoy) <= d <= WeekStart(hoy) + 6
  }

  /** The counter a task increments, if any. */
  function Classify(t: Tarea, hoy: int): (r: Option<Bucket>)
    ensures t.estado.None? ==>
      (r == Some(PorHacer) <==> InWeek(hoy, t.fechaEntrega))
      && (r == Some(EnProcesoFuera) <==> !InWeek(hoy, t.fechaEntrega) && t.fechaEntrega < hoy)
      && (r.None? <==> t.fechaEntrega > WeekStart(hoy) + 6)
    ensures t.estado.Some? && !Done(t.estado.value.estado) ==>
      r == Some(if t.fechaEntrega < hoy then EnProcesoFuera else EnProcesoDentro)
    ensures t.estado.Some? && Done(t.estado.value.estado) ==>
      (r.Some? <==> t.fechaEntrega <= WeekStart(hoy) + 6)
      && (r.Some? ==> r.value == if t.estado.value.fechaEstado <= t.fechaEntrega then FinalizadoDentro else FinalizadoFuera)
  {
    var due := t.fechaEntrega;
    match t.estado
    case None =>
      if InWeek(hoy, due) then Some(PorHacer)
      else if due < hoy then Some(EnProcesoFuera)
      else None
    case Some(row) =>
      if row.estado == Inicio || row.estado == EnDesarrollo then
        (if due < hoy then Some(EnProcesoFuera) else Some(EnProcesoDentro))
      else if InWeek(hoy, due) || due < hoy then
        (if row.fechaEstado <= due then Some(FinalizadoDentro) else Some(FinalizadoFuera))
      else None
  }

  /** The tasks that increment counter b. */
  function InBucket(hoy: int, b: Bucket): Tarea -> bool
  {
    (t: Tarea) => Classify(t, hoy) == Some(b)
  }

  function IsCounted(hoy: int): Tarea -> bool
  {
    (t: Tarea) => Classify(t, hoy).Some?
  }

  datatype Counters = Counters(
    porHacer: nat,
    enProcesoDentro: nat,
    enProcesoFuera: nat,
    finalizadoDentro: nat,
    finalizadoFuera: nat)
  {
    function Get(b: Bucket): nat
    {
      match b
      case PorHacer => porHacer
      case EnProcesoDentro => enProcesoDentro
      case EnProcesoFuera => enProcesoFuera
      case FinalizadoDentro => finalizadoDentro
      case FinalizadoFuera => finalizadoFuera
    }

    function Add(b: Bucket): (r: Counters)
      ensures r.Get(b) == Get(b) + 1
      ensures forall o :: o != b ==> r.Get(o) == Get(o)
      ensures r.Sum() == Sum() + 1
    {
      match b
      case PorHacer => this.(porHacer := porHacer + 1)
      case EnProcesoDentro => this.(enProcesoDentro := enProcesoDentro + 1)
      case EnProcesoFuera => this.(enProcesoFuera := enProcesoFuera + 1)
      case FinalizadoDentro => this.(finalizadoDentro := finalizadoDentro + 1)
      case FinalizadoFuera => this.(finalizadoFuera := finalizadoFuera + 1)
    }

    function Sum(): nat
    {
      porHacer + enProcesoDentro + enProcesoFuera + finalizadoDentro + finalizadoFuera
    }
  }

  const Zero := Counters(0, 0, 0, 0, 0)

  /** The counting loop over the user's tasks. */
  method Tally(tareas: seq<Tarea>, hoy: int) returns (c: Counters)
    ensures forall b :: c.Get(b) == Count(tareas, InBucket(hoy, b))
    ensures c.Sum() == Count(tareas, IsCounted(hoy))
    ensures c.Sum() <= |tareas|
  {
    c := Zero;
    var i := 0;
    while i < |tareas|
      invariant 0 <= i <= |tareas|
      invariant c == TallyOf(tareas[..i], hoy)
    {
      assert tareas[..i + 1][..i] == tareas[..i];
      c := Step(c, tareas[i], hoy);
      i := i + 1;
    }
    assert tareas[..i] == tareas;
    TallyCounts(tareas, hoy);
    CountAtMostLength(tareas, IsCounted(hoy));
  }

  /** One task of the loop: it moves at most one counter, the one of its bucket. */
  function Step(c: Counters, t: Tarea, hoy: int): Counters
  {
    var k := Classify(t, hoy);
    if k.Some? then c.Add(k.value) else c
  }

  /** The counters after the loop has visited every task of s. */
  function TallyOf(s: seq<Tarea>, hoy: int): Counters
    decreases |s|
  {
    if |s| == 0 then Zero else Step(TallyOf(s[..|s| - 1], hoy), s[|s| - 1], hoy)
  }

  /** Each counter holds the number of tasks of its bucket. */
  lemma {:induction false} TallyCounts(s: seq<Tarea>, hoy: int)
    ensures forall b :: TallyOf(s, hoy).Get(b) == Count(s, InBucket(hoy, b))
    ensures TallyOf(s, hoy).Sum() == Count(s, IsCounted(hoy))
    decreases |s|
  {
    if |s| > 0 {
      var n := |s| - 1;
      var prefix, t := s[..n], s[n];
      assert prefix + [t] == s;
      TallyCounts(prefix, hoy);
      forall b
        ensures TallyOf(s, hoy).Get(b) == Count(s, InBucket(hoy, b))
      {
        TallyKeepsCounts(prefix, t, hoy, b);
      }
      TallyKeepsCounts(prefix, t, hoy, PorHacer);
    }
  }

  /** One more task moves a counter exactly as it moves the count of its
      bucket, and the total as the count of tasks with a bucket. */
  lemma TallyKeepsCounts(prefix: seq<Tarea>, t: Tarea, hoy: int, b: Bucket)
    ensures TallyOf(prefix + [t], hoy).Get(b) - Count(prefix + [t], InBucket(hoy, b))
         == TallyOf(prefix, hoy).Get(b) - Count(prefix, InBucket(hoy, b))
    ensures TallyOf(prefix + [t], hoy).Sum() - Count(prefix + [t], IsCounted(hoy))
         == TallyOf(prefix, hoy).Sum() - Count(prefix, IsCounted(hoy))
  {
    var s := prefix + [t];
    assert s[..|s| - 1] == prefix && s[|s| - 1] == t;
    TallyStep(prefix, t, hoy, b);
    StepMoves(TallyOf(prefix, hoy), t, hoy, b);
  }

  /** One task moves its own counter by one, and the total with it. */
  lemma StepMoves(c: Counters, t: Tarea, hoy: int, b: Bucket)
    ensures Step(c, t, hoy).Get(b) == c.Get(b) + (if Classify(t, hoy) == Some(b) then 1 else 0)
    ensures Step(c, t, hoy).Sum() == c.Sum() + (if Classify(t, hoy).Some? then 1 else 0)
  {
  }

  /** One more task adds one to the count of its own bucket, and to the
      count of tasks counted at all when it has a bucket. */
  lemma TallyStep(done: seq<Tarea>, t: Tarea, hoy: int, b: Bucket)
    ensures Count(done + [t], InBucket(hoy, b)) == Count(done, InBucket(hoy, b)) + (if Classify(t, hoy) == Some(b) then 1 else 0)
    ensures Count(done + [t], IsCounted(hoy)) == Count(done, IsCounted(hoy)) + (if Classify(t, hoy).Some? then 1 else 0)
  {
    CountSnoc(done, t, InBucket(hoy, b));
    CountSnoc(done, t, IsCounted(hoy));
  }

  /** `sum(contador.values()) or 1`: the divisor of the shares is never zero. */
  function Divisor(c: Counters): (n: nat)
    ensures n >= 1
    ensures c.Sum() > 0 ==> n == c.Sum()
    ensures c.Sum() == 0 ==> n == 1
  {
    if c.Sum() == 0 then 1 else c.Sum()
  }

  /** A task in 'inicio' or 'en_desarrollo' is always counted. */
  lemma InProgressAlwaysCounted(t: Tarea, hoy: int)
    requires t.estado.Some? && (t.estado.value.estado == Inicio || t.estado.value.estado == EnDesarrollo)
    ensures Classify(t, hoy).Some?
  {
  }

  lemma {:induction false} CountAtMostLength<T>(s: seq<T>, p: T -> bool)
    ensures Count(s, p) <= |s|
    decreases |s|
  {
    if |s| > 0 {
      CountAtMostLength(s[1..], p);
    }
  }
}
